=== FILE: README.md ===
# exceptions.js and errorHandler.js in Dafny

This project models two browser error reporters from the same repository.

**exceptions.js** is the main library. A managed `Exception` wraps a native error and resolves its name. It fills a data object with default keys, without overwriting truthy ones. It receives six capability flags (an `Options` object), which a process-wide `Guard` restricts in place. It may capture a stack trace, a screenshot and a DOM dump. When reported, it runs three flag-gated sinks (a POST, the platform, a callback) in a fixed order and appends one entry to the handler's ledger. While a screenshot is pending, `report()` instead queues a finalizer that runs when the render completes. Variants (`ArgumentException`, `TypeException`, ...) are kept in a registry. Each variant has its own default options and the static helpers `throwIf`, `reportIf` and `defaultOptions`. The `handler` classifies whatever reaches `window.onerror` into a variant, filtered by its scope.

**errorHandler.js** is an older standalone reporter. It normalises an error into a plain object. A guard then picks three actions: retrieve a stack trace, take a screenshot, submit. `validateGuard` switches off the actions the configuration cannot support, noting one message per refusal on the object. The error is logged, and the actions run: scripts are loaded on demand, a screenshot is rendered and then submitted, or the error is submitted at once as a query string.

The two files are modelled as written. Where the code departs from its documentation, the model follows the code, and a lemma shows the consequence:

- The windowed count stops at the first entry newer than the threshold. So on a time-ordered log it is the whole log or nothing (`Ledger.TimeOrderedAllOrNothing`, `Ledger.OldAndFreshReport`).
- The default burst rule assigns a function instead of calling it, so it restricts nothing (`Guards.DefaultGuardIsAvailabilityOnly`).
- A guard rule may turn flags on, so the guarded options need not lie within the requested ones (`Guards.EnablingRuleEscapesRequest`).
- `toggleAll()` without an argument raises a TypeError. The first accessor acts as a getter and returns a boolean, and the next accessor is called on that boolean (`OptionsModel.Options.ToggleAll`).
- `report()` twice while a screenshot is pending enters the exception into the ledger twice (`Exceptions.ReportTwiceWhilePending`).
- `validateGuard` copies the stack switch under `retrieveStackTrace`, but `handleErrorInternal` reads `retrieveStacktrace`. So errorHandler.js never retrieves a stack (`ErrorHandler.ValidatedNeverFetchesStack`).
- `isValue` rejects the string `"undefined"` and accepts the value `undefined` (`ErrorHandler.IsValueQuirk`).
- The `stack` pair is always serialised last, even when there is no stack (`ErrorHandler.StackPairLast`).

Modules:

| module | file | contents |
|---|---|---|
| `Js` | js.dfy | JavaScript values, truthiness, `\|\|`, `String(v)`, `join`, and `encodeURIComponent` (ECMA-262 5.1, section 15.1.3.4) |
| `Utilities` | utilities.dfy | `utilities.functionName` |
| `OptionsModel` | options.dfy | `Options` |
| `Ledger` | ledger.dfy | the backward-scanning windowed count both files use |
| `Guards` | guard.dfy | `Guard` and its rules |
| `Exceptions` | exceptions.dfy | `Exception`, the registry of variants, `handler` |
| `ErrorHandler` | errorhandler.dfy | errorHandler.js |

The browser enters only as inputs:

- `Host` carries the user agent string, location, date text, the stack of a fresh error, the `printStackTrace()` output, the page markup and the clock.
- Booleans record whether `html2canvas`, `printStackTrace` and `getComputedStyle` are defined.
- The handler's settings say whether calling the configured `beforeReport` or `reportCallback` raises. A truthy hook that is not a function counts as raising.
- Explicit event methods stand for "this script finished loading" and "html2canvas finished rendering".

HTTP requests and user callbacks are recorded, in order, as events (exceptions.js) or submissions (errorHandler.js).

## Model

| member | source | states |
|---|---|---|
| Js.EncodedShape | errorHandler.js:91-103 | the output of `encodeURIComponent` holds only unescaped characters, `%` and hex digits, so never `&` or `=` |
| Js.EncodedConcat | errorHandler.js:91-103 | concatenating two encoded strings gives an encoded string |
| Js.EncodedHasNoSeparators | errorHandler.js:91-103 | an encoded string contains neither separator `&` nor `=` |
| Utilities.IndexOf | exceptions.js:94 | `indexOf` returns -1 exactly when the character is absent; otherwise it returns the index of its first occurrence |
| Utilities.FunctionName | exceptions.js:91-96 | the name never contains `(`, and is empty or fits within the source after `"function "` |
| Utilities.FunctionNameOfDeclared | exceptions.js:91-96 | `functionName` returns the declared name of every function whose name has no `(` |
| Utilities.NoParenMeansEmptyName | exceptions.js:91-96 | source text without `(` yields the empty name |
| OptionsModel.Snapshot.With | exceptions.js:126-208 | a setter changes its own flag to the given value and no other flag |
| OptionsModel.Initial | exceptions.js:110-115 | a flag takes the config's value when the config defines it (kept as given, not converted to boolean), else `true` |
| OptionsModel.InitialSnapshot | exceptions.js:106-116 | every flag of a new object is `Initial` of the config |
| OptionsModel.ConfigOf | exceptions.js:282-289 | the copy's config carries every flag's current value |
| OptionsModel.CopyKeepsDefinedFlags | exceptions.js:277-292 | copying through a config keeps every defined flag; when all flags are defined, the copy equals the original |
| OptionsModel.Options.constructor | exceptions.js:106-116 | the new object's flags are `InitialSnapshot(config)` |
| OptionsModel.Options.Access | exceptions.js:126-208 | with no argument, the accessor returns the stored value and changes nothing; otherwise it stores `Boolean(enable)` in that flag only and returns the object itself |
| OptionsModel.Options.ToggleAll | exceptions.js:209-217 | with an argument, all six flags equal `Boolean(enable)`; with none, a TypeError and the flags are unchanged |
| OptionsModel.Options.Copy | exceptions.js:277-292 | a fresh object whose flags are the copy of this object's flags |
| Ledger.NewestAbove | exceptions.js:1078-1085 | the count is at most the log's length; the entry just below it is newer than the threshold; every entry from it onward is not |
| Ledger.NewestAboveUnique | exceptions.js:1078-1085 | those three properties determine the count uniquely |
| Ledger.WindowCount | exceptions.js:1068-1086 | without a window the count is the whole log; it never exceeds the log's length |
| Ledger.CountReported | exceptions.js:1068-1086 | the backward loop returns `WindowCount` of the timestamps |
| Ledger.TimeOrderedAllOrNothing | errorHandler.js:262-270 | on a time-ordered log the windowed count is the whole log or 0 |
| Ledger.CountAboveAtMostNewest | exceptions.js:1062-1086 | the scan never counts fewer than the entries newer than the threshold, which is what the documentation promises |
| Ledger.AllAboveCountsAgree | exceptions.js:1062-1086 | when every entry is newer than the threshold, the scan and the documented count agree |
| Ledger.OldAndFreshReport | errorHandler.js:262-270 | an old report and a fresh one in a one-second window count as 2, although only 1 lies in the window |
| Guards.Availability | exceptions.js:798-820 | the availability rule sets flags only to `false` and never touches `DOMDump` |
| Guards.AvailabilityClearsExactlyUnprovided | exceptions.js:798-820 | it clears exactly the flags whose resource is missing and keeps the others as they were; the stack trace is cleared only with no native stack and no stacktrace URL |
| Guards.RestrictRespectsAvailability | exceptions.js:856-862 | after restriction, every flag whose resource is missing is off, and the availability step enables nothing the rules left off |
| Guards.EnablingRuleEscapesRequest | exceptions.js:852-855 | a custom rule can enable flags the request had off |
| Guards.BurstRule | exceptions.js:834-840 | a burst rule applies its effect only when the count is strictly above its limit; without an effect it never changes the options |
| Guards.DefaultGuardIsAvailabilityOnly | exceptions.js:1216-1220 | the default guard's rules change nothing, so it is only the availability rule |
| Guards.EffectlessRulesChangeNothing | exceptions.js:834-840 | any sequence of burst rules without an effect leaves the options unchanged |
| Guards.Guard.constructor | exceptions.js:790-796 | a new guard has no rules |
| Guards.Guard.ProtectAgainstBurst | exceptions.js:828-843 | a missing, zero or negative count fails and registers nothing; otherwise exactly one burst rule is appended |
| Guards.Guard.ProtectAgainst | exceptions.js:852-855 | exactly one custom rule is appended |
| Guards.Guard.Restrict | exceptions.js:856-862 | returns the very object it was given, whose flags become the rules' result in registration order followed by the availability rule |
| Guards.NewDefaultGuard | exceptions.js:1216-1220 | the guard holds the two effectless burst rules, 10 in 10 seconds and 20 in all |
| Exceptions.NativeFunctionName | exceptions.js:515 | `functionName` of a native constructor is its kind's name |
| Exceptions.ResolveNameCases | exceptions.js:512-516 | the name is the config's name when given; else the error's own name when it differs from its constructor's name; else the variant's function name |
| Exceptions.ExceptionText | exceptions.js:505-510 | `toString` is `"name - message"` for a non-empty message and the bare name otherwise |
| Exceptions.ExceptionTextStartsWithName | exceptions.js:505-510 | the text starts with the name, and is exactly the name iff the message is empty |
| Exceptions.PopulatedKeepsCallerData | exceptions.js:518-555 | populating never changes a truthy entry or a key outside the nine default keys, so never `message` or `stack` |
| Exceptions.PopulatedFillsDefaults | exceptions.js:518-525 | a falsy `url`, `date` or `browser` receives the host's value |
| Exceptions.PopulatedFillsFromError | exceptions.js:539-541 | a truthy error field fills a falsy entry (shown for `lineNumber`) |
| Exceptions.DataBag.Populate | exceptions.js:518-555 | the entries become `Populated` of the old entries |
| Exceptions.Exception.Describe | exceptions.js:505-510 | `toString` of the exception, as `ExceptionText` |
| Exceptions.Exception.Serialize | exceptions.js:480-495 | the serial form mirrors name, message, stack trace, the very data object and the error; its inner form is absent exactly when there is no inner exception; the nesting depth is bounded by the chain |
| Exceptions.FinalizeTraceOrdered | exceptions.js:556-569 | a finalizer (queued or run by `report()` at lines 447-468)'s events are all about this exception, in the order beforeReport, post, platform, callback, each at most once |
| Exceptions.FinalizeTraceSinks | exceptions.js:556-569 | beforeReport is called exactly when it is set; a raising beforeReport (caught by `report()` at lines 447-468) ends the run before any sink; otherwise each sink fires exactly when its guarded flag is on (the callback only when one is configured) |
| Exceptions.OrderedAboutIncreasing | exceptions.js:556-569 | an ordered trace has strictly increasing ranks |
| Exceptions.KindVariant | exceptions.js:1121-1163 | each native kind selects a built-in variant that wraps that kind |
| Exceptions.BuiltinFunctionName | exceptions.js:664-788 | each built-in variant's name is recovered from its constructor's source |
| Exceptions.Handler.constructor | exceptions.js:1193-1199 | the handler starts with the default guard, the two CDN URLs, scope `all`, nothing else configured and nothing reported |
| Exceptions.Handler.SetupDefaultGuard | exceptions.js:1216-1220 | a fresh guard with the default rules replaces the old one; nothing else changes |
| Exceptions.Handler.Scope | exceptions.js:906-919 | any defined value is stored as it is and the handler is returned; with no argument the scope is returned and nothing changes |
| Exceptions.Handler.RetrieveReportedExceptionsCount | exceptions.js:1068-1086 | the windowed count over the ledger's timestamps; without a window, the ledger's length |
| Exceptions.Handler.PushReportedException | exceptions.js:1221-1224 | exactly one entry is appended, and nothing else changes |
| Exceptions.Handler.RetrieveStacktrace | exceptions.js:570-582 | returns `RetrievedStack`; requests stacktrace.js only when there is no stack, no `printStackTrace` and no completed load |
| Exceptions.Handler.OnStacktraceJsLoaded | exceptions.js:1036-1041 | the load completing consumes its request (the callback runs once) and records the attempt; `printStackTrace` is defined afterwards only when the script defines it, and otherwise the stack stays unavailable with no new request |
| Exceptions.Exception.TakeScreenshot | exceptions.js:583-620 | requests html2canvas when it is missing and no load completed; marks the capture complete when a load completed without it; otherwise starts one render |
| Exceptions.Exception.OnHtml2CanvasLoaded | exceptions.js:1046-1051 | the load consumes its request (the callback runs once) and records the attempt; when the script defines `html2canvas` the retried capture starts one render, and otherwise it marks the capture complete with no render, so queued finalizers stay queued |
| Exceptions.Exception.Capture | exceptions.js:371-376 | the screenshot when its guarded flag is on, then the DOM dump when its flag is on; the listeners and the ledger are untouched |
| Exceptions.Exception.Finalize | exceptions.js:556-569 | appends the finalizer's events; appends exactly one ledger entry unless the run ends first, because beforeReport raises (caught by `report()` at lines 447-468) or the callback flag is on with no callback or a raising one |
| Exceptions.Exception.Report | exceptions.js:447-468 | while a screenshot is pending, appends exactly one listener and does nothing else; otherwise runs the finalizer now |
| Exceptions.Exception.OnRendered | exceptions.js:595-601 | stores the image, marks the capture complete, and runs the queued finalizers in order, each appending its events and one entry; a finalizer whose run ends early (a raising hook, or the callback flag without a working callback) appends its events but no entry, and stops the run, so no later finalizer runs |
| Exceptions.ReportTwiceWhilePending | exceptions.js:447-468 | two reports while a screenshot is pending put the exception into the ledger twice, when neither hook raises |
| Exceptions.TakeObjects | exceptions.js:361-362 | the caller's data and options objects are used by reference; otherwise a fresh empty data object and a copy of the variant's default |
| Exceptions.Prepare | exceptions.js:356-370 | the error, name, data and options of a new exception: options restricted in place by the guard, data populated, stack trace retrieved when the guarded flag is on |
| Exceptions.NewException | exceptions.js:350-383 | the new exception is `Built` from its inputs, its options object is the guarded one, and it requests at most the scripts its flags need |
| Exceptions.Classify | exceptions.js:1105-1181 | a `Build` plan always names one of the ten built-in variants; the plan is `Crash` exactly when, outside scopes `none` and `exceptions`, `null` is thrown with a falsy error message |
| Exceptions.ScopeFilter | exceptions.js:1105-1120 | scope `none` handles nothing; scope `exceptions` handles exactly managed exceptions; a managed exception is reported as it is |
| Exceptions.NativeErrorVariant | exceptions.js:1121-1163 | a native error becomes the variant of its kind and wraps the very error; without a name of its own it takes the variant's name |
| Exceptions.OtherValuesBecomeExceptions | exceptions.js:1164-1184 | a string becomes an `Exception` message unless an error message is given; any other defined value is noted under `errorWithUnknownType`; `null` with a truthy error message becomes an `Exception` with that message and is noted, and without one it fails on `toString`; `undefined` becomes a plain `Exception` |
| Exceptions.HandleUrlShadowed | exceptions.js:1187 | the page location set during population shadows the `url` given to `handle` |
| Exceptions.Handler.Handle | exceptions.js:1094-1191 | ignored values change nothing; `null` with a falsy error message fails after noting itself, and with a truthy one is built and reported as an `Exception`; a managed exception is reported as it is; otherwise the chosen variant is built with the requested options restricted by the guard and the data filled, and reported once |
| Exceptions.Handler.BuildFor | exceptions.js:1121-1184 | the built exception shares the caller's data object and has fresh options as requested |
| Exceptions.Handler.FinishHandle | exceptions.js:1186-1190 | `url`, `lineNumber` and `columnNumber` fill the data only where falsy, then exactly one report |
| Exceptions.Registry.constructor | exceptions.js:664-788 | the ten built-in variants, in order, each with every static installed and every flag on by default |
| Exceptions.Registry.RegisterBuiltin | exceptions.js:673-788 | each built-in registration keeps the registry's built-in prefix intact |
| Exceptions.Registry.DefaultOptions | exceptions.js:277-292 | the getter returns a fresh object holding the stored default's flags, so changing it leaves the default alone |
| Exceptions.Registry.SetDefaultOptions | exceptions.js:279-282 | the setter stores the object itself and changes no other variant |
| Exceptions.Registry.Register | exceptions.js:294-324 | appends one variant: statics installed only where the constructor lacks them; the explicit default, or a copy of the base's default |
| Exceptions.Registry.CreateCustomException | exceptions.js:230-243 | an unnamed constructor is refused with an `ArgumentException` and nothing is registered; otherwise exactly one variant is appended |
| Exceptions.ThrowIf | exceptions.js:245-259 | with the helper installed, an exception is created exactly when the condition is truthy, with the given message or `"Condition evaluated to truthy"` |
| Exceptions.ReportIf | exceptions.js:261-275 | as `ThrowIf`, and the created exception is reported |
| ErrorHandler.IsValueQuirk | errorHandler.js:36-38 | `undefined` passes `isValue`; the string `"undefined"` and `null` do not; every other string passes |
| ErrorHandler.PutGet | errorHandler.js:182-193 | after an assignment, the key reads the new value and every other key reads as before |
| ErrorHandler.PutValid | errorHandler.js:182-193 | assignment keeps the enumerable keys distinct and owned |
| ErrorHandler.ConstructErrorObject | errorHandler.js:169-196 | `undefined` or `null` fails; a primitive yields a fresh object; an object is updated in place; the result is `Constructed` |
| ErrorHandler.FromScalarMessage | errorHandler.js:174-176 | a primitive becomes the message of the fresh object, unless it is the string `"undefined"` |
| ErrorHandler.FromObjectFields | errorHandler.js:177-193 | each of the four fields takes the object's own truthy value over the argument, and is written only when the choice passes `isValue` |
| ErrorHandler.ChosenKeepsTruthy | errorHandler.js:179-182 | a truthy own field survives normalisation |
| ErrorHandler.FromObjectShape | errorHandler.js:177-193 | every other property keeps its value, the existing keys keep their order, and the object stays well formed |
| ErrorHandler.PutIfValueStep | errorHandler.js:182-193 | one conditional write changes only its key, and only when `isValue` holds |
| ErrorHandler.PushErrorHandlerMessage | errorHandler.js:204-209 | creates the list if it is missing and appends exactly one message; a truthy non-array list raises a TypeError and nothing changes |
| ErrorHandler.WithMessageAppends | errorHandler.js:204-209 | one push appends the message at the end, keeps the earlier ones, and leaves every other property alone |
| ErrorHandler.WithMessagesAppends | errorHandler.js:222-255 | successive pushes append exactly their messages, in order |
| ErrorHandler.DefaultGuardOnOrderedLog | errorHandler.js:278-295 | on a time-ordered log the default guard switches everything off iff more than 20 errors are logged, or more than 5 are logged and the newest is less than a second old |
| ErrorHandler.Reporter.DefaultGuard | errorHandler.js:278-295 | everything off past 5 errors in the last second (as counted) or 20 in all; otherwise screenshot and submit on, and stack trace on iff the error has a stack |
| ErrorHandler.Reporter.CountNumErrorsWithin | errorHandler.js:262-270 | the windowed count over the log's timestamps |
| ErrorHandler.Reporter.RunGuard | errorHandler.js:366 | the configured guard's decision on the object, the log and `isReport`; none before `configure` |
| ErrorHandler.ValidateNeverEnables | errorHandler.js:222-255 | validation never turns an action on; it turns the screenshot off whenever the submission is off; the `retrieveStacktrace` key is never truthy |
| ErrorHandler.OneMessagePerRefusal | errorHandler.js:222-255 | exactly one message per refused action, and the stack refusal's three causes |
| ErrorHandler.Reporter.ValidateGuard | errorHandler.js:222-255 | on success, returns `Validate` and appends exactly the refusal messages; a failing first push leaves the object unchanged |
| ErrorHandler.Reporter.CheckStack | errorHandler.js:228-238 | the first failing stack-trace check writes `false` and pushes its message |
| ErrorHandler.Reporter.CheckSubmit | errorHandler.js:241-244 | submitting without a URL is refused with one message |
| ErrorHandler.Reporter.CheckScreenshot | errorHandler.js:247-253 | a screenshot without a URL, or without a validated submission, is refused with one message |
| ErrorHandler.SerializeToQueryString | errorHandler.js:81-106 | the body is `QueryString` of the object |
| ErrorHandler.SerializeOwn | errorHandler.js:91-96 | the first loop emits one pair per enumerable property not in the known list, in order |
| ErrorHandler.SerializeKnown | errorHandler.js:98-104 | the second loop emits one pair per known property whose name passes `isValue` |
| ErrorHandler.StackPairLast | errorHandler.js:98-104 | the known pairs are exactly the `stack` pair, whatever the object holds |
| ErrorHandler.QueryStringSplits | errorHandler.js:81-106 | splitting the body on `&` gives exactly the emitted pairs: each non-`stack` property in order, then `stack` |
| ErrorHandler.PairSplits | errorHandler.js:94 | each pair splits on `=` into the encoded name and the encoded value |
| ErrorHandler.SplitJoin | errorHandler.js:105 | splitting a join recovers the parts when none contains the separator |
| ErrorHandler.OwnPairsWithoutKnown | errorHandler.js:91-96 | with no known key among them, there is one pair per enumerable key, in order |
| ErrorHandler.ValidatedNeverFetchesStack | errorHandler.js:222-325 | a validated decision never loads stacktrace.js and never retrieves a stack; html2canvas is loaded iff a screenshot is wanted and missing; the error is submitted at once iff it is submitted without a screenshot |
| ErrorHandler.StepsLoadEachScriptOnce | errorHandler.js:304-343 | a script is requested only while its global is missing; once both are defined the handling runs; each step does at most one of loading, rendering or submitting |
| ErrorHandler.ValidatedSubmitsOnce | errorHandler.js:324-343 | a validated error is sent exactly when its submission switch is on, at once or after its one screenshot |
| ErrorHandler.OffDoesNothing | errorHandler.js:222-343 | an all-off decision is never refused and leads to no load, render or submission |
| ErrorHandler.FloodedDefaultGuardDoesNothing | errorHandler.js:278-374 | past 20 logged errors the default guard logs the error as constructed, with no message, load, render or submission |
| ErrorHandler.Reporter.constructor | errorHandler.js:11-28 | nothing is configured, logged, loaded or sent |
| ErrorHandler.Reporter.Configure | errorHandler.js:434-456 | the guard is the config's or the default; the URLs and the window flag are stored; the hook is installed at most once, when asked for; the log is untouched |
| ErrorHandler.Reporter.SubmitError | errorHandler.js:114-128 | exactly one submission of the object as it is now; nothing else changes |
| ErrorHandler.Reporter.HandleInternal | errorHandler.js:304-350 | a missing script is requested with a tag that resumes the call; otherwise the stack is retrieved if asked, then a render starts or the error is submitted at once |
| ErrorHandler.Reporter.OnScriptLoaded | errorHandler.js:313-322 | records the global only when the loaded script defines it (a script that does not is requested again by the resumed handling); its tag is removed and the handling resumes as `HandleInternal` |
| ErrorHandler.Reporter.OnRendered | errorHandler.js:62-77 | the image is stored when it could be taken, the render is removed, and the error is submitted when its switch is on |
| ErrorHandler.Reporter.Assess | errorHandler.js:365-367 | construct, guard and validate, exactly as `Assessed` says; a failure leaves the argument as constructed |
| ErrorHandler.Reporter.Log | errorHandler.js:368-369 | the error is logged after the guard ran, so the guard saw only earlier errors; then the handling runs without changing the logged object |
| ErrorHandler.Reporter.HandleError | errorHandler.js:363-374 | a failure before logging changes nothing but the argument; otherwise exactly one log entry and the handling, as `HandledAs` states |
| ErrorHandler.Reporter.WindowOnError | errorHandler.js:380-392 | with the hook installed and enabled, the error is handled as not reported; otherwise nothing changes |
| ErrorHandler.Reporter.Report | errorHandler.js:400-407 | before `configure`, it throws and nothing changes; otherwise the error is handled as reported, with the page URL |

## Left out

- HTTP delivery: the `XMLHttpRequest` calls in `_reportPost`, `_reportToExceptionsJsPlatform` and `submitError` are recorded only as events or submissions. Request headers (`submitErrorRequestHeaders` and the report-post headers) and `JSON.stringify` are not modelled.
- The DOM and script loading: `scriptTag`, `readyState`, html2canvas rendering and `window.scrollTo` are reduced to request lists and explicit load and render events. `printStackTrace()` is a host input (exceptions.js) or a parameter (errorHandler.js). `getComputedStyle` is a boolean.
- `utilities.getBrowser` is a host-supplied string, because it parses the user agent. `Date()` and `Date.now()` are a `now` parameter and a date string, with one instant per call.
- `console.log` output is not modelled. The catch-all `try`/`catch` blocks appear only as the failure outcomes their branches produce.
- `window.onerror` chaining: `_setupOnError` and the call to the previous handler are event-hook plumbing. In errorHandler.js the hook is modelled by `WindowOnError`, without the previous handler.
- Prototype plumbing (`Object.create`, `_inherits`, `instanceof`) is replaced by variant indices with a base index and a closed set of native error kinds. Inherited and non-own properties are not modelled.
- The handler's plain configuration accessors (`guard`, `html2canvasUrl`, `stacktraceUrl`, `beforeReport`, `reportPost`, `reportToExceptionsJsPlatform`, `clientId`, `to`, `reportCallback`, `reportedExceptions`) are fields of the handler's settings, not methods. The `Exception` getters and `toJSONString` are fields and `Serialize`.
- Numbers are integers: floating point, `NaN` and the ordering of integer-like keys in `for...in` are not modelled.
- Guard rules and guard functions are total functions of what they see (options and exception view; or properties, timestamps and `isReport`). A rule that throws, or a guard function that mutates the error object, is not modelled.
- Exceptions.Classify / HasStack: a thrown object that is not a native `Error` (a plain object, or an `Error` from another window) is an `Obj` without properties. Its own `stack` and its own `toString` are not modelled. `handle` reads both on any object (exceptions.js:1102 and 1174). In the model such an object never requests a stack trace, and it converts to `"[object Object]"`.
- Exceptions.Exception.OnRendered: a `toDataURL` failure inside html2canvas's callback is not modelled (exceptions.js). The render always yields an image.
- ErrorHandler.Reporter.Report: `window.location.href` is the `href` parameter.
- Exceptions.Registry.Register / CreateCustomException: a constructor that brings its own `defaultOptions` function is not modelled. `_mixStaticFunctions` leaves such a function in place and `_setupDefaults` then calls it (exceptions.js:297-322), and what it does is foreign code. The model admits only constructors without it, so every variant's defaults live in the registry.
- Guards.Guard.ProtectAgainstBurst: a missing, zero or negative count is reported as `false`. The `ArgumentException` that `throwIf` raises there is not built, so the guard run and script requests of its construction are not modelled (exceptions.js:832).
- Js.EncodeURIComponent: a Dafny `char` cannot hold a lone UTF-16 surrogate, so the `URIError` that `encodeURIComponent` raises for one is not modelled. In errorHandler.js that error would end `submitError` inside `handleErrorInternal`'s `catch`.

=== FILE: errorhandler.dfy ===
/**
 * errorHandler.js: the standalone reporter. An error is normalised into a
 * plain error object, a guard decides which of three actions to take
 * (retrieve a stack trace, take a screenshot, submit to a server), the
 * decision is validated against the configuration, the error is logged,
 * and the actions run; a submission is the error object serialised as a
 * query string.
 */
module ErrorHandler {
  import opened Js
  import Ledger
  import Utilities

  /** `isValue`: anything but `null` and the STRING `"undefined"`; the value
      `undefined` itself passes. */
  predicate IsValue(v: Value) {
    v != Str("undefined") && v != Null
  }

  /** `undefined` counts as a value, while the text `"undefined"` does not. */
  lemma IsValueQuirk()
    ensures IsValue(Undefined)
    ensures !IsValue(Str("undefined")) && !IsValue(Null)
    ensures forall s: string :: s != "undefined" ==> IsValue(Str(s))
  {
  }

  /* --------------------------------------------------------- error objects */

  /** An object's own properties: `keys` lists the enumerable ones in the
      order they were created (the order `for...in` visits them, integer-like
      keys aside), `values`
      holds every own property, enumerable or not (a native error's
      `message` and `stack` are not). */
  datatype Props = Props(keys: seq<string>, values: map<string, Value>)
  {
    /** `obj[k]`; a missing property reads as `undefined`. */
    function Get(k: string): Value {
      if k in values then values[k] else Undefined
    }

    /** `obj[k] = v`: a new property is enumerable and comes last; an
        existing one keeps its place and its enumerability. */
    function Put(k: string, v: Value): Props {
      Props(if k in values then keys else keys + [k], values[k := v])
    }

    /** Every enumerable key is listed once and is an own property. */
    ghost predicate Valid() {
      (forall i, j :: 0 <= i < j < |keys| ==> keys[i] != keys[j]) &&
      (forall i :: 0 <= i < |keys| ==> keys[i] in values)
    }
  }

  const Empty := Props([], map[])

  /** After `obj[k] = v`, reading `k` gives `v` and every other property
      reads as before. */
  lemma PutGet(p: Props, k: string, v: Value)
    ensures p.Put(k, v).Get(k) == v
    ensures forall j :: j != k ==> p.Put(k, v).Get(j) == p.Get(j)
  {
  }

  /** Assignment keeps an object well formed. */
  lemma PutValid(p: Props, k: string, v: Value)
    requires p.Valid()
    ensures p.Put(k, v).Valid()
  {
    var r := p.Put(k, v);
    if k !in p.values {
      forall i, j | 0 <= i < j < |r.keys|
        ensures r.keys[i] != r.keys[j]
      {
        if j == |p.keys| {
          assert p.keys[i] in p.values;
        }
      }
    }
  }

  /** An object that the reporter reads and writes in place. */
  class ErrorObject {
    var own: Props

    /** `{ }` */
    constructor ()
      ensures own == Empty
    {
      own := Empty;
    }

    /** `obj[k] = v` */
    method Set(k: string, v: Value)
      modifies this
      ensures own == old(own).Put(k, v)
    {
      own := own.Put(k, v);
    }
  }

  /* -------------------------------------------- constructErrorObject */

  /** A primitive thrown value: `typeof` is number, string or boolean. */
  datatype Scalar = Number(n: int) | Text(s: string) | Boolean(b: bool)

  function ScalarValue(s: Scalar): Value {
    match s
    case Number(n) => Num(n)
    case Text(t) => Str(t)
    case Boolean(b) => Bool(b)
  }

  /** The `errorObj` argument of `handleError`. */
  datatype ErrorArg =
    | Primitive(p: Scalar)
    | Missing(isNull: bool)   // `undefined` or `null`
    | Object(obj: ErrorObject)

  /** `if (isValue(v)) obj[k] = v;` */
  function PutIfValue(p: Props, k: string, v: Value): Props {
    if IsValue(v) then p.Put(k, v) else p
  }

  /** The four writes that end `constructErrorObject`. */
  function WriteFields(p: Props, message: Value, url: Value, lineNumber: Value, columnNumber: Value): Props {
    PutIfValue(PutIfValue(PutIfValue(PutIfValue(p, "message", message), "url", url), "lineNumber", lineNumber),
               "columnNumber", columnNumber)
  }

  /** The error object built from a primitive: a fresh object whose message
      is the primitive. */
  function FromScalar(s: Scalar, url: Value, lineNumber: Value, columnNumber: Value): Props {
    WriteFields(Empty, ScalarValue(s), url, lineNumber, columnNumber)
  }

  /** The given object after `constructErrorObject`: its own truthy
      `message`, `url`, `lineNumber` and `columnNumber` win over the
      arguments. */
  function FromObject(p: Props, errorMsg: Value, url: Value, lineNumber: Value, columnNumber: Value): Props {
    WriteFields(p, Or(p.Get("message"), errorMsg), Or(p.Get("url"), url),
                Or(p.Get("lineNumber"), lineNumber), Or(p.Get("columnNumber"), columnNumber))
  }

  /** The properties of the argument object, if there is one. */
  function ArgProps(arg: ErrorArg): Props
    reads if arg.Object? then {arg.obj} else {}
  {
    if arg.Object? then arg.obj.own else Empty
  }

  /** What `constructErrorObject` leaves, given the argument's properties
      `p` beforehand. */
  function Constructed(arg: ErrorArg, p: Props, errorMsg: Value, url: Value, lineNumber: Value, columnNumber: Value)
    : Props
  {
    match arg
    case Primitive(s) => FromScalar(s, url, lineNumber, columnNumber)
    case Missing(_) => p
    case Object(_) => FromObject(p, errorMsg, url, lineNumber, columnNumber)
  }

  /** `constructErrorObject(errorMsg, url, lineNumber, columnNumber, errorObj)`.
      Reading `message` of `undefined` or `null` raises a TypeError: `None`. */
  method ConstructErrorObject(errorMsg: Value, url: Value, lineNumber: Value, columnNumber: Value, arg: ErrorArg)
    returns (r: Option<ErrorObject>)
    modifies if arg.Object? then {arg.obj} else {}
    ensures r.None? <==> arg.Missing?
    ensures arg.Primitive? ==> r.Some? && fresh(r.value)
    ensures arg.Object? ==> r == Some(arg.obj)
    ensures r.Some? ==> r.value.own == Constructed(arg, old(ArgProps(arg)), errorMsg, url, lineNumber, columnNumber)
  {
    var errObj: ErrorObject;
    var message, u, line, column := errorMsg, url, lineNumber, columnNumber;
    match arg {
      case Primitive(s) =>
        errObj := new ErrorObject();
        message := ScalarValue(s);
      case Missing(_) =>
        return None;
      case Object(o) =>
        errObj := o;
        message := Or(o.own.Get("message"), errorMsg);
        u := Or(o.own.Get("url"), url);
        line := Or(o.own.Get("lineNumber"), lineNumber);
        column := Or(o.own.Get("columnNumber"), columnNumber);
    }
    WriteFieldsTo(errObj, message, u, line, column);
    r := Some(errObj);
  }

  /** The `if (isValue(...))` writes, in order. */
  method WriteFieldsTo(errObj: ErrorObject, message: Value, url: Value, lineNumber: Value, columnNumber: Value)
    modifies errObj
    ensures errObj.own == WriteFields(old(errObj.own), message, url, lineNumber, columnNumber)
  {
    SetIfValue(errObj, "message", message);
    SetIfValue(errObj, "url", url);
    SetIfValue(errObj, "lineNumber", lineNumber);
    SetIfValue(errObj, "columnNumber", columnNumber);
  }

  /** `if (isValue(v)) errObj[k] = v;` */
  method SetIfValue(errObj: ErrorObject, k: string, v: Value)
    modifies errObj
    ensures errObj.own == PutIfValue(old(errObj.own), k, v)
  {
    if IsValue(v) {
      errObj.Set(k, v);
    }
  }

  /** The four fields `constructErrorObject` may write. */
  predicate Normalised(k: string) {
    k == "message" || k == "url" || k == "lineNumber" || k == "columnNumber"
  }

  /** The four field names differ (they differ in length). */
  lemma FieldNamesDistinct()
    ensures "message" != "url" && "message" != "lineNumber" && "message" != "columnNumber"
    ensures "url" != "lineNumber" && "url" != "columnNumber" && "lineNumber" != "columnNumber"
  {
    assert |"message"| == 7 && |"url"| == 3 && |"lineNumber"| == 10 && |"columnNumber"| == 12;
  }

  /** One conditional write: the object stays well formed, its keys keep
      their order, `k` changes only when `v` passes `isValue`, and nothing
      else changes. */
  lemma PutIfValueStep(p: Props, k: string, v: Value)
    requires p.Valid()
    ensures var r := PutIfValue(p, k, v);
            r.Valid() && |p.keys| <= |r.keys| && r.keys[..|p.keys|] == p.keys &&
            r.Get(k) == (if IsValue(v) then v else p.Get(k)) &&
            (forall j :: j != k ==> r.Get(j) == p.Get(j))
  {
    if IsValue(v) {
      PutValid(p, k, v);
      PutGet(p, k, v);
    }
  }

  /** On an object argument, every property other than the four fields
      keeps its value, the existing enumerable keys keep their order, and
      the object stays well formed. */
  lemma FromObjectShape(p: Props, errorMsg: Value, url: Value, lineNumber: Value, columnNumber: Value)
    requires p.Valid()
    ensures var r := FromObject(p, errorMsg, url, lineNumber, columnNumber);
            r.Valid() && |p.keys| <= |r.keys| && r.keys[..|p.keys|] == p.keys &&
            (forall k :: !Normalised(k) ==> r.Get(k) == p.Get(k))
  {
    var m, u, l, c := Or(p.Get("message"), errorMsg), Or(p.Get("url"), url),
                      Or(p.Get("lineNumber"), lineNumber), Or(p.Get("columnNumber"), columnNumber);
    var p1 := PutIfValue(p, "message", m);
    var p2 := PutIfValue(p1, "url", u);
    var p3 := PutIfValue(p2, "lineNumber", l);
    PutIfValueStep(p, "message", m);
    PutIfValueStep(p1, "url", u);
    PutIfValueStep(p2, "lineNumber", l);
    PutIfValueStep(p3, "columnNumber", c);
    var p4 := PutIfValue(p3, "columnNumber", c);
    assert p4.keys[..|p.keys|] == p.keys by {
      assert p4.keys[..|p3.keys|] == p3.keys && p3.keys[..|p2.keys|] == p2.keys;
      assert p2.keys[..|p1.keys|] == p1.keys && p1.keys[..|p.keys|] == p.keys;
    }
  }

  /** A conditional write leaves every other key alone (no validity needed). */
  lemma PutIfValueOther(p: Props, k: string, v: Value, j: string)
    requires j != k
    ensures PutIfValue(p, k, v).Get(j) == p.Get(j)
  {
    if IsValue(v) {
      PutGet(p, k, v);
    }
  }

  /** `v` goes under `k` when it passes `isValue`; otherwise `k` keeps its value. */
  function Chosen(current: Value, v: Value): Value {
    if IsValue(v) then v else current
  }

  /** On an object argument, each of the four fields takes the object's own
      value when that is truthy and the argument otherwise, and is written
      only when that choice passes `isValue`; so a truthy own field is kept. */
  lemma FromObjectFields(p: Props, errorMsg: Value, url: Value, lineNumber: Value, columnNumber: Value)
    ensures var r := FromObject(p, errorMsg, url, lineNumber, columnNumber);
            r.Get("message") == Chosen(p.Get("message"), Or(p.Get("message"), errorMsg)) &&
            r.Get("url") == Chosen(p.Get("url"), Or(p.Get("url"), url)) &&
            r.Get("lineNumber") == Chosen(p.Get("lineNumber"), Or(p.Get("lineNumber"), lineNumber)) &&
            r.Get("columnNumber") == Chosen(p.Get("columnNumber"), Or(p.Get("columnNumber"), columnNumber))
  {
    var m, u, l, c := Or(p.Get("message"), errorMsg), Or(p.Get("url"), url),
                      Or(p.Get("lineNumber"), lineNumber), Or(p.Get("columnNumber"), columnNumber);
    var p1 := PutIfValue(p, "message", m);
    var p2 := PutIfValue(p1, "url", u);
    var p3 := PutIfValue(p2, "lineNumber", l);
    var p4 := PutIfValue(p3, "columnNumber", c);
    FieldNamesDistinct();
    PutIfValueGet(p, "message", m);
    PutIfValueGet(p1, "url", u);
    PutIfValueGet(p2, "lineNumber", l);
    PutIfValueGet(p3, "columnNumber", c);
    PutIfValueOther(p1, "url", u, "message");
    PutIfValueOther(p2, "lineNumber", l, "message");
    PutIfValueOther(p3, "columnNumber", c, "message");
    PutIfValueOther(p, "message", m, "url");
    PutIfValueOther(p2, "lineNumber", l, "url");
    PutIfValueOther(p3, "columnNumber", c, "url");
    PutIfValueOther(p, "message", m, "lineNumber");
    PutIfValueOther(p1, "url", u, "lineNumber");
    PutIfValueOther(p3, "columnNumber", c, "lineNumber");
    PutIfValueOther(p, "message", m, "columnNumber");
    PutIfValueOther(p1, "url", u, "columnNumber");
    PutIfValueOther(p2, "lineNumber", l, "columnNumber");
  }

  lemma PutIfValueGet(p: Props, k: string, v: Value)
    ensures PutIfValue(p, k, v).Get(k) == Chosen(p.Get(k), v)
  {
    if IsValue(v) {
      PutGet(p, k, v);
    }
  }

  /** A truthy own field is kept: `Or` picks it, and it is either written
      back or left alone. */
  lemma ChosenKeepsTruthy(own: Value, arg: Value)
    requires Truthy(own)
    ensures Chosen(own, Or(own, arg)) == own
  {
  }

  /** A primitive becomes the message of a fresh object, unless it is the
      text `"undefined"`. */
  lemma FromScalarMessage(s: Scalar, url: Value, lineNumber: Value, columnNumber: Value)
    ensures var r := FromScalar(s, url, lineNumber, columnNumber);
            (s != Text("undefined") ==> r.Get("message") == ScalarValue(s)) &&
            (s == Text("undefined") ==> r.Get("message") == Undefined)
  {
    var v := ScalarValue(s);
    var p1 := PutIfValue(Empty, "message", v);
    var p2 := PutIfValue(p1, "url", url);
    var p3 := PutIfValue(p2, "lineNumber", lineNumber);
    PutIfValueGet(Empty, "message", v);
    PutIfValueOther(p1, "url", url, "message");
    PutIfValueOther(p2, "lineNumber", lineNumber, "message");
    PutIfValueOther(p3, "columnNumber", columnNumber, "message");
  }

  /* ------------------------------------------- pushErrorHandlerMessage */

  const MessagesKey := "errorHandlerMessages"

  /** Whether `errorHandlerMessages` can take a `push`: it is missing or
      falsy (and gets replaced by `[]`), or it is an array. Any other truthy
      value has no `push`, and calling it raises a TypeError. */
  predicate Pushable(v: Value) {
    !Truthy(v) || v.Arr?
  }

  /** The messages recorded on an object. */
  function Messages(p: Props): seq<string> {
    if p.Get(MessagesKey).Arr? then p.Get(MessagesKey).items else []
  }

  /** The object after `pushErrorHandlerMessage(obj, m)` succeeded. */
  function WithMessage(p: Props, m: string): Props {
    p.Put(MessagesKey, Arr(Messages(p) + [m]))
  }

  /** The object after pushing each of `ms` in turn. */
  function WithMessages(p: Props, ms: seq<string>): Props
    decreases |ms|
  {
    if ms == [] then p else WithMessage(WithMessages(p, ms[..|ms| - 1]), ms[|ms| - 1])
  }

  /** `pushErrorHandlerMessage(errorObj, message)`; `ok` is false when the
      push raises a TypeError, which leaves the object as it was. */
  method PushErrorHandlerMessage(obj: ErrorObject, message: string) returns (ok: bool)
    modifies obj
    ensures ok <==> Pushable(old(obj.own.Get(MessagesKey)))
    ensures ok ==> obj.own == WithMessage(old(obj.own), message)
    ensures !ok ==> obj.own == old(obj.own)
  {
    if !Truthy(obj.own.Get(MessagesKey)) {
      obj.Set(MessagesKey, Arr([]));
    }
    var list := obj.own.Get(MessagesKey);
    if !list.Arr? {
      return false;
    }
    obj.Set(MessagesKey, Arr(list.items + [message]));
    ok := true;
  }

  /** One push appends exactly one message at the end, keeps the earlier
      ones, leaves every other property alone, and can be followed by
      another push. */
  lemma WithMessageAppends(p: Props, m: string)
    ensures Messages(WithMessage(p, m)) == Messages(p) + [m]
    ensures forall k :: k != MessagesKey ==> WithMessage(p, m).Get(k) == p.Get(k)
    ensures Pushable(WithMessage(p, m).Get(MessagesKey))
  {
    PutGet(p, MessagesKey, Arr(Messages(p) + [m]));
  }

  /** Pushing a list of messages appends exactly that list. */
  lemma {:induction false} WithMessagesAppends(p: Props, ms: seq<string>)
    requires Pushable(p.Get(MessagesKey))
    ensures Messages(WithMessages(p, ms)) == Messages(p) + ms
    ensures forall k :: k != MessagesKey ==> WithMessages(p, ms).Get(k) == p.Get(k)
    ensures Pushable(WithMessages(p, ms).Get(MessagesKey))
    decreases |ms|
  {
    if ms != [] {
      var init, last := ms[..|ms| - 1], ms[|ms| - 1];
      var q := WithMessages(p, init);
      WithMessagesAppends(p, init);
      WithMessageAppends(q, last);
      assert WithMessages(p, ms) == WithMessage(q, last);
      assert Messages(p) + init + [last] == Messages(p) + ms;
    }
  }

  /** `pushErrorHandlerMessage` as one refusal of `validateGuard`, after the
      messages `pushed` went onto an object that had properties `p0`. */
  method Refuse(obj: ErrorObject, message: string, ghost p0: Props, ghost pushed: seq<string>) returns (ok: bool)
    requires obj.own == WithMessages(p0, pushed)
    requires pushed == [] || Pushable(p0.Get(MessagesKey))
    modifies obj
    ensures ok <==> Pushable(p0.Get(MessagesKey))
    ensures ok ==> obj.own == WithMessages(p0, pushed + [message])
    ensures !ok ==> obj.own == old(obj.own) && pushed == []
  {
    if pushed != [] {
      WithMessagesAppends(p0, pushed);
    }
    ok := PushErrorHandlerMessage(obj, message);
    assert (pushed + [message])[..|pushed|] == pushed;
  }

  /* ----------------------------------------------------------- the guard */

  /** What a guard returns: the three action switches. */
  datatype Decision = Decision(retrieveStacktrace: Value, takeScreenshot: Value, submitError: Value)

  const Off := Decision(Bool(false), Bool(false), Bool(false))

  /** A log entry of `encounteredErrors`. */
  type Encountered = Ledger.Stamped<ErrorObject>

  /** `defaultGuard(errorObj)` against a log with timestamps `stamps` at
      time `now`: nothing when more than 5 errors fall in the last second
      (as the backward scan counts them) or more than 20 were logged;
      otherwise a screenshot and a submission, and a stack trace only when
      the error already has a stack. */
  function DefaultDecision(p: Props, stamps: seq<int>, now: int): Decision {
    if Ledger.WindowCount(stamps, now, Some(1)) > 5 || |stamps| > 20 then Off
    else Decision(ToBool(p.Get("stack")), Bool(true), Bool(true))
  }

  /** On a log kept in time order the one-second count is all or nothing, so
      the default guard shuts off exactly when more than 20 errors were
      logged, or more than 5 were and the newest is less than a second old,
      however long ago the others happened. */
  lemma DefaultGuardOnOrderedLog(p: Props, stamps: seq<int>, now: int)
    requires Ledger.TimeOrdered(stamps)
    ensures DefaultDecision(p, stamps, now) == Off <==>
              |stamps| > 20 || (|stamps| > 5 && stamps[|stamps| - 1] > now - 1000)
  {
    Ledger.TimeOrderedAllOrNothing(stamps, Ledger.Threshold(now, 1));
    var n := Ledger.NewestAbove(stamps, Ledger.Threshold(now, 1));
    if |stamps| > 5 && stamps[|stamps| - 1] > now - 1000 {
      assert n == |stamps|;
    }
  }

  /** A guard function given to `configure`. It sees the new error's
      properties, the log's timestamps and whether the error came through
      `report`; returning `undefined` or `null` is `None`. */
  type CustomGuard = (Props, seq<int>, bool) -> Option<Decision>

  /** The guard in effect: none before `configure`, then `config.guard ||
      defaultGuard`. */
  datatype GuardChoice = NoGuard | DefaultGuardFn | CustomGuardFn(f: CustomGuard)

  /** The decision of `guard(errObj, encounteredErrors, isReport)`; `None`
      when calling the guard, or reading its result, raises a TypeError. */
  function Decide(g: GuardChoice, p: Props, stamps: seq<int>, isReport: bool, now: int): Option<Decision> {
    match g
    case NoGuard => None
    case DefaultGuardFn => Some(DefaultDecision(p, stamps, now))
    case CustomGuardFn(f) => f(p, stamps, isReport)
  }

  /* --------------------------------------------------------- validateGuard */

  /** What `validateGuard` checks: the three URLs and whether
      `window.printStackTrace` is defined. */
  datatype Setup = Setup(stacktraceUrl: Value, submitErrorUrl: Value, html2canvasUrl: Value, printStackTraceLoaded: bool)

  /** `validateGuard`'s result. The guard's stacktrace switch is copied under
      the key `retrieveStackTrace`; a refusal writes `false` under
      `retrieveStacktrace`, a key the result otherwise lacks (`undefined`). */
  datatype Validated = Validated(retrieveStackTrace: Value, retrieveStacktrace: Value, takeScreenshot: Value,
                                 submitError: Value)

  const StackNoUrlMessage :=
    "Could not retrieve stack trace because you did not provide a url to retrieve stacktrace.js"
  const StackOnErrorMessage :=
    "Could not retrieve stack trace because this error is handled with window.onerror which can't produce a good stack trace."
  const StackNotLoadedMessage :=
    "Could not retrieve stack trace because stacktrace.js was not loaded before we hit the error."
  const SubmitNoUrlMessage :=
    "Could not submit the error to a server because you did not provide a url to submit the error to."
  const ScreenshotNoUrlMessage :=
    "Could not take a screenshot because you did not provide a url to retireve html2canvas.js"
  const ScreenshotNoSubmitMessage :=
    "We do not take a screenshot if you're not going to submit the error to a server."

  /** Why the stack trace is refused, if it is. */
  function StackRefusal(d: Decision, isReport: bool, s: Setup): Option<string> {
    if Truthy(d.retrieveStacktrace) && !Truthy(s.stacktraceUrl) then Some(StackNoUrlMessage)
    else if Truthy(d.retrieveStacktrace) && !isReport then Some(StackOnErrorMessage)
    else if Truthy(d.retrieveStacktrace) && !s.printStackTraceLoaded then Some(StackNotLoadedMessage)
    else None
  }

  /** Why the submission is refused, if it is. */
  function SubmitRefusal(d: Decision, s: Setup): Option<string> {
    if Truthy(d.submitError) && !Truthy(s.submitErrorUrl) then Some(SubmitNoUrlMessage) else None
  }

  function ValidatedSubmit(d: Decision, s: Setup): Value {
    if SubmitRefusal(d, s).Some? then Bool(false) else d.submitError
  }

  /** Why the screenshot is refused, if it is; it is checked against the
      submission switch as validated. */
  function ScreenshotRefusal(d: Decision, s: Setup): Option<string> {
    if Truthy(d.takeScreenshot) && !Truthy(s.html2canvasUrl) then Some(ScreenshotNoUrlMessage)
    else if Truthy(d.takeScreenshot) && !Truthy(ValidatedSubmit(d, s)) then Some(ScreenshotNoSubmitMessage)
    else None
  }

  function Validate(d: Decision, isReport: bool, s: Setup): Validated {
    Validated(d.retrieveStacktrace,
              if StackRefusal(d, isReport, s).Some? then Bool(false) else Undefined,
              if ScreenshotRefusal(d, s).Some? then Bool(false) else d.takeScreenshot,
              ValidatedSubmit(d, s))
  }

  function Listed(o: Option<string>): (r: seq<string>)
    ensures |r| == if o.Some? then 1 else 0
  {
    if o.Some? then [o.value] else []
  }

  /** The messages `validateGuard` pushes, in order. */
  function Refusals(d: Decision, isReport: bool, s: Setup): seq<string> {
    Listed(StackRefusal(d, isReport, s)) + Listed(SubmitRefusal(d, s)) + Listed(ScreenshotRefusal(d, s))
  }

  /** Validation never turns an action on, turns the screenshot off whenever
      the submission ends up off, and never sets the `retrieveStacktrace`
      key to anything truthy. */
  lemma ValidateNeverEnables(d: Decision, isReport: bool, s: Setup)
    ensures var v := Validate(d, isReport, s);
            (Truthy(v.takeScreenshot) ==> Truthy(d.takeScreenshot)) &&
            (Truthy(v.submitError) ==> Truthy(d.submitError)) &&
            (!Truthy(v.submitError) ==> !Truthy(v.takeScreenshot)) &&
            !Truthy(v.retrieveStacktrace) && v.retrieveStackTrace == d.retrieveStacktrace
  {
  }

  /** Exactly one message per refused action: the submission and the
      screenshot are refused exactly when the guard asked for them and
      validation turned them off. */
  lemma OneMessagePerRefusal(d: Decision, isReport: bool, s: Setup)
    ensures var v := Validate(d, isReport, s);
            |Refusals(d, isReport, s)| ==
              (if StackRefusal(d, isReport, s).Some? then 1 else 0) +
              (if Truthy(d.submitError) && !Truthy(v.submitError) then 1 else 0) +
              (if Truthy(d.takeScreenshot) && !Truthy(v.takeScreenshot) then 1 else 0)
    ensures StackRefusal(d, isReport, s).Some? <==>
              Truthy(d.retrieveStacktrace) && (!Truthy(s.stacktraceUrl) || !isReport || !s.printStackTraceLoaded)
  {
  }

  /* ---------------------------------------------- serializeToQueryString */

  /** `encodeURIComponent(k) + "=" + encodeURIComponent(v)` */
  function Pair(k: string, v: Value): string {
    EncodeURIComponent(k) + "=" + EncodeURIComponent(ToString(v))
  }

  const KnownProperties: seq<string> := ["stack"]

  /** The pairs of the first loop: each enumerable own property that is not
      in `known`, in enumeration order. */
  function OwnPairs(keys: seq<string>, known: seq<string>, p: Props): (r: seq<string>)
    ensures |r| <= |keys|
  {
    if keys == [] then []
    else OwnPairs(keys[..|keys| - 1], known, p) +
         (if keys[|keys| - 1] in known then [] else [Pair(keys[|keys| - 1], p.Get(keys[|keys| - 1]))])
  }

  /** The pairs of the second loop: each known property whose NAME passes
      `isValue`. */
  function KnownPairs(known: seq<string>, p: Props): (r: seq<string>)
    ensures |r| <= |known|
  {
    if known == [] then []
    else KnownPairs(known[..|known| - 1], p) +
         (if IsValue(Str(known[|known| - 1])) then [Pair(known[|known| - 1], p.Get(known[|known| - 1]))] else [])
  }

  /** The body `serializeToQueryString` produces. */
  function QueryString(p: Props): string {
    Join(OwnPairs(p.keys, KnownProperties, p) + KnownPairs(KnownProperties, p), "&")
  }

  /** `serializeToQueryString(errorObj)`: the two loops fill `str`, which
      is then joined with `&`. */
  method SerializeToQueryString(obj: ErrorObject) returns (body: string)
    ensures body == QueryString(obj.own)
  {
    var own := SerializeOwn(obj.own, KnownProperties);
    var known := SerializeKnown(obj.own, KnownProperties);
    body := Join(own + known, "&");
  }

  /** `OwnPairs` of one key more: that key's pair, unless it is known. */
  lemma OwnPairsStep(keys: seq<string>, i: nat, known: seq<string>, p: Props)
    requires i < |keys|
    ensures OwnPairs(keys[..i + 1], known, p) ==
            OwnPairs(keys[..i], known, p) + (if keys[i] in known then [] else [Pair(keys[i], p.Get(keys[i]))])
  {
    assert keys[..i + 1][..i] == keys[..i];
  }

  /** The first loop of `serializeToQueryString`, skipping the known
      properties `known`. */
  method SerializeOwn(p: Props, known: seq<string>) returns (str: seq<string>)
    ensures str == OwnPairs(p.keys, known, p)
  {
    str := [];
    var i := 0;
    while i < |p.keys|
      invariant 0 <= i <= |p.keys|
      invariant str == OwnPairs(p.keys[..i], known, p)
    {
      var k := p.keys[i];
      OwnPairsStep(p.keys, i, known, p);
      if k !in known {
        str := str + [Pair(k, p.Get(k))];
      }
      i := i + 1;
    }
    assert p.keys[..i] == p.keys;
  }

  /** The second loop of `serializeToQueryString`, over the known
      properties `known`. */
  method SerializeKnown(p: Props, known: seq<string>) returns (str: seq<string>)
    ensures str == KnownPairs(known, p)
  {
    str := [];
    var j := 0;
    while j < |known|
      invariant 0 <= j <= |known|
      invariant str == KnownPairs(known[..j], p)
    {
      var k := known[j];
      assert known[..j + 1][..j] == known[..j];
      if IsValue(Str(k)) {
        str := str + [Pair(k, p.Get(k))];
      }
      j := j + 1;
    }
    assert known[..j] == known;
  }

  /** `s.split(c)` */
  function Split(s: string, c: char): (r: seq<string>)
    ensures |r| >= 1
    decreases |s|
  {
    var i := Utilities.IndexOf(s, c);
    if i < 0 then [s] else [s[..i]] + Split(s[i + 1..], c)
  }

  /** Splitting a join on its separator gives back the parts, when no part
      holds the separator. */
  lemma {:induction false} SplitJoin(parts: seq<string>, c: char)
    requires |parts| >= 1
    requires forall i :: 0 <= i < |parts| ==> c !in parts[i]
    ensures Split(Join(parts, [c]), c) == parts
    decreases |parts|
  {
    if |parts| == 1 {
      assert Utilities.IndexOf(parts[0], c) == -1;
    } else {
      var rest := Join(parts[1..], [c]);
      JoinFirst(parts, [c]);
      SplitAfterPart(parts[0], rest, c);
      SplitJoin(parts[1..], c);
      assert [parts[0]] + parts[1..] == parts;
    }
  }

  /** A join of two or more parts starts with the first part and the separator. */
  lemma JoinFirst(parts: seq<string>, sep: string)
    requires |parts| >= 2
    ensures Join(parts, sep) == parts[0] + (sep + Join(parts[1..], sep))
  {
  }

  /** Splitting stops at the separator after a part that lacks it. */
  lemma SplitAfterPart(a: string, rest: string, c: char)
    requires c !in a
    ensures Split(a + ([c] + rest), c) == [a] + Split(rest, c)
  {
    var s := a + ([c] + rest);
    Utilities.IndexOfAfterPrefix(a, [c] + rest, c);
    assert s[..|a|] == a && s[|a| + 1..] == rest;
  }

  /** A pair holds one `=`, between its encoded halves, and no `&`. */
  lemma PairShape(k: string, v: Value)
    ensures '&' !in Pair(k, v)
    ensures '=' !in EncodeURIComponent(k) && '=' !in EncodeURIComponent(ToString(v))
  {
    EncodedShape(k);
    EncodedShape(ToString(v));
  }

  /** No pair of the first loop holds a `&`. */
  lemma {:induction false} OwnPairsHaveNoAmpersand(keys: seq<string>, known: seq<string>, p: Props)
    ensures forall i :: 0 <= i < |OwnPairs(keys, known, p)| ==> '&' !in OwnPairs(keys, known, p)[i]
    decreases |keys|
  {
    if keys != [] {
      OwnPairsHaveNoAmpersand(keys[..|keys| - 1], known, p);
      PairShape(keys[|keys| - 1], p.Get(keys[|keys| - 1]));
    }
  }

  /** The stack pair always comes last, even when the object has no stack
      (it then reads `stack=undefined`), because `isValue` is applied to the
      name `"stack"` rather than to its value. */
  lemma StackPairLast(p: Props)
    ensures KnownPairs(KnownProperties, p) == [Pair("stack", p.Get("stack"))]
  {
    assert KnownProperties[..0] == [];
  }

  /** The body splits on `&` into exactly the pairs emitted: one per
      enumerable own property other than `stack`, in order, then `stack`. */
  lemma QueryStringSplits(p: Props)
    ensures Split(QueryString(p), '&') == OwnPairs(p.keys, KnownProperties, p) + [Pair("stack", p.Get("stack"))]
  {
    StackPairLast(p);
    OwnPairsHaveNoAmpersand(p.keys, KnownProperties, p);
    PairShape("stack", p.Get("stack"));
    AppendFree(OwnPairs(p.keys, KnownProperties, p), Pair("stack", p.Get("stack")), '&');
    SplitJoin(OwnPairs(p.keys, KnownProperties, p) + [Pair("stack", p.Get("stack"))], '&');
  }

  /** Appending a part without `c` to parts without `c` keeps every part free of `c`. */
  lemma AppendFree(own: seq<string>, last: string, c: char)
    requires forall i :: 0 <= i < |own| ==> c !in own[i]
    requires c !in last
    ensures forall i :: 0 <= i < |own + [last]| ==> c !in (own + [last])[i]
  {
    forall i | 0 <= i < |own + [last]|
      ensures c !in (own + [last])[i]
    {
      if i < |own| {
        assert (own + [last])[i] == own[i];
      }
    }
  }

  /** Each pair splits on `=` into the encoded name and the encoded value. */
  lemma PairSplits(k: string, v: Value)
    ensures Split(Pair(k, v), '=') == [EncodeURIComponent(k), EncodeURIComponent(ToString(v))]
  {
    var a, b := EncodeURIComponent(k), EncodeURIComponent(ToString(v));
    PairShape(k, v);
    SplitJoin([a, b], '=');
    assert Join([a, b], "=") == Pair(k, v);
  }

  /** An object with no enumerable known property gives one pair per
      enumerable key, in order. */
  lemma {:induction false} OwnPairsWithoutKnown(keys: seq<string>, known: seq<string>, p: Props)
    requires forall i :: 0 <= i < |keys| ==> keys[i] !in known
    ensures |OwnPairs(keys, known, p)| == |keys|
    ensures forall i :: 0 <= i < |keys| ==> OwnPairs(keys, known, p)[i] == Pair(keys[i], p.Get(keys[i]))
    decreases |keys|
  {
    if keys != [] {
      var init, last := keys[..|keys| - 1], keys[|keys| - 1];
      OwnPairsWithoutKnown(init, known, p);
      assert last !in known;
      OwnPairsStep(keys, |keys| - 1, known, p);
      assert keys[..|keys|] == keys;
      var pairs := OwnPairs(init, known, p);
      assert OwnPairs(keys, known, p) == pairs + [Pair(last, p.Get(last))];
      PairsSnoc(init, pairs, last, p);
      assert init + [last] == keys;
    }
  }

  /** Pairs listed key by key stay so after one more key. */
  lemma PairsSnoc(keys: seq<string>, pairs: seq<string>, k: string, p: Props)
    requires |pairs| == |keys|
    requires forall i :: 0 <= i < |keys| ==> pairs[i] == Pair(keys[i], p.Get(keys[i]))
    ensures forall i :: 0 <= i < |keys| + 1 ==>
              (pairs + [Pair(k, p.Get(k))])[i] == Pair((keys + [k])[i], p.Get((keys + [k])[i]))
  {
  }

  /* ---------------------------------------------------- handleErrorInternal */

  /** What `handleErrorInternal` does first with a validated decision. */
  datatype Step =
    | LoadStacktraceJs
    | LoadHtml2Canvas
    | Run(getStack: bool, screenshot: bool, submitNow: bool)

  /** The branches of `handleErrorInternal`, which read the lowercase key
      `retrieveStacktrace`. */
  function NextStep(v: Validated, printStackTraceLoaded: bool, html2canvasLoaded: bool): Step {
    if Truthy(v.retrieveStacktrace) && !printStackTraceLoaded then LoadStacktraceJs
    else if Truthy(v.takeScreenshot) && !html2canvasLoaded then LoadHtml2Canvas
    else Run(Truthy(v.retrieveStacktrace), Truthy(v.takeScreenshot), !Truthy(v.takeScreenshot) && Truthy(v.submitError))
  }

  /** Because the guard's switch is copied under `retrieveStackTrace` while
      the handler reads `retrieveStacktrace`, a validated decision never
      loads stacktrace.js and never retrieves a stack; and an error is
      submitted at once exactly when it is to be submitted without a
      screenshot, the screenshot waiting only for html2canvas. */
  lemma ValidatedNeverFetchesStack(d: Decision, isReport: bool, s: Setup, html2canvasLoaded: bool)
    ensures var st := NextStep(Validate(d, isReport, s), s.printStackTraceLoaded, html2canvasLoaded);
            var v := Validate(d, isReport, s);
            st != LoadStacktraceJs && !(st.Run? && st.getStack) &&
            (st == LoadHtml2Canvas <==> Truthy(v.takeScreenshot) && !html2canvasLoaded) &&
            (st.Run? && st.submitNow <==> !Truthy(v.takeScreenshot) && Truthy(v.submitError))
  {
  }

  /** A `handleErrorInternal` call waiting for a script or a render. */
  datatype Deferred = Deferred(obj: ErrorObject, v: Validated)

  datatype Script = StacktraceScript | Html2CanvasScript

  /** A script tag added to the page, with the call it resumes once loaded. */
  datatype ScriptTag = ScriptTag(script: Script, url: Value, resume: Deferred)

  /** `configure`'s argument; `guard` is `None` when the config has none. */
  datatype Config = Config(guard: Option<CustomGuard>, submitErrorUrl: Value, html2canvasUrl: Value,
                           stacktraceUrl: Value, setupWindowOnError: Value)

  const NotSetUpMessage :=
    "Error handling not set up!  Please use window.errorHandler.configure to configure your error handler before you report errors."

  /** What one `handleError` produced: the error object logged, the guard's
      decision and the validated one. */
  datatype Handled = Handled(obj: ErrorObject, decision: Decision, validated: Validated)

  /** A request `submitError` sends: its POST target and the error object's
      properties when it was sent. */
  datatype Submission = Submission(url: Value, form: Props)
  {
    /** The request body, as `serializeToQueryString` computes it. */
    function Body(): string {
      QueryString(form)
    }
  }

  /** The script tag a step adds: the one whose global it waits for. */
  function TagsFor(st: Step, stacktraceUrl: Value, html2canvasUrl: Value, d: Deferred): seq<ScriptTag> {
    match st
    case LoadStacktraceJs => [ScriptTag(StacktraceScript, stacktraceUrl, d)]
    case LoadHtml2Canvas => [ScriptTag(Html2CanvasScript, html2canvasUrl, d)]
    case Run(_, _, _) => []
  }

  /** The screenshot a step starts, which submits the error once rendered. */
  function RendersFor(st: Step, d: Deferred): seq<Deferred> {
    if st.Run? && st.screenshot then [d] else []
  }

  /** The object after `getStackTrace`, when the step retrieves a stack:
      `stack` holds the frames joined by newlines. */
  function WithStack(st: Step, p: Props, stackFrames: seq<string>): Props {
    if st.Run? && st.getStack then p.Put("stack", Str(Join(stackFrames, "\n"))) else p
  }

  /** The submission a step sends at once. */
  function SubmissionsFor(st: Step, url: Value, p: Props): seq<Submission> {
    if st.Run? && st.submitNow then [Submission(url, p)] else []
  }

  /** A script is requested only while its global is missing, and the
      stacktrace script before html2canvas: once both globals are defined
      the handling runs. Each step loads a script, starts a screenshot or
      submits at once, never two of these. */
  lemma StepsLoadEachScriptOnce(v: Validated, printStackTraceLoaded: bool, html2canvasLoaded: bool,
                                d: Deferred, p: Props, submitErrorUrl: Value, stacktraceUrl: Value, html2canvasUrl: Value)
    ensures NextStep(v, true, html2canvasLoaded) != LoadStacktraceJs
    ensures NextStep(v, printStackTraceLoaded, true) != LoadHtml2Canvas
    ensures NextStep(v, true, true).Run?
    ensures NextStep(v, printStackTraceLoaded, html2canvasLoaded) == LoadHtml2Canvas ==>
              !Truthy(v.retrieveStacktrace) || printStackTraceLoaded
    ensures var st := NextStep(v, printStackTraceLoaded, html2canvasLoaded);
            |TagsFor(st, stacktraceUrl, html2canvasUrl, d)| + |RendersFor(st, d)| + |SubmissionsFor(st, submitErrorUrl, p)| <= 1
  {
  }

  /** A validated error is sent exactly when its submission switch is on:
      at once, or after its one screenshot is rendered (a screenshot is
      only ever taken for an error that is submitted). Nothing else waits. */
  lemma ValidatedSubmitsOnce(dec: Decision, isReport: bool, s: Setup, html2canvasLoaded: bool, d: Deferred, p: Props,
                             url: Value)
    requires d.v == Validate(dec, isReport, s)
    ensures var st := NextStep(d.v, s.printStackTraceLoaded, html2canvasLoaded);
            st.Run? ==> (|SubmissionsFor(st, url, p)| + |RendersFor(st, d)| == 1 <==> Truthy(d.v.submitError))
    ensures var st := NextStep(d.v, s.printStackTraceLoaded, html2canvasLoaded);
            RendersFor(st, d) != [] ==> Truthy(d.v.submitError)
  {
    ValidateNeverEnables(dec, isReport, s);
  }

  /** The guard's decision switched everything off: nothing is refused and
      the handling loads, renders and submits nothing. */
  lemma OffDoesNothing(isReport: bool, s: Setup, html2canvasLoaded: bool)
    ensures Refusals(Off, isReport, s) == []
    ensures NextStep(Validate(Off, isReport, s), s.printStackTraceLoaded, html2canvasLoaded) == Run(false, false, false)
  {
  }

  /** What `handleError` settles before it logs the error: the error
      object's properties, the guard's decision and the validated one. */
  datatype Outcome = Outcome(props: Props, decision: Decision, validated: Validated)

  /** The steps of `handleError` before the log entry, given the argument
      object's properties `p`: `None` when `constructErrorObject`, the guard
      or `validateGuard` raises, which `handleError` swallows. */
  function Assessed(arg: ErrorArg, p: Props, errorMsg: Value, url: Value, lineNumber: Value, columnNumber: Value,
                    g: GuardChoice, stamps: seq<int>, isReport: bool, now: int, s: Setup): Option<Outcome>
  {
    if arg.Missing? then None
    else
      var c := Constructed(arg, p, errorMsg, url, lineNumber, columnNumber);
      var d := Decide(g, c, stamps, isReport, now);
      if d.None? then None
      else if Refusals(d.value, isReport, s) != [] && !Pushable(c.Get(MessagesKey)) then None
      else Some(Outcome(WithMessages(c, Refusals(d.value, isReport, s)), d.value, Validate(d.value, isReport, s)))
  }

  /** Once more than 20 errors are logged, the default guard lets an error
      through untouched by validation and with nothing to do: it is logged
      as constructed, and no script, screenshot or submission follows. */
  lemma FloodedDefaultGuardDoesNothing(arg: ErrorArg, p: Props, errorMsg: Value, url: Value, lineNumber: Value,
                                       columnNumber: Value, stamps: seq<int>, isReport: bool, now: int, s: Setup,
                                       html2canvasLoaded: bool)
    requires |stamps| > 20 && !arg.Missing?
    ensures var o := Assessed(arg, p, errorMsg, url, lineNumber, columnNumber, DefaultGuardFn, stamps, isReport, now, s);
            o.Some? && o.value.decision == Off &&
            o.value.props == Constructed(arg, p, errorMsg, url, lineNumber, columnNumber) &&
            NextStep(o.value.validated, s.printStackTraceLoaded, html2canvasLoaded) == Run(false, false, false)
  {
    var c := Constructed(arg, p, errorMsg, url, lineNumber, columnNumber);
    assert Decide(DefaultGuardFn, c, stamps, isReport, now) == Some(Off);
    OffDoesNothing(isReport, s, html2canvasLoaded);
    assert WithMessages(c, []) == c;
  }

  /** The whole state of the module, for stating what an operation leaves
      alone. */
  datatype ReporterState = ReporterState(guard: GuardChoice, submitErrorUrl: Value, html2canvasUrl: Value, stacktraceUrl: Value,
                         setupWindowOnError: Value, isSetup: bool, windowOnErrorIsSetup: bool,
                         encounteredErrors: seq<Encountered>, printStackTraceLoaded: bool, html2canvasLoaded: bool,
                         scripts: seq<ScriptTag>, renders: seq<Deferred>, submitted: seq<Submission>)

  /** The module's state. */
  class Reporter {
    var guard: GuardChoice
    var submitErrorUrl: Value
    var html2canvasUrl: Value
    var stacktraceUrl: Value
    var setupWindowOnError: Value
    var isSetup: bool
    var windowOnErrorIsSetup: bool
    var encounteredErrors: seq<Encountered>
    var printStackTraceLoaded: bool  // `window.printStackTrace` is defined
    var html2canvasLoaded: bool      // `window.html2canvas` is defined
    var scripts: seq<ScriptTag>      // script tags added, in order
    var renders: seq<Deferred>       // screenshots being rendered
    var submitted: seq<Submission>   // requests sent, in order

    /** The state when the script has loaded: nothing configured. */
    constructor (printStackTraceLoaded: bool, html2canvasLoaded: bool)
      ensures guard == NoGuard && !isSetup && !windowOnErrorIsSetup
      ensures submitErrorUrl == Undefined && html2canvasUrl == Undefined && stacktraceUrl == Undefined
      ensures setupWindowOnError == Undefined
      ensures encounteredErrors == [] && scripts == [] && renders == [] && submitted == []
      ensures this.printStackTraceLoaded == printStackTraceLoaded && this.html2canvasLoaded == html2canvasLoaded
    {
      guard := NoGuard;
      submitErrorUrl, html2canvasUrl, stacktraceUrl, setupWindowOnError := Undefined, Undefined, Undefined, Undefined;
      isSetup, windowOnErrorIsSetup := false, false;
      encounteredErrors := [];
      this.printStackTraceLoaded := printStackTraceLoaded;
      this.html2canvasLoaded := html2canvasLoaded;
      scripts, renders, submitted := [], [], [];
    }

    function State(): ReporterState
      reads this
    {
      ReporterState(guard, submitErrorUrl, html2canvasUrl, stacktraceUrl, setupWindowOnError, isSetup, windowOnErrorIsSetup,
            encounteredErrors, printStackTraceLoaded, html2canvasLoaded, scripts, renders, submitted)
    }

    function SetupOf(): Setup
      reads this
    {
      Setup(stacktraceUrl, submitErrorUrl, html2canvasUrl, printStackTraceLoaded)
    }

    /** `configure(config)`: the guard is the config's or the default one;
        the window hook is installed once, when asked for. */
    method Configure(config: Config)
      modifies this
      ensures guard == (if config.guard.Some? then CustomGuardFn(config.guard.value) else DefaultGuardFn)
      ensures submitErrorUrl == config.submitErrorUrl && html2canvasUrl == config.html2canvasUrl
      ensures stacktraceUrl == config.stacktraceUrl && setupWindowOnError == config.setupWindowOnError
      ensures isSetup
      ensures windowOnErrorIsSetup <==> old(windowOnErrorIsSetup) || Truthy(config.setupWindowOnError)
      ensures encounteredErrors == old(encounteredErrors) && scripts == old(scripts)
      ensures renders == old(renders) && submitted == old(submitted)
      ensures printStackTraceLoaded == old(printStackTraceLoaded) && html2canvasLoaded == old(html2canvasLoaded)
    {
      guard := if config.guard.Some? then CustomGuardFn(config.guard.value) else DefaultGuardFn;
      submitErrorUrl := config.submitErrorUrl;
      html2canvasUrl := config.html2canvasUrl;
      stacktraceUrl := config.stacktraceUrl;
      setupWindowOnError := config.setupWindowOnError;
      isSetup := true;
      if !windowOnErrorIsSetup && Truthy(setupWindowOnError) {
        windowOnErrorIsSetup := true;
      }
    }

    /** `countNumErrorsWithin(seconds)` at time `now`. */
    method CountNumErrorsWithin(seconds: int, now: int) returns (n: nat)
      ensures n == Ledger.WindowCount(Ledger.Timestamps(encounteredErrors), now, Some(seconds))
    {
      n := Ledger.CountReported(Ledger.Timestamps(encounteredErrors), now, Some(seconds));
    }

    /** `defaultGuard(errorObj)` at time `now`. */
    method DefaultGuard(obj: ErrorObject, now: int) returns (d: Decision)
      ensures d == DefaultDecision(obj.own, Ledger.Timestamps(encounteredErrors), now)
    {
      var recentErrorsCount := CountNumErrorsWithin(1, now);
      if recentErrorsCount > 5 || |encounteredErrors| > 20 {
        return Off;
      }
      d := Decision(ToBool(obj.own.Get("stack")), Bool(true), Bool(true));
    }

    /** `guard(errObj, encounteredErrors, isReport)`. */
    method RunGuard(obj: ErrorObject, isReport: bool, now: int) returns (d: Option<Decision>)
      ensures d == Decide(guard, obj.own, Ledger.Timestamps(encounteredErrors), isReport, now)
    {
      match guard {
        case NoGuard =>
          d := None;
        case DefaultGuardFn =>
          var dd := DefaultGuard(obj, now);
          d := Some(dd);
        case CustomGuardFn(f) =>
          d := f(obj.own, Ledger.Timestamps(encounteredErrors), isReport);
      }
    }

    /** `validateGuard(guardObj, isReport, errorObj)`. A push that raises a
        TypeError ends it (`None`); only the first push can, and then the
        object is unchanged. */
    method ValidateGuard(d: Decision, isReport: bool, obj: ErrorObject) returns (r: Option<Validated>)
      modifies obj
      ensures r.Some? <==> Refusals(d, isReport, SetupOf()) == [] || Pushable(old(obj.own.Get(MessagesKey)))
      ensures r.Some? ==> r.value == Validate(d, isReport, SetupOf())
      ensures r.Some? ==> obj.own == WithMessages(old(obj.own), Refusals(d, isReport, SetupOf()))
      ensures r.None? ==> obj.own == old(obj.own)
    {
      ghost var p0 := obj.own;
      var stack, ok := CheckStack(d, isReport, obj, p0);
      if !ok {
        return None;
      }
      ghost var pushed := Listed(StackRefusal(d, isReport, SetupOf()));
      var submit;
      submit, ok := CheckSubmit(d, obj, p0, pushed);
      if !ok {
        return None;
      }
      pushed := pushed + Listed(SubmitRefusal(d, SetupOf()));
      var shot;
      shot, ok := CheckScreenshot(d, obj, p0, pushed);
      if !ok {
        return None;
      }
      r := Some(Validated(d.retrieveStacktrace, stack, shot, submit));
    }

    /** The stacktrace checks of `validateGuard`: the first that fails
        writes `false` under `retrieveStacktrace` and pushes its message. */
    method CheckStack(d: Decision, isReport: bool, obj: ErrorObject, ghost p0: Props) returns (stack: Value, ok: bool)
      requires obj.own == p0
      modifies obj
      ensures stack == Validate(d, isReport, SetupOf()).retrieveStacktrace
      ensures ok <==> StackRefusal(d, isReport, SetupOf()).None? || Pushable(p0.Get(MessagesKey))
      ensures ok ==> obj.own == WithMessages(p0, Listed(StackRefusal(d, isReport, SetupOf())))
      ensures !ok ==> obj.own == p0
    {
      stack, ok := Undefined, true;
      assert WithMessages(p0, []) == p0;
      if Truthy(d.retrieveStacktrace) && !Truthy(stacktraceUrl) {
        stack := Bool(false);
        ok := Refuse(obj, StackNoUrlMessage, p0, []);
      } else if Truthy(d.retrieveStacktrace) && !isReport {
        stack := Bool(false);
        ok := Refuse(obj, StackOnErrorMessage, p0, []);
      } else if Truthy(d.retrieveStacktrace) && !printStackTraceLoaded {
        stack := Bool(false);
        ok := Refuse(obj, StackNotLoadedMessage, p0, []);
      }
    }

    /** The submission check of `validateGuard`. */
    method CheckSubmit(d: Decision, obj: ErrorObject, ghost p0: Props, ghost pushed: seq<string>)
      returns (submit: Value, ok: bool)
      requires obj.own == WithMessages(p0, pushed)
      requires pushed == [] || Pushable(p0.Get(MessagesKey))
      modifies obj
      ensures submit == ValidatedSubmit(d, SetupOf())
      ensures ok <==> SubmitRefusal(d, SetupOf()).None? || Pushable(p0.Get(MessagesKey))
      ensures ok ==> obj.own == WithMessages(p0, pushed + Listed(SubmitRefusal(d, SetupOf())))
      ensures !ok ==> obj.own == old(obj.own) && pushed == []
    {
      submit, ok := d.submitError, true;
      assert pushed + [] == pushed;
      if Truthy(d.submitError) && !Truthy(submitErrorUrl) {
        submit := Bool(false);
        ok := Refuse(obj, SubmitNoUrlMessage, p0, pushed);
      }
    }

    /** The screenshot checks of `validateGuard`, against the submission
        switch as validated. */
    method CheckScreenshot(d: Decision, obj: ErrorObject, ghost p0: Props, ghost pushed: seq<string>)
      returns (shot: Value, ok: bool)
      requires obj.own == WithMessages(p0, pushed)
      requires pushed == [] || Pushable(p0.Get(MessagesKey))
      modifies obj
      ensures shot == if ScreenshotRefusal(d, SetupOf()).Some? then Bool(false) else d.takeScreenshot
      ensures ok <==> ScreenshotRefusal(d, SetupOf()).None? || Pushable(p0.Get(MessagesKey))
      ensures ok ==> obj.own == WithMessages(p0, pushed + Listed(ScreenshotRefusal(d, SetupOf())))
      ensures !ok ==> obj.own == old(obj.own) && pushed == []
    {
      shot, ok := d.takeScreenshot, true;
      assert pushed + [] == pushed;
      var submit := ValidatedSubmit(d, SetupOf());
      if Truthy(d.takeScreenshot) && !Truthy(html2canvasUrl) {
        shot := Bool(false);
        ok := Refuse(obj, ScreenshotNoUrlMessage, p0, pushed);
      } else if Truthy(d.takeScreenshot) && !Truthy(submit) {
        shot := Bool(false);
        ok := Refuse(obj, ScreenshotNoSubmitMessage, p0, pushed);
      }
    }

    /** `submitError(errorObj)`: one POST to the configured url, whose form
        body serialises the object as it is now. */
    method SubmitError(obj: ErrorObject)
      modifies this
      ensures State() == old(State()).(submitted := old(submitted) + [Submission(submitErrorUrl, obj.own)])
    {
      submitted := submitted + [Submission(submitErrorUrl, obj.own)];
    }

    /** `handleErrorInternal(errorObj, guardObj)`. A missing stacktrace.js or
        html2canvas.js is loaded first, with a tag that resumes this call;
        otherwise the stack is retrieved (`stackFrames` is what
        `printStackTrace()` returns), then either a screenshot is started,
        whose rendering submits, or the error is submitted at once. */
    method HandleInternal(obj: ErrorObject, v: Validated, stackFrames: seq<string>)
      modifies this, obj
      ensures var st := NextStep(v, old(printStackTraceLoaded), old(html2canvasLoaded));
              var d := Deferred(obj, v);
              obj.own == WithStack(st, old(obj.own), stackFrames) &&
              State() == old(State()).(scripts := old(scripts) + TagsFor(st, stacktraceUrl, html2canvasUrl, d),
                                        renders := old(renders) + RendersFor(st, d),
                                        submitted := old(submitted) + SubmissionsFor(st, submitErrorUrl, obj.own))
    {
      if Truthy(v.retrieveStacktrace) && !printStackTraceLoaded {
        scripts := scripts + [ScriptTag(StacktraceScript, stacktraceUrl, Deferred(obj, v))];
        return;
      }
      if Truthy(v.takeScreenshot) && !html2canvasLoaded {
        scripts := scripts + [ScriptTag(Html2CanvasScript, html2canvasUrl, Deferred(obj, v))];
        return;
      }
      if Truthy(v.retrieveStacktrace) {
        obj.Set("stack", Str(Join(stackFrames, "\n")));
      }
      if Truthy(v.takeScreenshot) {
        renders := renders + [Deferred(obj, v)];
      } else if Truthy(v.submitError) {
        SubmitError(obj);
      }
    }

    /** The load event of pending script tag `i`. The script defines its
        global unless `defines` is false (a url that serves something else);
        the tag's callback runs once, so the tag leaves the pending list, and
        resumes `handleErrorInternal`, which asks for the same script again
        when its global is still missing. */
    method OnScriptLoaded(i: nat, defines: bool, stackFrames: seq<string>)
      requires i < |scripts|
      modifies this, scripts[i].resume.obj
      ensures var t := old(scripts[i]);
              printStackTraceLoaded == (old(printStackTraceLoaded) || (defines && t.script == StacktraceScript)) &&
              html2canvasLoaded == (old(html2canvasLoaded) || (defines && t.script == Html2CanvasScript))
      ensures var t := old(scripts[i]);
              var st := NextStep(t.resume.v, printStackTraceLoaded, html2canvasLoaded);
              t.resume.obj.own == WithStack(st, old(t.resume.obj.own), stackFrames) &&
              State() == old(State()).(printStackTraceLoaded := printStackTraceLoaded,
                                        html2canvasLoaded := html2canvasLoaded,
                                        scripts := old(scripts[..i] + scripts[i + 1..]) +
                                                   TagsFor(st, stacktraceUrl, html2canvasUrl, t.resume),
                                        renders := old(renders) + RendersFor(st, t.resume),
                                        submitted := old(submitted) + SubmissionsFor(st, submitErrorUrl, t.resume.obj.own))
    {
      var t := scripts[i];
      if defines {
        match t.script {
          case StacktraceScript => printStackTraceLoaded := true;
          case Html2CanvasScript => html2canvasLoaded := true;
        }
      }
      scripts := scripts[..i] + scripts[i + 1..];
      HandleInternal(t.resume.obj, t.resume.v, stackFrames);
    }

    /** html2canvas's `onrendered` for pending screenshot `i`: the data url
        is stored under `screenshot` (`None` when `toDataURL` raises, which
        leaves the object as it was), then the error is submitted if its
        validated decision says so. */
    method OnRendered(i: nat, image: Option<string>)
      requires i < |renders|
      modifies this, renders[i].obj
      ensures var d := old(renders[i]);
              var p := if image.Some? then old(d.obj.own).Put("screenshot", Str(image.value)) else old(d.obj.own);
              d.obj.own == p &&
              State() == old(State()).(renders := old(renders[..i] + renders[i + 1..]),
                                        submitted := old(submitted) +
                                          (if Truthy(d.v.submitError) then [Submission(submitErrorUrl, p)] else []))
    {
      var d := renders[i];
      renders := renders[..i] + renders[i + 1..];
      if image.Some? {
        d.obj.Set("screenshot", Str(image.value));
      }
      if Truthy(d.v.submitError) {
        SubmitError(d.obj);
      }
    }

    /** The first three steps of `handleError`: construct the error object,
        run the guard on it and validate the guard's decision. */
    method Assess(errorMsg: Value, url: Value, lineNumber: Value, columnNumber: Value, arg: ErrorArg,
                  isReport: bool, now: int) returns (r: Option<Handled>)
      modifies if arg.Object? then {arg.obj} else {}
      ensures var o := Assessed(arg, old(ArgProps(arg)), errorMsg, url, lineNumber, columnNumber,
                                guard, Ledger.Timestamps(encounteredErrors), isReport, now, SetupOf());
              (r.Some? <==> o.Some?) &&
              (r.Some? ==> r.value.obj.own == o.value.props && r.value.decision == o.value.decision &&
                           r.value.validated == o.value.validated)
      ensures r.Some? ==> r.value.validated == Validate(r.value.decision, isReport, SetupOf())
      ensures r.Some? && arg.Object? ==> r.value.obj == arg.obj
      ensures r.Some? && arg.Primitive? ==> fresh(r.value.obj)
      ensures r.None? && arg.Object? ==>
                arg.obj.own == Constructed(arg, old(ArgProps(arg)), errorMsg, url, lineNumber, columnNumber)
    {
      var o := ConstructErrorObject(errorMsg, url, lineNumber, columnNumber, arg);
      if o.None? {
        return None;
      }
      var obj := o.value;
      var d := RunGuard(obj, isReport, now);
      if d.None? {
        return None;
      }
      var v := ValidateGuard(d.value, isReport, obj);
      if v.None? {
        return None;
      }
      r := Some(Handled(obj, d.value, v.value));
    }

    /** The state after a `handleError` call that returned `r`: the steps
        before the log entry went as `Assessed` says; when they raised,
        nothing but the argument object changed; otherwise one entry was
        logged, stamped `now`, and `handleErrorInternal` ran on the object. */
    twostate predicate HandledAs(new r: Option<Handled>, errorMsg: Value, url: Value, lineNumber: Value,
                                 columnNumber: Value, arg: ErrorArg, isReport: bool, now: int)
      reads this, (if arg.Object? then {arg.obj} else {}), (if r.Some? then {r.value.obj} else {})
    {
      var o := Assessed(arg, old(ArgProps(arg)), errorMsg, url, lineNumber, columnNumber,
                        old(guard), Ledger.Timestamps(old(encounteredErrors)), isReport, now, old(SetupOf()));
      (r.Some? <==> o.Some?) &&
      (r.None? ==> State() == old(State())) &&
      (r.None? && arg.Object? ==>
         arg.obj.own == Constructed(arg, old(ArgProps(arg)), errorMsg, url, lineNumber, columnNumber)) &&
      (r.Some? ==>
         var st := NextStep(r.value.validated, old(printStackTraceLoaded), old(html2canvasLoaded));
         var d := Deferred(r.value.obj, r.value.validated);
         r.value.obj.own == o.value.props && r.value.decision == o.value.decision &&
         r.value.validated == o.value.validated &&
         (arg.Object? ==> r.value.obj == arg.obj) &&
         State() == old(State()).(encounteredErrors := old(encounteredErrors) + [Ledger.Stamped(now, r.value.obj)],
                                   scripts := old(scripts) + TagsFor(st, old(stacktraceUrl), old(html2canvasUrl), d),
                                   renders := old(renders) + RendersFor(st, d),
                                   submitted := old(submitted) + SubmissionsFor(st, old(submitErrorUrl), o.value.props)))
    }

    /** `handleError(errorMsg, url, lineNumber, columnNumber, errorObj,
        isReport)` at time `now`. A validated decision never retrieves a
        stack, so the logged object keeps the properties it was assessed
        with. */
    method HandleError(errorMsg: Value, url: Value, lineNumber: Value, columnNumber: Value, arg: ErrorArg,
                       isReport: bool, now: int, stackFrames: seq<string>) returns (r: Option<Handled>)
      modifies this, if arg.Object? then {arg.obj} else {}
      ensures HandledAs(r, errorMsg, url, lineNumber, columnNumber, arg, isReport, now)
      ensures r.Some? && arg.Primitive? ==> fresh(r.value.obj)
    {
      r := Assess(errorMsg, url, lineNumber, columnNumber, arg, isReport, now);
      if r.None? {
        return;
      }
      Log(r.value, isReport, now, stackFrames);
    }

    /** The last two steps of `handleError`: log the error, stamped `now`,
        and run `handleErrorInternal` on it, which leaves its properties as
        they are since a validated decision never retrieves a stack. */
    method Log(h: Handled, isReport: bool, now: int, stackFrames: seq<string>)
      requires h.validated == Validate(h.decision, isReport, SetupOf())
      modifies this, h.obj
      ensures h.obj.own == old(h.obj.own)
      ensures var st := NextStep(h.validated, old(printStackTraceLoaded), old(html2canvasLoaded));
              var d := Deferred(h.obj, h.validated);
              State() == old(State()).(encounteredErrors := old(encounteredErrors) + [Ledger.Stamped(now, h.obj)],
                                        scripts := old(scripts) + TagsFor(st, old(stacktraceUrl), old(html2canvasUrl), d),
                                        renders := old(renders) + RendersFor(st, d),
                                        submitted := old(submitted) + SubmissionsFor(st, old(submitErrorUrl), h.obj.own))
    {
      ValidatedNeverFetchesStack(h.decision, isReport, SetupOf(), html2canvasLoaded);
      encounteredErrors := encounteredErrors + [Ledger.Stamped(now, h.obj)];
      HandleInternal(h.obj, h.validated, stackFrames);
    }

    /** The `window.onerror` hook `configureOnError` installs, as the browser
        calls it: while `setupWindowOnError` holds it handles the error as
        not reported; before the hook is installed the call is not ours. */
    method WindowOnError(errorMsg: Value, url: Value, lineNumber: Value, columnNumber: Value, arg: ErrorArg,
                         now: int, stackFrames: seq<string>) returns (r: Option<Handled>)
      modifies this, if arg.Object? then {arg.obj} else {}
      ensures !old(windowOnErrorIsSetup && Truthy(setupWindowOnError)) ==>
                r.None? && State() == old(State()) && (arg.Object? ==> arg.obj.own == old(arg.obj.own))
      ensures old(windowOnErrorIsSetup && Truthy(setupWindowOnError)) ==>
                HandledAs(r, errorMsg, url, lineNumber, columnNumber, arg, false, now)
    {
      if !windowOnErrorIsSetup || !Truthy(setupWindowOnError) {
        return None;
      }
      r := HandleError(errorMsg, url, lineNumber, columnNumber, arg, false, now, stackFrames);
    }

    /** `report(errorObj)` from a page at `href`: it throws before anything
        happens when `configure` was not called; otherwise it handles the
        error as reported, with no message, line or column of its own. */
    method Report(arg: ErrorArg, now: int, href: string, stackFrames: seq<string>)
      returns (r: Result<Option<Handled>, string>)
      modifies this, if arg.Object? then {arg.obj} else {}
      ensures !old(isSetup) ==>
                r == Failure(NotSetUpMessage) && State() == old(State()) && (arg.Object? ==> arg.obj.own == old(arg.obj.own))
      ensures old(isSetup) ==> r.Success? && HandledAs(r.value, Null, Str(href), Null, Null, arg, true, now)
    {
      if !isSetup {
        return Failure(NotSetUpMessage);
      }
      var h := HandleError(Null, Str(href), Null, Null, arg, true, now, stackFrames);
      r := Success(h);
    }
  }
}

=== FILE: exceptions.dfy ===
/**
 * exceptions.js: the managed `Exception`, its variants, and the process-wide
 * `handler` that holds the configuration, the guard and the report ledger,
 * and routes uncaught errors.
 *
 * The browser is reduced to inputs: a `Host` record (user agent string,
 * location, date text, stack text of fresh errors, DOM text, the clock) and
 * explicit event methods for "a script finished loading" and "html2canvas
 * finished rendering". HTTP delivery and the user's callbacks become events
 * in the handler's `trace`.
 */
module Exceptions {
  import opened Js
  import opened OptionsModel
  import opened Guards
  import Ledger
  import Utilities

  /* ---------------------------------------------------------------- errors */

  /** The native error constructors the library distinguishes. */
  datatype ErrorKind = PlainError | EvalError | RangeError | ReferenceError | SyntaxError | TypeError | URIError

  function KindName(k: ErrorKind): string {
    match k
    case PlainError => "Error"
    case EvalError => "EvalError"
    case RangeError => "RangeError"
    case ReferenceError => "ReferenceError"
    case SyntaxError => "SyntaxError"
    case TypeError => "TypeError"
    case URIError => "URIError"
  }

  /** What `toString` prints for a native constructor. */
  function NativeSource(k: ErrorKind): string {
    Utilities.DeclaredSource(KindName(k), "", " [native code] ")
  }

  /** A native error object: its constructor, own `name`, `message` and
      `stack`, and the engine-specific fields that `_mergeErrorIntoData`
      copies (`toSource` is the value its method returns, when it has one). */
  datatype NativeError = NativeError(
    kind: ErrorKind,
    name: string,
    message: string,
    stack: Value,
    description: Value,
    number: Value,
    fileName: Value,
    lineNumber: Value,
    columnNumber: Value,
    toSource: Option<Value>)

  /** What the host supplies: `utilities.getBrowser()`, `window.location.href`,
      `Date()`, the `stack` a freshly made error carries, the joined output of
      `printStackTrace()`, the page's `innerHTML`, and `Date.now()`. */
  datatype Host = Host(
    browser: string,
    href: string,
    date: string,
    newErrorStack: Value,
    printedStack: string,
    html: string,
    now: int)

  /** `new <Kind>(message)`: a fresh native error. */
  function NewError(k: ErrorKind, message: Value, host: Host): (e: NativeError)
    ensures e.kind == k && e.name == KindName(k)
    ensures message == Undefined ==> e.message == ""
    ensures message != Undefined ==> e.message == ToString(message)
  {
    NativeError(k, KindName(k), if message == Undefined then "" else ToString(message),
                host.newErrorStack, Undefined, Undefined, Undefined, Undefined, Undefined, None)
  }

  /** The first argument of an exception constructor: an error to wrap, or
      anything else, which becomes the message of a fresh error. */
  datatype Input = WrapError(err: NativeError) | Message(msg: Value)

  /** The error a variant wraps: the given one, or a fresh one of the
      variant's native kind. */
  function WrappedError(k: ErrorKind, input: Input, host: Host): (e: NativeError)
    ensures input.WrapError? ==> e == input.err
    ensures input.Message? ==> e == NewError(k, input.msg, host)
  {
    match input
    case WrapError(err) => err
    case Message(m) => NewError(k, m, host)
  }

  /* ------------------------------------------------------------------ names */

  /** `config.name || this._getName()`: an explicit name; else the error's own
      name when it differs from its constructor's name; else the constructing
      variant's function name. */
  function ResolveName(configName: string, err: NativeError, variantSource: string): string {
    if configName != "" then configName
    else if err.name != "" && err.name != Utilities.FunctionName(NativeSource(err.kind)) then err.name
    else Utilities.FunctionName(variantSource)
  }

  lemma NativeFunctionName(k: ErrorKind)
    ensures Utilities.FunctionName(NativeSource(k)) == KindName(k)
  {
    assert '(' !in KindName(k);
    Utilities.FunctionNameOfDeclared(KindName(k), "", " [native code] ");
  }

  /** The three outcomes of name resolution. */
  lemma ResolveNameCases(configName: string, err: NativeError, variantSource: string)
    ensures configName != "" ==> ResolveName(configName, err, variantSource) == configName
    ensures configName == "" && err.name != "" && err.name != KindName(err.kind) ==>
              ResolveName(configName, err, variantSource) == err.name
    ensures configName == "" && (err.name == "" || err.name == KindName(err.kind)) ==>
              ResolveName(configName, err, variantSource) == Utilities.FunctionName(variantSource)
  {
    NativeFunctionName(err.kind);
  }

  /** `toString()`: `"name - message"`, or the bare name for an empty message. */
  function ExceptionText(name: string, message: string): (r: string)
    ensures message != "" ==> r == name + " - " + message
    ensures message == "" ==> r == name
  {
    if message != "" then name + " - " + message else name
  }

  lemma ExceptionTextStartsWithName(name: string, message: string)
    ensures |ExceptionText(name, message)| >= |name| && ExceptionText(name, message)[..|name|] == name
    ensures |ExceptionText(name, message)| == |name| <==> message == ""
  {
    var r := ExceptionText(name, message);
    if message != "" {
      assert r == name + (" - " + message);
    }
  }

  /* ------------------------------------------------------------------- data */

  /** A property of a data object; a missing key reads as `undefined`. */
  function Get(d: map<string, Value>, k: string): Value {
    if k in d then d[k] else Undefined
  }

  /** `if (error.k && !data.k) data.k = error.k;` */
  function FillFromError(d: map<string, Value>, k: string, v: Value): (r: map<string, Value>)
    ensures Truthy(v) && !Truthy(Get(d, k)) ==> r == d[k := v]
    ensures !(Truthy(v) && !Truthy(Get(d, k))) ==> r == d
  {
    if Truthy(v) && !Truthy(Get(d, k)) then d[k := v] else d
  }

  /** `data.k = data.k || v;` */
  function DefaultTo(d: map<string, Value>, k: string, v: Value): (r: map<string, Value>)
    ensures r == d[k := Or(Get(d, k), v)]
  {
    d[k := Or(Get(d, k), v)]
  }

  /** The keys `_populateDefaultDataProperties` may write. */
  const DefaultKeys: set<string> :=
    {"description", "number", "fileName", "lineNumber", "columnNumber", "source", "browser", "url", "date"}

  /** The first half of `_populateDefaultDataProperties`: `_mergeErrorIntoData`. */
  function MergedErrorFields(d: map<string, Value>, err: NativeError): map<string, Value> {
    var d1 := FillFromError(d, "description", err.description);
    var d2 := FillFromError(d1, "number", err.number);
    var d3 := FillFromError(d2, "fileName", err.fileName);
    var d4 := FillFromError(d3, "lineNumber", err.lineNumber);
    var d5 := FillFromError(d4, "columnNumber", err.columnNumber);
    if err.toSource.Some? && !Truthy(Get(d5, "source")) then d5["source" := err.toSource.value] else d5
  }

  /** The data object after `_populateDefaultDataProperties`. */
  function Populated(d: map<string, Value>, err: NativeError, host: Host): map<string, Value> {
    var m := MergedErrorFields(d, err);
    DefaultTo(DefaultTo(DefaultTo(m, "browser", Str(host.browser)), "url", Str(host.href)), "date", Str(host.date))
  }

  /** `r` agrees with `d` on every truthy entry of `d` and on every key
      outside the default keys. */
  ghost predicate KeepsCallerData(d: map<string, Value>, r: map<string, Value>) {
    forall k :: (Truthy(Get(d, k)) || k !in DefaultKeys) ==> Get(r, k) == Get(d, k)
  }

  lemma KeepsCallerDataTrans(a: map<string, Value>, b: map<string, Value>, c: map<string, Value>)
    requires KeepsCallerData(a, b) && KeepsCallerData(b, c)
    ensures KeepsCallerData(a, c)
  {
    forall k | Truthy(Get(a, k)) || k !in DefaultKeys
      ensures Get(c, k) == Get(a, k)
    {
      assert Get(b, k) == Get(a, k);
    }
  }

  lemma FillKeeps(d: map<string, Value>, k: string, v: Value)
    requires k in DefaultKeys
    ensures KeepsCallerData(d, FillFromError(d, k, v))
  {
  }

  lemma DefaultKeeps(d: map<string, Value>, k: string, v: Value)
    requires k in DefaultKeys
    ensures KeepsCallerData(d, DefaultTo(d, k, v))
  {
  }

  lemma MergeKeeps(d: map<string, Value>, err: NativeError)
    ensures KeepsCallerData(d, MergedErrorFields(d, err))
  {
    var d1 := FillFromError(d, "description", err.description);
    var d2 := FillFromError(d1, "number", err.number);
    var d3 := FillFromError(d2, "fileName", err.fileName);
    var d4 := FillFromError(d3, "lineNumber", err.lineNumber);
    var d5 := FillFromError(d4, "columnNumber", err.columnNumber);
    FillKeeps(d, "description", err.description);
    FillKeeps(d1, "number", err.number);
    KeepsCallerDataTrans(d, d1, d2);
    FillKeeps(d2, "fileName", err.fileName);
    KeepsCallerDataTrans(d, d2, d3);
    FillKeeps(d3, "lineNumber", err.lineNumber);
    KeepsCallerDataTrans(d, d3, d4);
    FillKeeps(d4, "columnNumber", err.columnNumber);
    KeepsCallerDataTrans(d, d4, d5);
    KeepsCallerDataTrans(d, d5, MergedErrorFields(d, err));
  }

  /** Populating never overwrites a truthy entry and never touches a key
      outside the default keys (so never `message` or `stack`). */
  lemma PopulatedKeepsCallerData(d: map<string, Value>, err: NativeError, host: Host)
    ensures KeepsCallerData(d, Populated(d, err, host))
    ensures Get(Populated(d, err, host), "message") == Get(d, "message")
    ensures Get(Populated(d, err, host), "stack") == Get(d, "stack")
  {
    var m := MergedErrorFields(d, err);
    var m1 := DefaultTo(m, "browser", Str(host.browser));
    var m2 := DefaultTo(m1, "url", Str(host.href));
    MergeKeeps(d, err);
    DefaultKeeps(m, "browser", Str(host.browser));
    KeepsCallerDataTrans(d, m, m1);
    DefaultKeeps(m1, "url", Str(host.href));
    KeepsCallerDataTrans(d, m1, m2);
    DefaultKeeps(m2, "date", Str(host.date));
    KeepsCallerDataTrans(d, m2, Populated(d, err, host));
    assert "message" !in DefaultKeys && "stack" !in DefaultKeys;
  }

  /** The three host defaults are set whenever the caller left them falsy. */
  lemma PopulatedFillsDefaults(d: map<string, Value>, err: NativeError, host: Host)
    ensures !Truthy(Get(d, "url")) ==> Get(Populated(d, err, host), "url") == Str(host.href)
    ensures !Truthy(Get(d, "date")) ==> Get(Populated(d, err, host), "date") == Str(host.date)
    ensures !Truthy(Get(d, "browser")) ==> Get(Populated(d, err, host), "browser") == Str(host.browser)
  {
    MergeLeavesHostKey(d, err, "url");
    MergeLeavesHostKey(d, err, "date");
    MergeLeavesHostKey(d, err, "browser");
  }

  lemma MergeLeavesHostKey(d: map<string, Value>, err: NativeError, k: string)
    requires k == "url" || k == "date" || k == "browser"
    ensures Get(MergedErrorFields(d, err), k) == Get(d, k)
  {
  }

  /** A truthy error field fills a falsy entry, shown for `lineNumber`. */
  lemma PopulatedFillsFromError(d: map<string, Value>, err: NativeError, host: Host)
    ensures !Truthy(Get(d, "lineNumber")) && Truthy(err.lineNumber) ==>
              Get(Populated(d, err, host), "lineNumber") == err.lineNumber
  {
    var d1 := FillFromError(d, "description", err.description);
    var d2 := FillFromError(d1, "number", err.number);
    var d3 := FillFromError(d2, "fileName", err.fileName);
    var d4 := FillFromError(d3, "lineNumber", err.lineNumber);
    var m := MergedErrorFields(d, err);
    assert Get(d3, "lineNumber") == Get(d, "lineNumber");
    if !Truthy(Get(d, "lineNumber")) && Truthy(err.lineNumber) {
      assert Get(d4, "lineNumber") == err.lineNumber;
      assert Get(m, "lineNumber") == err.lineNumber;
    }
  }

  /* ------------------------------------------------------------ serial form */

  /** `toSerializableObject()`; `data` is the very data object. */
  datatype Serial = Serial(
    name: string,
    message: string,
    stacktrace: Value,
    data: DataBag,
    inner: Option<Serial>,
    error: NativeError)

  /** Levels of nesting below a serial form. */
  function Nesting(s: Serial): nat {
    match s.inner
    case None => 0
    case Some(i) => 1 + Nesting(i)
  }

  /** The serial form `k` levels down. */
  function SerialAt(s: Serial, k: nat): Serial
    requires k <= Nesting(s)
  {
    if k == 0 then s else SerialAt(s.inner.value, k - 1)
  }

  /* -------------------------------------------------- the lifecycle events */

  /** What the report pipeline did, in order: the `beforeReport` hook, the
      POST to the configured URL, the POST to the platform, and the report
      callback. */
  datatype Event =
    | BeforeReport(ex: Exception)
    | PostSent(ex: Exception)
    | PlatformSent(ex: Exception)
    | CallbackRun(ex: Exception)

  function Rank(e: Event): nat {
    match e
    case BeforeReport(_) => 0
    case PostSent(_) => 1
    case PlatformSent(_) => 2
    case CallbackRun(_) => 3
  }

  /** A script tag the library added: stacktrace.js, or html2canvas.js
      together with the exception whose capture waits for it. */
  datatype Script = StacktraceJs | Html2Canvas(waiting: Exception)

  /** A queued continuation; the only one the library queues is the report
      finalizer (`beforeReport`, then `_report`). */
  datatype Listener = FinalizeReport

  /** One ledger entry `{exception, timestamp}`. */
  type Entry = Ledger.Stamped<Exception>

  /** `[e]` when `cond` holds, else nothing. */
  function Opt(cond: bool, e: Event): seq<Event> {
    if cond then [e] else []
  }

  /** `t` followed by `e` when `cond` holds. */
  function Then(t: seq<Event>, cond: bool, e: Event): seq<Event> {
    t + Opt(cond, e)
  }

  /** The two user hooks as the finalizer meets them: whether each is set
      (truthy), and whether calling it raises (a function that throws, or a
      truthy value that is not a function). */
  datatype Hooks = Hooks(before: bool, beforeRaises: bool, callback: bool, callbackRaises: bool)

  /** A `beforeReport` hook that is set and raises ends the run before `_report`. */
  predicate BeforeFails(k: Hooks) {
    k.before && k.beforeRaises
  }

  /** The events of one run of the finalizer on exception `e` with guarded
      flags `s`: the hook when set, then, unless it raised, the sinks. The
      report callback flag with no callback configured makes
      `_reportCallback` call `null`: a TypeError that ends the run there. */
  function FinalizeTrace(e: Exception, s: Snapshot, k: Hooks): seq<Event> {
    var t1 := Then([], k.before, BeforeReport(e));
    if BeforeFails(k) then t1
    else
      var t2 := Then(t1, Truthy(s.reportPost), PostSent(e));
      var t3 := Then(t2, Truthy(s.platform), PlatformSent(e));
      Then(t3, Truthy(s.reportCallback) && k.callback, CallbackRun(e))
  }

  /** Appending the finalizer's events one by one to `t0` is appending its
      whole trace. */
  lemma ThenAfter(t0: seq<Event>, c1: bool, c2: bool, c3: bool, c4: bool, e: Exception)
    ensures Then(Then(Then(Then(t0, c1, BeforeReport(e)), c2, PostSent(e)), c3, PlatformSent(e)), c4, CallbackRun(e)) ==
            t0 + Then(Then(Then(Then([], c1, BeforeReport(e)), c2, PostSent(e)), c3, PlatformSent(e)), c4, CallbackRun(e))
  {
    var o1, o2, o3, o4 := Opt(c1, BeforeReport(e)), Opt(c2, PostSent(e)), Opt(c3, PlatformSent(e)), Opt(c4, CallbackRun(e));
    assert [] + o1 == o1;
    assert t0 + o1 + o2 + o3 + o4 == t0 + (o1 + o2 + o3 + o4);
  }

  /** Whether a run of the finalizer gets to `_pushReportedException`: the
      hook did not raise, and the callback, when its flag is on, is set and
      returns. */
  predicate FinalizeCompletes(s: Snapshot, k: Hooks) {
    !BeforeFails(k) && (!Truthy(s.reportCallback) || (k.callback && !k.callbackRaises))
  }

  /** Every event of `t` is about `x`, each has a lower rank than the one
      after it, and the last one's rank is below `bound`. */
  ghost predicate OrderedAbout(t: seq<Event>, x: Exception, bound: nat)
    decreases |t|
  {
    t == [] ||
    (t[|t| - 1].ex == x && Rank(t[|t| - 1]) < bound && OrderedAbout(t[..|t| - 1], x, Rank(t[|t| - 1])))
  }

  /** `OrderedAbout` means strictly increasing ranks, all below `bound`. */
  lemma {:induction false} OrderedAboutIncreasing(t: seq<Event>, x: Exception, bound: nat)
    requires OrderedAbout(t, x, bound)
    ensures forall i, j :: 0 <= i < j < |t| ==> Rank(t[i]) < Rank(t[j])
    ensures forall i :: 0 <= i < |t| ==> t[i].ex == x && Rank(t[i]) < bound
  {
    if t != [] {
      var p := t[..|t| - 1];
      OrderedAboutIncreasing(p, x, Rank(t[|t| - 1]));
      forall i | 0 <= i < |p|
        ensures t[i] == p[i]
      {
      }
    }
  }

  lemma OrderedAboutWeaker(t: seq<Event>, x: Exception, bound: nat, larger: nat)
    requires OrderedAbout(t, x, bound) && bound <= larger
    ensures OrderedAbout(t, x, larger)
  {
  }

  lemma ThenOrdered(t: seq<Event>, cond: bool, e: Event)
    requires OrderedAbout(t, e.ex, Rank(e))
    ensures OrderedAbout(Then(t, cond, e), e.ex, Rank(e) + 1)
  {
    if cond {
      assert (t + [e])[..|t|] == t;
    } else {
      assert Then(t, cond, e) == t;
    }
  }

  /** The finalizer's events come in the fixed order, each at most once, and
      all of them are about `e`. */
  lemma FinalizeTraceOrdered(e: Exception, s: Snapshot, k: Hooks)
    ensures OrderedAbout(FinalizeTrace(e, s, k), e, 4)
  {
    var c1, c2, c3, c4 := k.before, Truthy(s.reportPost), Truthy(s.platform), Truthy(s.reportCallback) && k.callback;
    var t1 := Then([], c1, BeforeReport(e));
    var t2 := Then(t1, c2, PostSent(e));
    var t3 := Then(t2, c3, PlatformSent(e));
    ThenOrdered([], c1, BeforeReport(e));
    if BeforeFails(k) {
      assert FinalizeTrace(e, s, k) == t1;
      OrderedAboutWeaker(t1, e, 1, 4);
      return;
    }
    ThenOrdered(t1, c2, PostSent(e));
    ThenOrdered(t2, c3, PlatformSent(e));
    ThenOrdered(t3, c4, CallbackRun(e));
    assert FinalizeTrace(e, s, k) == Then(t3, c4, CallbackRun(e));
  }

  /** The `beforeReport` hook appears in the finalizer's events exactly when
      it is set; unless it raised, each sink appears exactly when its guarded
      flag is on (the callback only when one is configured), and after a
      raising hook none does. */
  lemma FinalizeTraceSinks(e: Exception, s: Snapshot, k: Hooks)
    ensures var t := FinalizeTrace(e, s, k);
            (BeforeReport(e) in t <==> k.before) &&
            (PostSent(e) in t <==> !BeforeFails(k) && Truthy(s.reportPost)) &&
            (PlatformSent(e) in t <==> !BeforeFails(k) && Truthy(s.platform)) &&
            (CallbackRun(e) in t <==> !BeforeFails(k) && Truthy(s.reportCallback) && k.callback)
  {
    var c1, c2, c3, c4 := k.before, Truthy(s.reportPost), Truthy(s.platform), Truthy(s.reportCallback) && k.callback;
    var o1, o2, o3, o4 := Opt(c1, BeforeReport(e)), Opt(c2, PostSent(e)), Opt(c3, PlatformSent(e)), Opt(c4, CallbackRun(e));
    assert [] + o1 == o1;
    if !BeforeFails(k) {
      ThenAfter([], c1, c2, c3, c4, e);
      assert FinalizeTrace(e, s, k) == o1 + o2 + o3 + o4;
    }
  }

  /** `k` runs of the same event sequence. */
  function Repeat(t: seq<Event>, k: nat): (r: seq<Event>)
    ensures |r| == k * |t|
  {
    if k == 0 then [] else Repeat(t, k - 1) + t
  }

  lemma RepeatStep(t0: seq<Event>, t: seq<Event>, k: nat)
    ensures t0 + Repeat(t, k) + t == t0 + Repeat(t, k + 1)
  {
  }

  lemma EntriesStep(l0: seq<Entry>, e: Exception, now: int, k: nat)
    ensures l0 + Entries(e, now, k) + [Ledger.Stamped(now, e)] == l0 + Entries(e, now, k + 1)
  {
  }

  /** `k` ledger entries for `e` at `now`. */
  function Entries(e: Exception, now: int, k: nat): (r: seq<Entry>)
    ensures |r| == k
    ensures forall i :: 0 <= i < k ==> r[i] == Ledger.Stamped(now, e)
  {
    if k == 0 then [] else Entries(e, now, k - 1) + [Ledger.Stamped(now, e)]
  }

  /* -------------------------------------------------------------- variants */

  /** The static helpers `_mixStaticFunctions` offers a variant. */
  datatype Static = ThrowIfStatic | ReportIfStatic | DefaultOptionsStatic

  const AllStatics: set<Static> := {ThrowIfStatic, ReportIfStatic, DefaultOptionsStatic}

  /** A registered exception variant: its constructor's source text, the
      variant it inherits from, the native kind its constructor wraps a
      message in, the statics the library installed on it (those the
      constructor did not already have), and its stored default options. */
  datatype Variant = Variant(
    source: string,
    base: Option<nat>,
    wraps: ErrorKind,
    installed: set<Static>,
    defaults: Options)

  const ExceptionId := 0
  const ArgumentId := 1

  /** The ten variants the library defines, in definition order. */
  function BuiltinName(i: nat): (n: string)
    requires i < 10
    ensures '(' !in n
  {
    match i
    case 0 => "Exception"
    case 1 => "ArgumentException"
    case 2 => "InvalidOperationException"
    case 3 => "NotImplementedException"
    case 4 => "EvalException"
    case 5 => "RangeException"
    case 6 => "ReferenceException"
    case 7 => "SyntaxException"
    case 8 => "TypeException"
    case _ => "URIException"
  }

  function BuiltinKind(i: nat): ErrorKind
    requires i < 10
  {
    match i
    case 4 => EvalError
    case 5 => RangeError
    case 6 => ReferenceError
    case 7 => SyntaxError
    case 8 => TypeError
    case 9 => URIError
    case _ => PlainError
  }

  function BuiltinSource(i: nat): string
    requires i < 10
  {
    Utilities.DeclaredSource(BuiltinName(i), "message, config", " ... ")
  }

  /** The variant `handle` picks for a native error of kind `k`. */
  function KindVariant(k: ErrorKind): (v: nat)
    ensures v < 10 && BuiltinKind(v) == k
  {
    match k
    case PlainError => ExceptionId
    case EvalError => 4
    case RangeError => 5
    case ReferenceError => 6
    case SyntaxError => 7
    case TypeError => 8
    case URIError => 9
  }

  /** A built-in variant's name is recovered from its source text. */
  lemma BuiltinFunctionName(i: nat)
    requires i < 10
    ensures Utilities.FunctionName(BuiltinSource(i)) == BuiltinName(i)
  {
    Utilities.FunctionNameOfDeclared(BuiltinName(i), "message, config", " ... ");
  }

  /* ------------------------------------------------------ the data object */

  /** A data object, shared by reference with whoever supplied it. */
  class DataBag {
    var entries: map<string, Value>

    constructor ()
      ensures entries == map[]
    {
      entries := map[];
    }

    /** `_populateDefaultDataProperties`. */
    method Populate(err: NativeError, host: Host)
      modifies this
      ensures entries == Populated(old(entries), err, host)
    {
      var d := entries;
      d := FillFromError(d, "description", err.description);
      d := FillFromError(d, "number", err.number);
      d := FillFromError(d, "fileName", err.fileName);
      d := FillFromError(d, "lineNumber", err.lineNumber);
      d := FillFromError(d, "columnNumber", err.columnNumber);
      if err.toSource.Some? && !Truthy(Get(d, "source")) {
        d := d["source" := err.toSource.value];
      }
      assert d == MergedErrorFields(old(entries), err);
      d := DefaultTo(d, "browser", Str(host.browser));
      d := DefaultTo(d, "url", Str(host.href));
      d := DefaultTo(d, "date", Str(host.date));
      entries := d;
    }

    method Put(k: string, v: Value)
      modifies this
      ensures entries == old(entries)[k := v]
    {
      entries := entries[k := v];
    }
  }

  /** `_getDOMDump`: the page's markup under `DOMDump`, overwriting any value. */
  function WithDomDump(d: map<string, Value>, on: bool, html: string): (r: map<string, Value>)
    ensures on ==> r == d["DOMDump" := Str("<html>" + html + "</html>")]
    ensures !on ==> r == d
  {
    if on then d["DOMDump" := Str("<html>" + html + "</html>")] else d
  }

  /* -------------------------------------------------------------- handler */

  /** The handler's settings: `scope`, the two script URLs, the report-post
      URL, `beforeReport`, `reportCallback`, `clientId` and `to`. */
  datatype Settings = Settings(
    scope: Value,
    stacktraceUrl: Value,
    html2canvasUrl: Value,
    reportPostUrl: Value,
    beforeReport: Value,
    reportCallback: Value,
    clientId: Value,
    to: Value,
    beforeReportRaises: bool,   // calling the configured `beforeReport` raises
    reportCallbackRaises: bool) // calling the configured `reportCallback` raises

  /** The two hooks of `st` as the finalizer meets them. */
  function HooksOf(st: Settings): Hooks {
    Hooks(Truthy(st.beforeReport), st.beforeReportRaises, Truthy(st.reportCallback), st.reportCallbackRaises)
  }

  const StacktraceJsUrl := "https://cdnjs.cloudflare.com/ajax/libs/stacktrace.js/0.6.0/stacktrace.js"
  const Html2CanvasUrl := "https://cdnjs.cloudflare.com/ajax/libs/html2canvas/0.4.1/html2canvas.js"
  const ScopeNone := Num(0)
  const ScopeExceptions := Num(1)
  const ScopeAll := Num(2)

  /** Everything in the handler apart from its three logs. */
  datatype HandlerCore = HandlerCore(
    guard: Guard,
    settings: Settings,
    html2canvasLoaded: bool,
    printStackTraceLoaded: bool,
    computedStyle: bool,
    attemptedToLoadStacktraceJs: bool,
    attemptedToLoadHtml2Canvas: bool)

  /** What `scope(value)` returns: the handler after a set, the scope after a get. */
  datatype ScopeAccess = HandlerReturned | ScopeValue(scope: Value)

  /** What `_retrieveStacktrace` returns. */
  function RetrievedStack(err: NativeError, printStackTraceLoaded: bool, printed: string): (r: Value)
    ensures Truthy(err.stack) ==> r == err.stack
    ensures !Truthy(err.stack) && printStackTraceLoaded ==> r == Str(printed)
    ensures !Truthy(err.stack) && !printStackTraceLoaded ==> r == Str("Unable to retrieve stacktrace")
  {
    if Truthy(err.stack) then err.stack
    else if printStackTraceLoaded then Str(printed)
    else Str("Unable to retrieve stacktrace")
  }

  class Handler {
    var guard: Guard
    var settings: Settings
    var html2canvasLoaded: bool      // `window.html2canvas` is defined
    var printStackTraceLoaded: bool  // `window.printStackTrace` is defined
    var computedStyle: bool          // `window.getComputedStyle` is defined
    var attemptedToLoadStacktraceJs: bool
    var attemptedToLoadHtml2Canvas: bool
    var scriptRequests: seq<Script>
    var ledger: seq<Entry>           // `_reportedExceptions`
    var trace: seq<Event>

    function Core(): HandlerCore
      reads this
    {
      HandlerCore(guard, settings, html2canvasLoaded, printStackTraceLoaded, computedStyle,
                  attemptedToLoadStacktraceJs, attemptedToLoadHtml2Canvas)
    }

    /** The settings as the availability rule sees them. */
    function Resources(): (r: Guards.Resources)
      reads this
      ensures r.reportCallback <==> Truthy(settings.reportCallback)
      ensures r.reportPostUrl <==> Truthy(settings.reportPostUrl)
    {
      Guards.Resources(Truthy(settings.stacktraceUrl), Truthy(settings.html2canvasUrl), computedStyle,
                       Truthy(settings.reportPostUrl), Truthy(settings.reportCallback), Truthy(settings.clientId))
    }

    /** `_setup` without the `window.onerror` hook: the default guard and the
        two CDN URLs; scope `all`; nothing else configured, nothing reported. */
    constructor (html2canvasLoaded: bool, printStackTraceLoaded: bool, computedStyle: bool)
      ensures guard.restrictions == DefaultRules()
      ensures settings == Settings(ScopeAll, Str(StacktraceJsUrl), Str(Html2CanvasUrl), Null, Undefined, Null, Null, Null, false, false)
      ensures this.html2canvasLoaded == html2canvasLoaded && this.printStackTraceLoaded == printStackTraceLoaded
      ensures this.computedStyle == computedStyle
      ensures !attemptedToLoadStacktraceJs && !attemptedToLoadHtml2Canvas
      ensures scriptRequests == [] && ledger == [] && trace == []
    {
      var g := NewDefaultGuard();
      guard := g;
      settings := Settings(ScopeAll, Str(StacktraceJsUrl), Str(Html2CanvasUrl), Null, Undefined, Null, Null, Null, false, false);
      this.html2canvasLoaded := html2canvasLoaded;
      this.printStackTraceLoaded := printStackTraceLoaded;
      this.computedStyle := computedStyle;
      attemptedToLoadStacktraceJs := false;
      attemptedToLoadHtml2Canvas := false;
      scriptRequests := [];
      ledger := [];
      trace := [];
    }

    /** `_setupDefaultGuard`: a fresh guard with the two default burst rules. */
    method SetupDefaultGuard()
      modifies this
      ensures fresh(guard) && guard.restrictions == DefaultRules()
      ensures settings == old(settings) && ledger == old(ledger) && trace == old(trace)
      ensures scriptRequests == old(scriptRequests)
      ensures Core() == old(Core()).(guard := guard)
    {
      guard := NewDefaultGuard();
    }

    /** `scope(value)`: any value other than `undefined` is stored as is. */
    method Scope(value: Value) returns (r: ScopeAccess)
      modifies this
      ensures value != Undefined ==> r == HandlerReturned && settings == old(settings).(scope := value)
      ensures value == Undefined ==> r == ScopeValue(old(settings).scope) && settings == old(settings)
      ensures Core() == old(Core()).(settings := settings)
      ensures ledger == old(ledger) && trace == old(trace) && scriptRequests == old(scriptRequests)
    {
      if value != Undefined {
        settings := settings.(scope := value);
        r := HandlerReturned;
      } else {
        r := ScopeValue(settings.scope);
      }
    }

    /** `retrieveReportedExceptionsCount(seconds)` at time `now`. */
    method RetrieveReportedExceptionsCount(seconds: Option<int>, now: int) returns (n: nat)
      ensures n == Ledger.WindowCount(Ledger.Timestamps(ledger), now, seconds)
      ensures seconds.None? ==> n == |ledger|
    {
      n := Ledger.CountReported(Ledger.Timestamps(ledger), now, seconds);
    }

    /** `_pushReportedException`: appends exactly one entry. */
    method PushReportedException(e: Exception, now: int)
      modifies this
      ensures ledger == old(ledger) + [Ledger.Stamped(now, e)]
      ensures Core() == old(Core()) && trace == old(trace) && scriptRequests == old(scriptRequests)
    {
      ledger := ledger + [Ledger.Stamped(now, e)];
    }

    /** A sink fired. */
    method Emit(ev: Event)
      modifies this
      ensures trace == old(trace) + [ev]
      ensures Core() == old(Core()) && ledger == old(ledger) && scriptRequests == old(scriptRequests)
    {
      trace := trace + [ev];
    }

    /** A sink guarded by `on` fired if `on` holds. */
    method EmitIf(on: bool, ev: Event)
      modifies this
      ensures trace == Then(old(trace), on, ev)
      ensures Core() == old(Core()) && ledger == old(ledger) && scriptRequests == old(scriptRequests)
    {
      if on {
        trace := trace + [ev];
      }
    }

    /** Whether `_retrieveStacktrace` for `err` asks for stacktrace.js. */
    predicate NeedsStacktraceJs(err: NativeError)
      reads this
    {
      !Truthy(err.stack) && !printStackTraceLoaded && !attemptedToLoadStacktraceJs
    }

    /** `_retrieveStacktrace`: the error's own stack, else printStackTrace's
        output, else a placeholder, loading stacktrace.js if no load has
        completed yet. */
    method RetrieveStacktrace(err: NativeError, host: Host) returns (st: Value)
      modifies this
      ensures st == RetrievedStack(err, printStackTraceLoaded, host.printedStack)
      ensures scriptRequests == old(scriptRequests) + (if old(NeedsStacktraceJs(err)) then [StacktraceJs] else [])
      ensures Core() == old(Core()) && ledger == old(ledger) && trace == old(trace)
    {
      if Truthy(err.stack) {
        return err.stack;
      }
      if printStackTraceLoaded {
        return Str(host.printedStack);
      }
      if !attemptedToLoadStacktraceJs {
        scriptRequests := scriptRequests + [StacktraceJs];
      }
      st := Str("Unable to retrieve stacktrace");
    }

    /** The constructor's stacktrace: retrieved when the guarded flag `on`
        is set, else `null`. */
    method StacktraceIf(on: bool, err: NativeError, host: Host) returns (st: Value)
      modifies this
      ensures st == (if on then RetrievedStack(err, old(printStackTraceLoaded), host.printedStack) else Null)
      ensures scriptRequests == old(scriptRequests) +
                (if on && !Truthy(err.stack) && !old(printStackTraceLoaded) && !old(attemptedToLoadStacktraceJs)
                 then [StacktraceJs] else [])
      ensures Core() == old(Core()) && ledger == old(ledger) && trace == old(trace)
    {
      st := Null;
      if on {
        st := RetrieveStacktrace(err, host);
      }
    }

    /** The stacktrace.js script (request `i`) finished loading: its
        callback, which runs once, records the attempt; `printStackTrace` is
        defined afterwards only when the loaded script `defines` it. A load
        that does not leaves `_retrieveStacktrace` returning its placeholder
        without a new request. */
    method OnStacktraceJsLoaded(i: nat, defines: bool)
      requires i < |scriptRequests| && scriptRequests[i] == StacktraceJs
      modifies this
      ensures attemptedToLoadStacktraceJs
      ensures printStackTraceLoaded == (old(printStackTraceLoaded) || defines)
      ensures Core() == old(Core()).(attemptedToLoadStacktraceJs := true, printStackTraceLoaded := printStackTraceLoaded)
      ensures scriptRequests == old(scriptRequests[..i] + scriptRequests[i + 1..])
      ensures ledger == old(ledger) && trace == old(trace)
    {
      scriptRequests := scriptRequests[..i] + scriptRequests[i + 1..];
      attemptedToLoadStacktraceJs := true;
      if defines {
        printStackTraceLoaded := true;
      }
    }

    /** `handle(config)` for one thrown value. */
    method Handle(reg: Registry, hc: HandleConfig, host: Host) returns (e: Exception?)
      requires reg.Valid() && reg.HasBuiltins()
      modifies this, HandleFrame(hc)
      ensures var p := Classify(old(settings.scope), hc.error, hc.errorMessage);
              (p.Ignore? || p.Crash?) <==> e == null
      ensures var p := Classify(old(settings.scope), hc.error, hc.errorMessage);
              p.Ignore? ==> ledger == old(ledger) && trace == old(trace) && scriptRequests == old(scriptRequests)
      ensures var p := Classify(old(settings.scope), hc.error, hc.errorMessage);
              p.Crash? ==> hc.error == Other(Null) && !Truthy(hc.errorMessage) &&
                           ledger == old(ledger) && trace == old(trace) && scriptRequests == old(scriptRequests) &&
                           (hc.data != null ==> hc.data.entries == old(hc.data.entries)["errorWithUnknownType" := Null])
      ensures var p := Classify(old(settings.scope), hc.error, hc.errorMessage);
              p.AsIs? ==> e == p.ex && e.data.entries == HandleDefaults(old(e.data.entries), hc) &&
                          e.Reported(old(e.listeners), old(ledger), old(trace), this, host.now)
      ensures var p := Classify(old(settings.scope), hc.error, hc.errorMessage);
              p.Build? ==> e != null && fresh(e) && fresh(e.options) &&
                           e.variant == p.variant && e.inner == null &&
                           e.error == WrappedError(BuiltinKind(p.variant), p.input, host) &&
                           e.name == ResolveName("", e.error, BuiltinSource(p.variant)) &&
                           (hc.data != null ==> e.data == hc.data) &&
                           e.options.Current() == Restricted(old(guard.restrictions), Requested(hc.error),
                                                             ExceptionView(e.name, e.error.message, Truthy(e.error.stack)),
                                                             Ledger.Timestamps(old(ledger)), host.now, old(Resources())) &&
                           e.data.entries == HandleDefaults(
                             WithDomDump(Populated(UnknownNoted(if hc.data != null then old(hc.data.entries) else map[], p.unknown),
                                                   e.error, host),
                                         Truthy(e.options.Current().domDump), host.html), hc) &&
                           e.Reported([], old(ledger), old(trace), this, host.now)
      ensures Core() == old(Core())
    {
      var p := Classify(settings.scope, hc.error, hc.errorMessage);
      match p {
        case Ignore =>
          return null;
        case Crash =>
          if hc.data != null {
            hc.data.Put("errorWithUnknownType", Null);
          }
          return null;
        case AsIs(ex) =>
          e := ex;
        case Build(v, input, unknown) =>
          e := BuildFor(reg, v, input, unknown, hc, host);
      }
      FinishHandle(e, hc, host.now);
    }

    /** The exception `handle` builds from a native error or another value:
        the caller's data object (or a fresh one) noting a value of unknown
        type, and options with every flag on but the stacktrace, which is on
        only for an error that has a stack. */
    method BuildFor(reg: Registry, v: nat, input: Input, unknown: Option<Value>, hc: HandleConfig, host: Host)
      returns (e: Exception)
      requires reg.Valid() && reg.HasBuiltins() && v < 10
      modifies this, HandleFrame(hc)
      ensures fresh(e) && fresh(e.options) && e.inner == null && e.listeners == []
      ensures hc.data != null ==> e.data == hc.data
      ensures hc.data == null ==> fresh(e.data)
      ensures Built(e, v, BuiltinKind(v), BuiltinSource(v), "", input, host,
                    old(guard.restrictions), Requested(hc.error), Ledger.Timestamps(old(ledger)), old(Resources()),
                    UnknownNoted(if hc.data != null then old(hc.data.entries) else map[], unknown))
      ensures Core() == old(Core()) && ledger == old(ledger) && trace == old(trace)
    {
      ghost var rules, stamps, res := guard.restrictions, Ledger.Timestamps(ledger), Resources();
      var bag, o := HandleObjects(unknown, hc);
      assert guard.restrictions == rules && Ledger.Timestamps(ledger) == stamps && Resources() == res;
      assert reg.variants[v].wraps == BuiltinKind(v) && reg.variants[v].source == BuiltinSource(v);
      e := NewException(this, reg, v, input, ExConfig("", null, bag, o), host);
    }

    /** The data object and options `handle` passes to the variant. */
    static method HandleObjects(unknown: Option<Value>, hc: HandleConfig) returns (bag: DataBag, o: Options)
      modifies HandleFrame(hc)
      ensures hc.data != null ==> bag == hc.data
      ensures hc.data == null ==> fresh(bag)
      ensures bag.entries == UnknownNoted(if hc.data != null then old(hc.data.entries) else map[], unknown)
      ensures fresh(o) && o.Current() == Requested(hc.error)
    {
      if hc.data != null {
        bag := hc.data;
      } else {
        bag := new DataBag();
      }
      if unknown.Some? {
        bag.Put("errorWithUnknownType", unknown.value);
      }
      o := new Options(None);
      var a := o.Access(Stacktrace, Bool(HasStack(hc.error)));
    }

    /** The end of `handle`: the location defaults go into the data, then
        the exception is reported. */
    method FinishHandle(e: Exception, hc: HandleConfig, now: int)
      modifies this, e, e.data
      ensures e.data.entries == HandleDefaults(old(e.data.entries), hc)
      ensures e.Reported(old(e.listeners), old(ledger), old(trace), this, now)
      ensures Core() == old(Core())
    {
      var d := e.data.entries;
      e.data.entries := HandleDefaults(d, hc);
      e.Report(this, now);
    }
  }

  /* ---------------------------------------------------------------- handle */

  /** What reaches `handle` as `config.error`. */
  datatype Thrown =
    | Managed(ex: Exception)     // an `Exception` of this library
    | NativeErr(err: NativeError) // an `Error` of one of the native kinds
    | Other(value: Value)        // anything else, `undefined` included

  /** `handle`'s configuration object. */
  datatype HandleConfig = HandleConfig(
    errorMessage: Value,
    url: Value,
    lineNumber: Value,
    columnNumber: Value,
    error: Thrown,
    data: DataBag?)

  function HandleFrame(hc: HandleConfig): set<object> {
    (if hc.data != null then {hc.data} else {}) +
    (if hc.error.Managed? then {hc.error.ex, hc.error.ex.data} else {})
  }

  /** What `handle` does with a thrown value: nothing; report the exception
      itself; build a variant from an input (noting a value of unknown type
      in the data); or fail calling `toString` on `null`, which happens only
      when no error message short-circuits that call. */
  datatype Plan =
    | Ignore
    | AsIs(ex: Exception)
    | Build(variant: nat, input: Input, unknown: Option<Value>)
    | Crash

  /** The scope filter and the classification of `handle`. A scope other
      than the three options is treated as `all`. */
  function Classify(scope: Value, thrown: Thrown, errorMessage: Value): (p: Plan)
    ensures p.Build? ==> p.variant < 10
    ensures p.Crash? <==> scope != ScopeNone && scope != ScopeExceptions &&
                          thrown == Other(Null) && !Truthy(errorMessage)
  {
    if scope == ScopeNone then Ignore
    else if scope == ScopeExceptions && !thrown.Managed? then Ignore
    else match thrown
      case Managed(ex) => AsIs(ex)
      case NativeErr(err) => Build(KindVariant(err.kind), WrapError(err), None)
      case Other(v) =>
        if v == Undefined then Build(ExceptionId, Message(errorMessage), None)
        else if v.Str? then Build(ExceptionId, Message(Or(errorMessage, v)), None)
        else if v == Null then
          (if Truthy(errorMessage) then Build(ExceptionId, Message(errorMessage), Some(Null)) else Crash)
        else Build(ExceptionId, Message(Or(errorMessage, Str(ToString(v)))), Some(v))
  }

  /** `Boolean(errorObj && errorObj.stack)`. Of the thrown values modelled,
      only a native error has properties, so only it can carry a stack. */
  function HasStack(thrown: Thrown): bool {
    thrown.NativeErr? && Truthy(thrown.err.stack)
  }

  /** The options `handle` requests: all on, stacktrace only for a stack. */
  function Requested(thrown: Thrown): (s: Snapshot)
    ensures s == Uniform(Bool(true)).With(Stacktrace, Bool(HasStack(thrown)))
  {
    Uniform(Bool(true)).With(Stacktrace, Bool(HasStack(thrown)))
  }

  function UnknownNoted(d: map<string, Value>, unknown: Option<Value>): map<string, Value> {
    if unknown.Some? then d["errorWithUnknownType" := unknown.value] else d
  }

  /** `data.url = data.url || url` and the same for the line and column. */
  function HandleDefaults(d: map<string, Value>, hc: HandleConfig): map<string, Value> {
    DefaultTo(DefaultTo(DefaultTo(d, "url", hc.url), "lineNumber", hc.lineNumber), "columnNumber", hc.columnNumber)
  }

  /** Scope `none` handles nothing; scope `exceptions` handles exactly the
      library's own exceptions, and reports those as they are. */
  lemma ScopeFilter(thrown: Thrown, errorMessage: Value, scope: Value)
    ensures Classify(ScopeNone, thrown, errorMessage) == Ignore
    ensures Classify(ScopeExceptions, thrown, errorMessage) != Ignore <==> thrown.Managed?
    ensures scope != ScopeNone && thrown.Managed? ==> Classify(scope, thrown, errorMessage) == AsIs(thrown.ex)
  {
  }

  /** A native error of each kind becomes the variant named after that kind,
      wrapping the very error; its name is the variant's unless the error
      carries a name of its own. */
  lemma NativeErrorVariant(err: NativeError, errorMessage: Value, scope: Value, host: Host)
    requires scope != ScopeNone && scope != ScopeExceptions
    ensures var p := Classify(scope, NativeErr(err), errorMessage);
            p.Build? && p.variant == KindVariant(err.kind) && p.unknown.None? &&
            WrappedError(BuiltinKind(p.variant), p.input, host) == err &&
            (err.name == "" || err.name == KindName(err.kind) ==>
               ResolveName("", err, BuiltinSource(p.variant)) == BuiltinName(KindVariant(err.kind)))
  {
    NativeFunctionName(err.kind);
    BuiltinFunctionName(KindVariant(err.kind));
  }

  /** A string becomes the message of a plain `Exception` unless an error
      message was supplied; any other defined value is also noted under
      `errorWithUnknownType`. */
  lemma OtherValuesBecomeExceptions(v: Value, errorMessage: Value, scope: Value, host: Host)
    requires scope != ScopeNone && scope != ScopeExceptions
    ensures v.Str? ==> Classify(scope, Other(v), errorMessage) == Build(ExceptionId, Message(Or(errorMessage, v)), None)
    ensures v != Undefined && v != Null && !v.Str? ==>
              Classify(scope, Other(v), errorMessage).unknown == Some(v)
    ensures v == Null && Truthy(errorMessage) ==>
              Classify(scope, Other(v), errorMessage) == Build(ExceptionId, Message(errorMessage), Some(Null))
    ensures v == Null && !Truthy(errorMessage) ==> Classify(scope, Other(v), errorMessage) == Crash
    ensures v == Undefined ==>
              var p := Classify(scope, Other(v), errorMessage);
              p.Build? && WrappedError(BuiltinKind(p.variant), p.input, host).kind == PlainError &&
              ResolveName("", WrappedError(BuiltinKind(p.variant), p.input, host), BuiltinSource(p.variant)) == "Exception"
  {
    NativeFunctionName(PlainError);
    BuiltinFunctionName(ExceptionId);
  }

  /** Populating an exception's data sets `url` from the page before `handle`
      fills it, so the `url` passed to `handle` never reaches the data of an
      exception it builds while the page has a location. */
  lemma HandleUrlShadowed(d: map<string, Value>, err: NativeError, host: Host, dom: bool, hc: HandleConfig)
    requires host.href != ""
    ensures Get(HandleDefaults(WithDomDump(Populated(d, err, host), dom, host.html), hc), "url") ==
              Or(Get(d, "url"), Str(host.href))
  {
    var m := MergedErrorFields(d, err);
    MergeKeeps(d, err);
    assert Get(m, "url") == Get(d, "url");
  }

  /* ------------------------------------------------------------- exception */

  /** `new Variant(message, config)`'s config object. */
  datatype ExConfig = ExConfig(name: string, inner: Exception?, data: DataBag?, options: Options?)

  function ConfigFrame(cfg: ExConfig): set<object> {
    (if cfg.data != null then {cfg.data} else {}) + (if cfg.options != null then {cfg.options} else {})
  }

  class Exception {
    const variant: nat
    const error: NativeError
    const name: string
    const inner: Exception?
    ghost const depth: nat
    const data: DataBag
    /** `_options` and `_guardedOptions`: the guard restricts the requested
        object in place and returns it, so both are this one object. */
    const options: Options
    const stacktrace: Value
    var screenshotComplete: bool
    var listeners: seq<Listener>
    /** html2canvas renders started for this exception and not yet finished. */
    var pendingRenders: nat

    /** The inner exceptions form a finite chain. */
    ghost predicate Chain()
      decreases depth
    {
      (inner == null ==> depth == 0) &&
      (inner != null ==> inner.depth < depth && inner.Chain())
    }

    function Message(): string {
      error.message
    }

    /** `toString()`. */
    function Describe(): (r: string)
      ensures error.message != "" ==> r == name + " - " + error.message
      ensures error.message == "" ==> r == name
    {
      ExceptionText(name, error.message)
    }

    /** `toSerializableObject()`: mirrors the accessors, nesting the inner
        exception's own serial form, one level per link of the chain. */
    function Serialize(): (s: Serial)
      requires Chain()
      decreases depth
      ensures s.name == name && s.message == error.message && s.stacktrace == stacktrace
      ensures s.data == data && s.error == error
      ensures s.inner.None? <==> inner == null
      ensures Nesting(s) <= depth
    {
      Serial(name, error.message, stacktrace, data, if inner == null then None else Some(inner.Serialize()), error)
    }

    /** The exception `k` links down the chain. */
    function Below(k: nat): (x: Exception)
      requires Chain()
      decreases depth
      ensures k == 0 ==> x == this
    {
      if k == 0 || inner == null then this else inner.Below(k - 1)
    }

    /** Whether `report()` queues the finalizer instead of running it. */
    predicate Queues()
      reads this, options
    {
      !screenshotComplete && Truthy(options.screenshot)
    }

    /** The events of one run of the finalizer against handler `h`. */
    function FinalizeEvents(h: Handler): seq<Event>
      reads options, h`settings
    {
      FinalizeTrace(this, options.Current(), HooksOf(h.settings))
    }

    predicate FinalizeDone(h: Handler)
      reads options, h`settings
    {
      FinalizeCompletes(options.Current(), HooksOf(h.settings))
    }

    /** The state after one `report()` whose pre-state had listeners `l0`,
        ledger `ledger0` and trace `trace0`. */
    ghost predicate Reported(l0: seq<Listener>, ledger0: seq<Entry>, trace0: seq<Event>, h: Handler, now: int)
      reads this, options, h
    {
      if Queues() then
        listeners == l0 + [FinalizeReport] && h.ledger == ledger0 && h.trace == trace0
      else
        listeners == l0 &&
        h.trace == trace0 + FinalizeEvents(h) &&
        h.ledger == ledger0 + (if FinalizeDone(h) then [Ledger.Stamped(now, this)] else [])
    }

    /** Stores the parts that `new Variant(message, config)` prepared
        (see `NewException`); no capture has started yet. */
    constructor (v: nat, err: NativeError, nm: string, inner: Exception?, bag: DataBag, o: Options, st: Value)
      requires inner != null ==> inner.Chain()
      ensures Chain()
      ensures variant == v && error == err && name == nm && this.inner == inner
      ensures data == bag && options == o && stacktrace == st
      ensures listeners == [] && !screenshotComplete && pendingRenders == 0
    {
      variant := v;
      error := err;
      name := nm;
      this.inner := inner;
      depth := if inner == null then 0 else inner.depth + 1;
      data := bag;
      options := o;
      stacktrace := st;
      listeners := [];
      screenshotComplete := false;
      pendingRenders := 0;
    }

    /** The end of the constructor: the screenshot when its guarded flag is
        on, then the DOM dump when its flag is on. */
    method Capture(h: Handler, host: Host)
      modifies this, h, data
      ensures data.entries == WithDomDump(old(data.entries), Truthy(options.domDump), host.html)
      ensures listeners == old(listeners)
      ensures screenshotComplete <==>
                old(screenshotComplete) ||
                (Truthy(options.screenshot) && !old(h.html2canvasLoaded) && old(h.attemptedToLoadHtml2Canvas))
      ensures pendingRenders == old(pendingRenders) + (if Truthy(options.screenshot) && old(h.html2canvasLoaded) then 1 else 0)
      ensures h.scriptRequests == old(h.scriptRequests) +
                (if Truthy(options.screenshot) && !old(h.html2canvasLoaded) && !old(h.attemptedToLoadHtml2Canvas)
                 then [Html2Canvas(this)] else [])
      ensures h.Core() == old(h.Core()) && h.ledger == old(h.ledger) && h.trace == old(h.trace)
    {
      if Truthy(options.screenshot) {
        TakeScreenshot(h);
      }
      if Truthy(options.domDump) {
        data.Put("DOMDump", Str("<html>" + host.html + "</html>"));
      }
    }

    /** `_takeScreenshot`: ask for html2canvas when it is missing and no load
        has completed; give up when a load completed without it; otherwise
        start rendering. */
    method TakeScreenshot(h: Handler)
      modifies this, h
      ensures !old(h.html2canvasLoaded) && !old(h.attemptedToLoadHtml2Canvas) ==>
                h.scriptRequests == old(h.scriptRequests) + [Html2Canvas(this)] &&
                screenshotComplete == old(screenshotComplete) && pendingRenders == old(pendingRenders)
      ensures !old(h.html2canvasLoaded) && old(h.attemptedToLoadHtml2Canvas) ==>
                h.scriptRequests == old(h.scriptRequests) && screenshotComplete && pendingRenders == old(pendingRenders)
      ensures old(h.html2canvasLoaded) ==>
                h.scriptRequests == old(h.scriptRequests) &&
                screenshotComplete == old(screenshotComplete) && pendingRenders == old(pendingRenders) + 1
      ensures listeners == old(listeners)
      ensures h.Core() == old(h.Core()) && h.ledger == old(h.ledger) && h.trace == old(h.trace)
    {
      if !h.html2canvasLoaded && !h.attemptedToLoadHtml2Canvas {
        h.scriptRequests := h.scriptRequests + [Html2Canvas(this)];
      } else if !h.html2canvasLoaded {
        screenshotComplete := true;
      } else {
        pendingRenders := pendingRenders + 1;
      }
    }

    /** The html2canvas script requested for this exception (request `i`)
        finished loading: its callback, which runs once, records the attempt
        and retries the capture. `html2canvas` is defined afterwards only when
        the loaded script `defines` it; then the capture starts rendering.
        Otherwise the capture is marked complete with no render, so the
        finalizers `report()` queued meanwhile stay queued and never run. */
    method OnHtml2CanvasLoaded(h: Handler, i: nat, defines: bool)
      requires i < |h.scriptRequests| && h.scriptRequests[i] == Html2Canvas(this)
      modifies this, h
      ensures h.attemptedToLoadHtml2Canvas
      ensures h.html2canvasLoaded == (old(h.html2canvasLoaded) || defines)
      ensures h.html2canvasLoaded ==>
                pendingRenders == old(pendingRenders) + 1 && screenshotComplete == old(screenshotComplete)
      ensures !h.html2canvasLoaded ==> pendingRenders == old(pendingRenders) && screenshotComplete
      ensures listeners == old(listeners)
      ensures h.Core() == old(h.Core()).(attemptedToLoadHtml2Canvas := true, html2canvasLoaded := h.html2canvasLoaded)
      ensures h.scriptRequests == old(h.scriptRequests[..i] + h.scriptRequests[i + 1..])
      ensures h.ledger == old(h.ledger) && h.trace == old(h.trace)
    {
      h.scriptRequests := h.scriptRequests[..i] + h.scriptRequests[i + 1..];
      h.attemptedToLoadHtml2Canvas := true;
      if defines {
        h.html2canvasLoaded := true;
      }
      TakeScreenshot(h);
    }

    /** The report finalizer: `beforeReport` if set, then `_report`. Each
        sink runs only when its guarded flag is on, in the order post,
        platform, callback; then one ledger entry is appended. A callback
        flag with no callback configured fails before the ledger. */
    method Finalize(h: Handler, now: int)
      modifies h
      ensures h.trace == old(h.trace) + FinalizeEvents(h)
      ensures h.ledger == old(h.ledger) + (if FinalizeDone(h) then [Ledger.Stamped(now, this)] else [])
      ensures h.Core() == old(h.Core()) && h.scriptRequests == old(h.scriptRequests)
    {
      var s := options.Current();
      var k := HooksOf(h.settings);
      ghost var t0 := h.trace;
      h.EmitIf(k.before, BeforeReport(this));
      // a raising hook ends the run before `_report`; `report()` catches it
      if k.before && k.beforeRaises {
        return;
      }
      h.EmitIf(Truthy(s.reportPost), PostSent(this));
      h.EmitIf(Truthy(s.platform), PlatformSent(this));
      // `_reportCallback` calls the configured callback; calling a missing
      // or raising one throws, which ends the run before the ledger entry
      h.EmitIf(Truthy(s.reportCallback) && k.callback, CallbackRun(this));
      ThenAfter(t0, k.before, Truthy(s.reportPost), Truthy(s.platform), Truthy(s.reportCallback) && k.callback, this);
      if Truthy(s.reportCallback) && !(k.callback && !k.callbackRaises) {
        return;
      }
      h.PushReportedException(this, now);
    }

    /** `report()`: queue the finalizer while a screenshot is pending,
        otherwise run it now. */
    method Report(h: Handler, now: int)
      modifies this, h
      ensures Reported(old(listeners), old(h.ledger), old(h.trace), h, now)
      ensures screenshotComplete == old(screenshotComplete) && pendingRenders == old(pendingRenders)
      ensures h.Core() == old(h.Core()) && h.scriptRequests == old(h.scriptRequests)
    {
      if !screenshotComplete && Truthy(options.screenshot) {
        listeners := listeners + [FinalizeReport];
      } else {
        Finalize(h, now);
      }
    }

    /** html2canvas finished rendering `image`: store it, mark the capture
        complete and run every queued finalizer in queue order. A finalizer
        that fails ends the run, so the later ones do not run. */
    method OnRendered(h: Handler, image: string, now: int)
      requires pendingRenders > 0
      modifies this, data, h
      ensures screenshotComplete && pendingRenders == old(pendingRenders) - 1 && listeners == old(listeners)
      ensures data.entries == old(data.entries)["screenshot" := Str(image)]
      ensures FinalizeDone(h) ==>
                h.trace == old(h.trace) + Repeat(FinalizeEvents(h), |listeners|) &&
                h.ledger == old(h.ledger) + Entries(this, now, |listeners|)
      ensures !FinalizeDone(h) ==>
                h.trace == old(h.trace) + (if |listeners| > 0 then FinalizeEvents(h) else []) &&
                h.ledger == old(h.ledger)
      ensures h.Core() == old(h.Core()) && h.scriptRequests == old(h.scriptRequests)
    {
      data.Put("screenshot", Str(image));
      screenshotComplete := true;
      pendingRenders := pendingRenders - 1;
      ghost var events, done := FinalizeEvents(h), FinalizeDone(h);
      var i := 0;
      while i < |listeners|
        invariant 0 <= i <= |listeners|
        invariant done || i == 0
        invariant h.trace == old(h.trace) + Repeat(events, i)
        invariant h.ledger == old(h.ledger) + Entries(this, now, i)
        invariant h.Core() == old(h.Core()) && h.scriptRequests == old(h.scriptRequests)
        invariant screenshotComplete && pendingRenders == old(pendingRenders) - 1 && listeners == old(listeners)
        invariant data.entries == old(data.entries)["screenshot" := Str(image)]
      {
        ghost var trace0, ledger0 := h.trace, h.ledger;
        Finalize(h, now);
        if !FinalizeDone(h) {
          assert Repeat(events, 0) == [] && trace0 == old(h.trace);
          return;
        }
        RepeatStep(old(h.trace), events, i);
        EntriesStep(old(h.ledger), this, now, i);
        i := i + 1;
      }
    }
  }

  /** `e` is what `new Variant(message, config)` made of `input` for
      variant `v` (wrapping `wraps`, declared by `source`, configured with
      the name `cfgName`): its error and name, the requested options as the
      guard with `rules` restricted them, and the data object populated from
      `entries0` with the DOM dump when its flag is on. */
  ghost predicate Built(e: Exception, v: nat, wraps: ErrorKind, source: string, cfgName: string, input: Input,
                        host: Host, rules: seq<Rule>, requested: Snapshot, stamps: seq<int>,
                        res: Guards.Resources, entries0: map<string, Value>)
    reads e, e.options, e.data
  {
    e.variant == v &&
    e.error == WrappedError(wraps, input, host) &&
    e.name == ResolveName(cfgName, e.error, source) &&
    e.options.Current() ==
      Restricted(rules, requested, ExceptionView(e.name, e.error.message, Truthy(e.error.stack)), stamps, host.now, res) &&
    e.data.entries == WithDomDump(Populated(entries0, e.error, host), Truthy(e.options.domDump), host.html)
  }

  /** The options `new Variant(message, config)` asks for: the caller's
      object as it stands, else the copy of the variant's default. */
  function RequestedOptions(reg: Registry, v: nat, cfg: ExConfig): Snapshot
    requires v < |reg.variants|
    reads reg, reg.variants[v].defaults, ConfigFrame(cfg)
  {
    if cfg.options != null then cfg.options.Current()
    else InitialSnapshot(Some(ConfigOf(reg.variants[v].defaults.Current())))
  }

  /** `new Variant(message, config)` for variant `v` of the registry: wrap
      or make the error, resolve the name, take the caller's data object or a
      fresh one, take the caller's options or a copy of the variant's
      default, let the guard restrict them in place, populate the data,
      retrieve the stacktrace, then start the captures. */
  method NewException(h: Handler, reg: Registry, v: nat, input: Input, cfg: ExConfig, host: Host)
    returns (e: Exception)
    requires reg.Valid() && v < |reg.variants|
    requires cfg.inner != null ==> cfg.inner.Chain()
    modifies h, ConfigFrame(cfg)
    ensures fresh(e) && e.Chain()
    ensures e.inner == cfg.inner
    ensures cfg.data != null ==> e.data == cfg.data
    ensures cfg.data == null ==> fresh(e.data)
    ensures cfg.options != null ==> e.options == cfg.options
    ensures cfg.options == null ==> fresh(e.options)
    ensures Built(e, v, reg.variants[v].wraps, reg.variants[v].source, cfg.name, input, host,
                  old(h.guard.restrictions), old(RequestedOptions(reg, v, cfg)), Ledger.Timestamps(old(h.ledger)),
                  old(h.Resources()), if cfg.data != null then old(cfg.data.entries) else map[])
    ensures e.stacktrace == (if Truthy(e.options.stacktrace)
                           then RetrievedStack(e.error, old(h.printStackTraceLoaded), host.printedStack) else Null)
    ensures e.listeners == []
    ensures e.screenshotComplete <==>
              Truthy(e.options.screenshot) && !old(h.html2canvasLoaded) && old(h.attemptedToLoadHtml2Canvas)
    ensures e.pendingRenders == (if Truthy(e.options.screenshot) && old(h.html2canvasLoaded) then 1 else 0)
    ensures h.scriptRequests == old(h.scriptRequests) +
              (if Truthy(e.options.stacktrace) && !Truthy(e.error.stack) && !old(h.printStackTraceLoaded) &&
                  !old(h.attemptedToLoadStacktraceJs) then [StacktraceJs] else []) +
              (if Truthy(e.options.screenshot) && !old(h.html2canvasLoaded) && !old(h.attemptedToLoadHtml2Canvas)
               then [Html2Canvas(e)] else [])
    ensures h.Core() == old(h.Core()) && h.ledger == old(h.ledger) && h.trace == old(h.trace)
  {
    var err, nm, bag, o, st := Prepare(h, reg, v, input, cfg, host);
    e := new Exception(v, err, nm, cfg.inner, bag, o, st);
    e.Capture(h, host);
  }

  /** Everything `new Variant(message, config)` does before the captures. */
  method Prepare(h: Handler, reg: Registry, v: nat, input: Input, cfg: ExConfig, host: Host)
    returns (err: NativeError, nm: string, bag: DataBag, o: Options, st: Value)
    requires reg.Valid() && v < |reg.variants|
    modifies h, ConfigFrame(cfg)
    ensures err == WrappedError(reg.variants[v].wraps, input, host)
    ensures nm == ResolveName(cfg.name, err, reg.variants[v].source)
    ensures cfg.data != null ==> bag == cfg.data
    ensures cfg.data == null ==> fresh(bag)
    ensures cfg.options != null ==> o == cfg.options
    ensures cfg.options == null ==> fresh(o)
    ensures o.Current() ==
              Restricted(old(h.guard.restrictions), old(RequestedOptions(reg, v, cfg)),
                         ExceptionView(nm, err.message, Truthy(err.stack)),
                         Ledger.Timestamps(old(h.ledger)), host.now, old(h.Resources()))
    ensures bag.entries == Populated(if cfg.data != null then old(cfg.data.entries) else map[], err, host)
    ensures st == (if Truthy(o.stacktrace) then RetrievedStack(err, old(h.printStackTraceLoaded), host.printedStack) else Null)
    ensures h.scriptRequests == old(h.scriptRequests) +
              (if Truthy(o.stacktrace) && !Truthy(err.stack) && !old(h.printStackTraceLoaded) &&
                  !old(h.attemptedToLoadStacktraceJs) then [StacktraceJs] else [])
    ensures h.Core() == old(h.Core()) && h.ledger == old(h.ledger) && h.trace == old(h.trace)
  {
    var info := reg.variants[v];
    err := WrappedError(info.wraps, input, host);
    nm := ResolveName(cfg.name, err, info.source);
    bag, o := TakeObjects(reg, v, cfg);
    ghost var entries0 := bag.entries;
    assert entries0 == if cfg.data != null then old(cfg.data.entries) else map[];
    o := h.guard.Restrict(o, ExceptionView(nm, err.message, Truthy(err.stack)),
                          Ledger.Timestamps(h.ledger), host.now, h.Resources());
    assert bag.entries == entries0;
    bag.Populate(err, host);
    st := h.StacktraceIf(Truthy(o.stacktrace), err, host);
  }

  /** The data object and the requested options of `new Variant(message,
      config)`: the caller's own, else an empty object and a copy of the
      variant's default. */
  method TakeObjects(reg: Registry, v: nat, cfg: ExConfig) returns (bag: DataBag, o: Options)
    requires reg.Valid() && v < |reg.variants|
    ensures cfg.data != null ==> bag == cfg.data
    ensures cfg.data == null ==> fresh(bag) && bag.entries == map[]
    ensures cfg.options != null ==> o == cfg.options
    ensures cfg.options == null ==> fresh(o)
    ensures o.Current() == RequestedOptions(reg, v, cfg)
  {
    if cfg.data != null {
      bag := cfg.data;
    } else {
      bag := new DataBag();
    }
    if cfg.options != null {
      o := cfg.options;
    } else {
      o := reg.DefaultOptions(v);
    }
  }

  /** Two `report()` calls while a screenshot is pending queue two
      finalizers; when the render lands both run, so the exception enters
      the ledger twice. */
  method ReportTwiceWhilePending(h: Handler, e: Exception, image: string, now: int)
    requires e.Queues() && e.listeners == [] && e.pendingRenders > 0
    requires FinalizeCompletes(e.options.Current(), HooksOf(h.settings))
    modifies e, e.data, h
    ensures h.ledger == old(h.ledger) + [Ledger.Stamped(now, e), Ledger.Stamped(now, e)]
  {
    e.Report(h, now);
    e.Report(h, now);
    e.OnRendered(h, image, now);
  }

  /* -------------------------------------------------------------- registry */

  /** `throwIf` / `reportIf` outcome: the installed helper ran and perhaps
      created an exception, or the variant had its own helper, which the
      library left in place. */
  datatype StaticCall = Ran(created: Option<Exception>) | OwnHelper

  const TruthyConditionMessage := "Condition evaluated to truthy"
  const UnnamedConstructorMessage := "Your exception constructor must have a name.  See examples on github."

  class Registry {
    var variants: seq<Variant>

    /** Every variant inherits from an earlier one and uses the library's
        `defaultOptions`. */
    ghost predicate Valid()
      reads this
    {
      forall i :: 0 <= i < |variants| ==>
        DefaultOptionsStatic in variants[i].installed &&
        (variants[i].base.Some? ==> variants[i].base.value < i)
    }

    /** The ten built-in variants head the registry. */
    ghost predicate HasBuiltins()
      reads this
    {
      |variants| >= 10 &&
      forall i :: 0 <= i < 10 ==>
        variants[i].source == BuiltinSource(i) && variants[i].wraps == BuiltinKind(i) &&
        variants[i].installed == AllStatics
    }

    /** The first `n` variants are the built-ins, each defaulting to every
        flag on. */
    ghost predicate BuiltinsUpTo(n: nat)
      reads this, set i | 0 <= i < |variants| :: variants[i].defaults
    {
      Valid() && |variants| == n && n <= 10 &&
      forall i :: 0 <= i < n ==>
        variants[i].source == BuiltinSource(i) && variants[i].wraps == BuiltinKind(i) &&
        variants[i].installed == AllStatics &&
        variants[i].base == (if i == 0 then None else Some(ExceptionId)) &&
        variants[i].defaults.Current() == Uniform(Bool(true))
    }

    /** `Exception` with `new Options()` as its default, then the nine
        built-in variants of `Exception`, each with a copy of its default. */
    constructor ()
      ensures Valid() && HasBuiltins() && |variants| == 10
      ensures forall i :: 0 <= i < 10 ==>
                variants[i].defaults.Current() == Uniform(Bool(true)) &&
                variants[i].installed == AllStatics &&
                variants[i].base == (if i == 0 then None else Some(ExceptionId))
    {
      variants := [];
      new;
      var d := new Options(None);
      variants := [Variant(BuiltinSource(0), None, PlainError, AllStatics, d)];
      RegisterBuiltin(1);
      RegisterBuiltin(2);
      RegisterBuiltin(3);
      RegisterBuiltin(4);
      RegisterBuiltin(5);
      RegisterBuiltin(6);
      RegisterBuiltin(7);
      RegisterBuiltin(8);
      RegisterBuiltin(9);
    }

    /** One `createCustomException` call of the built-ins: variant `i` of
        `Exception`, with the copy of `Exception`'s default. */
    method RegisterBuiltin(i: nat)
      requires 1 <= i < 10 && BuiltinsUpTo(i)
      modifies this
      ensures BuiltinsUpTo(i + 1)
    {
      CopyKeepsDefinedFlags(Uniform(Bool(true)));
      var id := Register(BuiltinSource(i), ExceptionId, BuiltinKind(i), null, {});
    }

    /** The `defaultOptions()` getter: a fresh object with the stored flags. */
    method DefaultOptions(v: nat) returns (o: Options)
      requires Valid() && v < |variants|
      ensures fresh(o)
      ensures o.Current() == InitialSnapshot(Some(ConfigOf(variants[v].defaults.Current())))
    {
      o := variants[v].defaults.Copy();
    }

    /** The `defaultOptions(options)` setter: stores the object itself. */
    method SetDefaultOptions(v: nat, o: Options)
      requires v < |variants|
      modifies this
      ensures variants == old(variants)[v := old(variants)[v].(defaults := o)]
    {
      variants := variants[v := variants[v].(defaults := o)];
    }

    /** The registering part of `createCustomException`: install the statics
        the constructor lacks, inherit from `base`, and store the explicit
        default or a copy of the base's. */
    method Register(source: string, base: nat, wraps: ErrorKind, explicit: Options?, own: set<Static>)
      returns (id: nat)
      requires Valid() && base < |variants|
      requires DefaultOptionsStatic !in own
      modifies this
      ensures Valid()
      ensures id == |old(variants)| && |variants| == id + 1 && variants[..id] == old(variants)
      ensures variants[id].source == source && variants[id].base == Some(base) && variants[id].wraps == wraps
      ensures variants[id].installed == AllStatics - own
      ensures explicit != null ==> variants[id].defaults == explicit
      ensures explicit == null ==> fresh(variants[id].defaults)
      ensures explicit == null ==>
                variants[id].defaults.Current() ==
                  InitialSnapshot(Some(ConfigOf(InitialSnapshot(Some(ConfigOf(old(variants[base].defaults.Current())))))))
    {
      var d: Options;
      if explicit != null {
        d := explicit;
      } else {
        var fromBase := DefaultOptions(base);
        d := new Options(Some(ConfigOf(fromBase.Current())));
      }
      id := |variants|;
      variants := variants + [Variant(source, Some(base), wraps, AllStatics - own, d)];
    }

    /** `createCustomException(config)`: once `ArgumentException` exists, a
        constructor without a name is refused by raising an
        `ArgumentException` (built against `h`); otherwise the variant is
        registered. */
    method CreateCustomException(h: Handler, source: string, base: nat, wraps: ErrorKind, explicit: Options?,
                                 own: set<Static>, host: Host)
      returns (r: Result<nat, Exception>)
      requires Valid() && HasBuiltins() && base < |variants|
      requires DefaultOptionsStatic !in own
      modifies this, h
      ensures Valid() && HasBuiltins()
      ensures r.Failure? <==> Utilities.FunctionName(source) == ""
      ensures r.Failure? ==> variants == old(variants) && fresh(r.error) && r.error.variant == ArgumentId &&
                             r.error.error.message == UnnamedConstructorMessage
      ensures r.Success? ==> r.value == |old(variants)| && |variants| == r.value + 1 &&
                             variants[..r.value] == old(variants) && variants[r.value].source == source &&
                             variants[r.value].installed == AllStatics - own
      ensures r.Success? ==> h.Core() == old(h.Core()) && h.scriptRequests == old(h.scriptRequests)
      ensures h.ledger == old(h.ledger) && h.trace == old(h.trace)
    {
      var c := ThrowIf(h, this, ArgumentId, Bool(Utilities.FunctionName(source) == ""),
                       Str(UnnamedConstructorMessage), host);
      if c.Ran? && c.created.Some? {
        assert Or(Str(UnnamedConstructorMessage), Str(TruthyConditionMessage)) == Str(UnnamedConstructorMessage);
        return Failure(c.created.value);
      }
      var id := Register(source, base, wraps, explicit, own);
      r := Success(id);
    }
  }

  /** `Variant.throwIf(condition, message)`. */
  method ThrowIf(h: Handler, reg: Registry, v: nat, condition: Value, message: Value, host: Host)
    returns (c: StaticCall)
    requires reg.Valid() && v < |reg.variants|
    modifies h
    ensures ThrowIfStatic !in reg.variants[v].installed ==>
              c == OwnHelper && h.Core() == old(h.Core()) && h.scriptRequests == old(h.scriptRequests)
    ensures ThrowIfStatic in reg.variants[v].installed ==> c.Ran? && (c.created.Some? <==> Truthy(condition))
    ensures c.Ran? && c.created.Some? ==>
              var e := c.created.value;
              fresh(e) && e.variant == v && e.listeners == [] &&
              e.error == WrappedError(reg.variants[v].wraps, Message(Or(message, Str(TruthyConditionMessage))), host)
    ensures !(c.Ran? && c.created.Some?) ==> h.Core() == old(h.Core()) && h.scriptRequests == old(h.scriptRequests)
    ensures h.Core() == old(h.Core()) && h.ledger == old(h.ledger) && h.trace == old(h.trace)
  {
    if ThrowIfStatic !in reg.variants[v].installed {
      return OwnHelper;
    }
    if !Truthy(condition) {
      return Ran(None);
    }
    var e := NewException(h, reg, v, Message(Or(message, Str(TruthyConditionMessage))), ExConfig("", null, null, null), host);
    c := Ran(Some(e));
  }

  /** `Variant.reportIf(condition, message)`: builds the exception as
      `throwIf` does and reports it. */
  method ReportIf(h: Handler, reg: Registry, v: nat, condition: Value, message: Value, host: Host)
    returns (c: StaticCall)
    requires reg.Valid() && v < |reg.variants|
    modifies h
    ensures ReportIfStatic !in reg.variants[v].installed ==> c == OwnHelper && h.ledger == old(h.ledger)
    ensures ReportIfStatic in reg.variants[v].installed ==> c.Ran? && (c.created.Some? <==> Truthy(condition))
    ensures c.Ran? && c.created.None? ==> h.ledger == old(h.ledger) && h.trace == old(h.trace)
    ensures c.Ran? && c.created.Some? ==>
              var e := c.created.value;
              fresh(e) && e.variant == v &&
              e.error == WrappedError(reg.variants[v].wraps, Message(Or(message, Str(TruthyConditionMessage))), host) &&
              e.Reported([], old(h.ledger), old(h.trace), h, host.now)
  {
    if ReportIfStatic !in reg.variants[v].installed {
      return OwnHelper;
    }
    if !Truthy(condition) {
      return Ran(None);
    }
    var e := NewException(h, reg, v, Message(Or(message, Str(TruthyConditionMessage))), ExConfig("", null, null, null), host);
    e.Report(h, host.now);
    c := Ran(Some(e));
  }
}

=== FILE: guard.dfy ===
/**
 * `Guard` (exceptions.js): an ordered list of restriction rules, run in
 * registration order on an exception's options object, followed by a fixed
 * availability rule that turns off every capability whose resource is not
 * configured.
 */
module Guards {
  import opened Js
  import opened OptionsModel
  import Ledger

  /** What a rule can see of the exception under construction. */
  datatype ExceptionView = ExceptionView(name: string, message: string, errorHasStack: bool)

  /** The handler's configuration as the availability rule tests it
      (each field is the truthiness of the corresponding setting). */
  datatype Resources = Resources(
    stacktraceUrl: bool,
    html2canvasUrl: bool,
    computedStyle: bool,   // `window.getComputedStyle` exists
    reportPostUrl: bool,
    reportCallback: bool,
    clientId: bool)

  /** A registered rule. `Burst` is the rule `protectAgainstBurst` builds;
      `Custom` is any function given to `protectAgainst`, described by what
      it does to the options object it receives. A rule's return value is
      discarded by `_restrict`, so it has no place here. */
  datatype Rule =
    | Burst(count: int, seconds: Option<int>, effect: Option<Snapshot -> Snapshot>)
    | Custom(update: (Snapshot, ExceptionView) -> Snapshot)

  /** The options after one rule ran, given the log's timestamps at `now`.
      Without an effect the burst rule only assigns a function to its local
      variable, so the options are left as they are. */
  function ApplyRule(rule: Rule, s: Snapshot, e: ExceptionView, stamps: seq<int>, now: int): Snapshot {
    match rule
    case Burst(count, seconds, effect) =>
      if Ledger.WindowCount(stamps, now, seconds) > count && effect.Some? then effect.value(s) else s
    case Custom(update) => update(s, e)
  }

  /** The options after every rule ran, in registration order. */
  function ApplyRules(rules: seq<Rule>, s: Snapshot, e: ExceptionView, stamps: seq<int>, now: int): Snapshot
    decreases |rules|
  {
    if rules == [] then s
    else ApplyRule(rules[|rules| - 1], ApplyRules(rules[..|rules| - 1], s, e, stamps, now), e, stamps, now)
  }

  /** `_protectAgainstUnavailableOptions`: the availability rule. */
  function Availability(s: Snapshot, e: ExceptionView, res: Resources): (r: Snapshot)
    ensures forall f :: r.Get(f) == s.Get(f) || r.Get(f) == Bool(false)
    ensures r.Get(DOMDump) == s.Get(DOMDump)
  {
    var s1 := if !e.errorHasStack && !res.stacktraceUrl then s.With(Stacktrace, Bool(false)) else s;
    var s2 := if !res.html2canvasUrl || !res.computedStyle then s1.With(Screenshot, Bool(false)) else s1;
    var s3 := if !res.reportPostUrl then s2.With(ReportPost, Bool(false)) else s2;
    var s4 := if !res.reportCallback then s3.With(ReportCallback, Bool(false)) else s3;
    if !res.clientId then s4.With(Platform, Bool(false)) else s4
  }

  /** `_restrict`: the rules, then the availability rule. */
  function Restricted(rules: seq<Rule>, s: Snapshot, e: ExceptionView, stamps: seq<int>, now: int, res: Resources): Snapshot {
    Availability(ApplyRules(rules, s, e, stamps, now), e, res)
  }

  /** Whether the resource behind each flag is there. */
  predicate Provided(f: Flag, e: ExceptionView, res: Resources) {
    match f
    case Stacktrace => e.errorHasStack || res.stacktraceUrl
    case Screenshot => res.html2canvasUrl && res.computedStyle
    case ReportPost => res.reportPostUrl
    case ReportCallback => res.reportCallback
    case Platform => res.clientId
    case DOMDump => true
  }

  /** The availability rule clears exactly the flags whose resource is
      missing and keeps every other flag as it was. */
  lemma AvailabilityClearsExactlyUnprovided(s: Snapshot, e: ExceptionView, res: Resources)
    ensures forall f :: !Provided(f, e, res) ==> Availability(s, e, res).Get(f) == Bool(false)
    ensures forall f :: Provided(f, e, res) ==> Availability(s, e, res).Get(f) == s.Get(f)
  {
    var r := Availability(s, e, res);
    forall f
      ensures !Provided(f, e, res) ==> r.Get(f) == Bool(false)
      ensures Provided(f, e, res) ==> r.Get(f) == s.Get(f)
    {
      match f
      case Stacktrace =>
      case Screenshot =>
      case ReportPost =>
      case ReportCallback =>
      case Platform =>
      case DOMDump =>
    }
  }

  /** Whatever the rules did, a capability whose resource is missing ends up
      off, and the availability rule turns nothing on. */
  lemma {:induction false} RestrictRespectsAvailability(rules: seq<Rule>, s: Snapshot, e: ExceptionView,
                                                       stamps: seq<int>, now: int, res: Resources)
    ensures forall f :: !Provided(f, e, res) ==> !Truthy(Restricted(rules, s, e, stamps, now, res).Get(f))
    ensures Restricted(rules, s, e, stamps, now, res).Within(ApplyRules(rules, s, e, stamps, now))
  {
    AvailabilityClearsExactlyUnprovided(ApplyRules(rules, s, e, stamps, now), e, res);
  }

  /** A custom rule may turn flags on, so the guarded options need not lie
      within the requested ones: a rule that enables everything, on a
      request that asks for nothing, with every resource configured. */
  lemma EnablingRuleEscapesRequest()
    ensures var e := ExceptionView("Exception", "foo", true);
            var all := Resources(true, true, true, true, true, true);
            var rules := [Custom((s: Snapshot, v: ExceptionView) => Uniform(Bool(true)))];
            !Restricted(rules, Uniform(Bool(false)), e, [], 0, all).Within(Uniform(Bool(false)))
  {
    var e := ExceptionView("Exception", "foo", true);
    var all := Resources(true, true, true, true, true, true);
    var rules := [Custom((s: Snapshot, v: ExceptionView) => Uniform(Bool(true)))];
    assert rules[..0] == [];
    var r := Restricted(rules, Uniform(Bool(false)), e, [], 0, all);
    assert r.Get(Stacktrace) == Bool(true);
  }

  /** The burst rule applies its effect exactly when the count exceeds its
      limit, and never changes the options when it has no effect. */
  lemma BurstRule(count: int, seconds: Option<int>, effect: Option<Snapshot -> Snapshot>,
                  s: Snapshot, e: ExceptionView, stamps: seq<int>, now: int)
    ensures effect.None? ==> ApplyRule(Burst(count, seconds, effect), s, e, stamps, now) == s
    ensures effect.Some? && Ledger.WindowCount(stamps, now, seconds) > count ==>
              ApplyRule(Burst(count, seconds, effect), s, e, stamps, now) == effect.value(s)
    ensures Ledger.WindowCount(stamps, now, seconds) <= count ==>
              ApplyRule(Burst(count, seconds, effect), s, e, stamps, now) == s
  {
  }

  /** The rules `_setupDefaultGuard` registers: at most 10 reports in 10
      seconds, at most 20 in all, both without an effect. */
  function DefaultRules(): seq<Rule> {
    [Burst(10, Some(10), None), Burst(20, None, None)]
  }

  /** Since its burst rules carry no effect, the default guard only ever
      applies the availability rule, however many reports were made. */
  lemma DefaultGuardIsAvailabilityOnly(s: Snapshot, e: ExceptionView, stamps: seq<int>, now: int, res: Resources)
    ensures Restricted(DefaultRules(), s, e, stamps, now, res) == Availability(s, e, res)
  {
    var rules := DefaultRules();
    assert rules[..1] == [rules[0]] && rules[..1][..0] == [];
    assert ApplyRules(rules[..1], s, e, stamps, now) == s;
  }

  /** The total effect of burst rules that all lack an effect is nothing. */
  lemma {:induction false} EffectlessRulesChangeNothing(rules: seq<Rule>, s: Snapshot, e: ExceptionView,
                                                       stamps: seq<int>, now: int)
    requires forall i :: 0 <= i < |rules| ==> rules[i].Burst? && rules[i].effect.None?
    ensures ApplyRules(rules, s, e, stamps, now) == s
  {
    if rules != [] {
      EffectlessRulesChangeNothing(rules[..|rules| - 1], s, e, stamps, now);
    }
  }

  class Guard {
    var restrictions: seq<Rule>

    /** `new Guard()`: no rules yet. */
    constructor ()
      ensures restrictions == []
    {
      restrictions := [];
    }

    /** `protectAgainstBurst({count, seconds, optionsFunc})`. A missing, zero
        or negative count raises an `ArgumentException` (`ok` false) and
        registers nothing; otherwise one burst rule is appended. */
    method ProtectAgainstBurst(count: Option<int>, seconds: Option<int>, effect: Option<Snapshot -> Snapshot>)
      returns (ok: bool)
      modifies this
      ensures ok <==> count.Some? && count.value > 0
      ensures ok ==> restrictions == old(restrictions) + [Burst(count.value, seconds, effect)]
      ensures !ok ==> restrictions == old(restrictions)
    {
      if count.None? || count.value == 0 || count.value < 0 {
        return false;
      }
      restrictions := restrictions + [Burst(count.value, seconds, effect)];
      ok := true;
    }

    /** `protectAgainst(fn)`: append an arbitrary rule. */
    method ProtectAgainst(update: (Snapshot, ExceptionView) -> Snapshot)
      modifies this
      ensures restrictions == old(restrictions) + [Custom(update)]
    {
      restrictions := restrictions + [Custom(update)];
    }

    /** `_restrict(o, exception)`: runs every rule in order on `o` itself,
        then the availability rule, and returns the very object it was given. */
    method Restrict(o: Options, e: ExceptionView, stamps: seq<int>, now: int, res: Resources)
      returns (r: Options)
      modifies o
      ensures r == o
      ensures o.Current() == Restricted(restrictions, old(o.Current()), e, stamps, now, res)
    {
      ghost var s0 := o.Current();
      var i := 0;
      while i < |restrictions|
        invariant 0 <= i <= |restrictions|
        invariant o.Current() == ApplyRules(restrictions[..i], s0, e, stamps, now)
      {
        assert restrictions[..i + 1][..i] == restrictions[..i];
        match restrictions[i] {
          case Burst(count, seconds, effect) =>
            var n := Ledger.CountReported(stamps, now, seconds);
            if n > count && effect.Some? {
              o.Assign(effect.value(o.Current()));
            }
          case Custom(update) =>
            o.Assign(update(o.Current(), e));
        }
        i := i + 1;
      }
      assert restrictions[..i] == restrictions;
      var a: Accessed;
      if !e.errorHasStack && !res.stacktraceUrl {
        a := o.Access(Stacktrace, Bool(false));
      }
      if !res.html2canvasUrl || !res.computedStyle {
        a := o.Access(Screenshot, Bool(false));
      }
      if !res.reportPostUrl {
        a := o.Access(ReportPost, Bool(false));
      }
      if !res.reportCallback {
        a := o.Access(ReportCallback, Bool(false));
      }
      if !res.clientId {
        a := o.Access(Platform, Bool(false));
      }
      r := o;
    }
  }

  /** `_setupDefaultGuard`'s guard. */
  method NewDefaultGuard() returns (g: Guard)
    ensures fresh(g)
    ensures g.restrictions == DefaultRules()
  {
    g := new Guard();
    var ok := g.ProtectAgainstBurst(Some(10), Some(10), None);
    ok := g.ProtectAgainstBurst(Some(20), None, None);
  }
}

=== FILE: js.dfy ===
/**
 * The slice of JavaScript's value semantics that both error reporters rely on:
 * truthiness (the `||`, `!` and `if` tests), string conversion (`String(v)`,
 * `new Error(v)`), and `encodeURIComponent`.
 */
module Js {

  datatype Option<+T> = None | Some(value: T)

  /** The outcome of an operation that may raise an error instead. */
  datatype Result<+T, +E> = Success(value: T) | Failure(error: E)

  /** A JavaScript value as the reporters store and compare it. Numbers are
      integers here: NaN, infinities and fractions are not modelled. `Obj` is
      any other object, identified by reference only: its properties are not
      modelled, so it converts to `"[object Object]"`. `Arr` is an array of
      strings (the only array the reporters store on an error object). */
  datatype Value =
    | Undefined
    | Null
    | Bool(b: bool)
    | Num(n: int)
    | Str(s: string)
    | Arr(items: seq<string>)
    | Obj(ref: nat)

  /** ECMAScript ToBoolean: `undefined`, `null`, `false`, `0` and `""` are falsy. */
  predicate Truthy(v: Value) {
    match v
    case Undefined => false
    case Null => false
    case Bool(b) => b
    case Num(n) => n != 0
    case Str(s) => s != ""
    case Arr(_) => true
    case Obj(_) => true
  }

  /** `Boolean(v)` as a value. */
  function ToBool(v: Value): (r: Value)
    ensures r.Bool? && (r.b <==> Truthy(v))
  {
    Bool(Truthy(v))
  }

  /** `a || b` on values. */
  function Or(a: Value, b: Value): (r: Value)
    ensures Truthy(a) ==> r == a
    ensures !Truthy(a) ==> r == b
  {
    if Truthy(a) then a else b
  }

  function DigitChar(d: nat): (c: char)
    requires d < 10
    ensures '0' <= c <= '9'
  {
    "0123456789"[d]
  }

  /** Decimal digits of a natural number, most significant first. */
  function NatToString(n: nat): (s: string)
    ensures |s| > 0
    ensures forall i :: 0 <= i < |s| ==> '0' <= s[i] <= '9'
    decreases n
  {
    if n < 10 then [DigitChar(n)] else NatToString(n / 10) + [DigitChar(n % 10)]
  }

  function Join(parts: seq<string>, sep: string): (r: string)
    ensures parts == [] ==> r == ""
    ensures |parts| == 1 ==> r == parts[0]
  {
    if parts == [] then ""
    else if |parts| == 1 then parts[0]
    else parts[0] + sep + Join(parts[1..], sep)
  }

  /** ECMAScript ToString, with the default `toString` for plain objects. */
  function ToString(v: Value): string {
    match v
    case Undefined => "undefined"
    case Null => "null"
    case Bool(b) => if b then "true" else "false"
    case Num(n) => if n < 0 then "-" + NatToString(-n) else NatToString(n)
    case Str(s) => s
    case Arr(items) => Join(items, ",")
    case Obj(_) => "[object Object]"
  }

  /** The characters `encodeURIComponent` leaves as they are
      (section 15.1.3.4 of ECMA-262, 5.1 edition). */
  predicate Unescaped(c: char) {
    ('A' <= c <= 'Z') || ('a' <= c <= 'z') || ('0' <= c <= '9') ||
    c in "-_.!~*'()"
  }

  predicate IsHexDigit(c: char) {
    ('0' <= c <= '9') || ('A' <= c <= 'F')
  }

  function HexDigit(d: nat): (c: char)
    requires d < 16
    ensures IsHexDigit(c)
  {
    "0123456789ABCDEF"[d]
  }

  /** The UTF-8 encoding of one code point. */
  function Utf8(cp: nat): (bytes: seq<nat>)
    requires cp < 0x110000
    ensures 1 <= |bytes| <= 4
    ensures forall i :: 0 <= i < |bytes| ==> bytes[i] < 256
  {
    if cp < 0x80 then [cp]
    else if cp < 0x800 then [0xC0 + cp / 0x40, 0x80 + cp % 0x40]
    else if cp < 0x10000 then
      [0xE0 + cp / 0x1000, 0x80 + (cp / 0x40) % 0x40, 0x80 + cp % 0x40]
    else
      [0xF0 + cp / 0x40000, 0x80 + (cp / 0x1000) % 0x40,
       0x80 + (cp / 0x40) % 0x40, 0x80 + cp % 0x40]
  }

  /** Every character of an encoded string is unescaped, `%`, or a hex digit. */
  predicate EncodedChars(s: string) {
    forall i :: 0 <= i < |s| ==> Unescaped(s[i]) || s[i] == '%' || IsHexDigit(s[i])
  }

  function PercentBytes(bytes: seq<nat>): (r: string)
    requires forall i :: 0 <= i < |bytes| ==> bytes[i] < 256
    ensures |r| == 3 * |bytes|
    ensures EncodedChars(r)
  {
    if bytes == [] then ""
    else ['%', HexDigit(bytes[0] / 16), HexDigit(bytes[0] % 16)] + PercentBytes(bytes[1..])
  }

  function EncodeChar(c: char): (r: string)
    ensures Unescaped(c) ==> r == [c]
    ensures !Unescaped(c) ==> |r| >= 3 && r[0] == '%'
    ensures EncodedChars(r)
  {
    if Unescaped(c) then [c] else PercentBytes(Utf8(c as nat))
  }

  /** `encodeURIComponent(s)`. */
  function EncodeURIComponent(s: string): (r: string)
    ensures |r| >= |s|
  {
    if s == [] then "" else EncodeChar(s[0]) + EncodeURIComponent(s[1..])
  }

  /** The output of `encodeURIComponent` holds only unescaped characters,
      `%` and hex digits, so never the separators of a query string. */
  lemma {:induction false} EncodedShape(s: string)
    ensures EncodedChars(EncodeURIComponent(s))
    ensures '&' !in EncodeURIComponent(s) && '=' !in EncodeURIComponent(s)
    decreases |s|
  {
    if s != [] {
      EncodedShape(s[1..]);
      EncodedConcat(EncodeChar(s[0]), EncodeURIComponent(s[1..]));
    }
    EncodedHasNoSeparators(EncodeURIComponent(s));
  }

  lemma EncodedConcat(a: string, b: string)
    requires EncodedChars(a) && EncodedChars(b)
    ensures EncodedChars(a + b)
  {
    forall i | 0 <= i < |a + b|
      ensures Unescaped((a + b)[i]) || (a + b)[i] == '%' || IsHexDigit((a + b)[i])
    {
      if i < |a| {
        assert (a + b)[i] == a[i];
      } else {
        assert (a + b)[i] == b[i - |a|];
      }
    }
  }

  lemma EncodedHasNoSeparators(s: string)
    requires EncodedChars(s)
    ensures '&' !in s && '=' !in s
  {
    assert !Unescaped('&') && !Unescaped('=');
  }
}

=== FILE: ledger.dfy ===
/**
 * The windowed count that both reporters run over their log of reports
 * (`handler.retrieveReportedExceptionsCount` in exceptions.js and
 * `countNumErrorsWithin` in errorHandler.js). Both scan the timestamps from
 * the newest entry backwards, stop at the first entry NEWER than the
 * threshold, and return its index plus one.
 */
module Ledger {
  import opened Js

  /** One entry of a reporter's log: when it was made, in milliseconds, and
      what was logged. */
  datatype Stamped<T> = Stamped(timestamp: int, item: T)

  /** The timestamps of a log, in log order. */
  function Timestamps<T>(log: seq<Stamped<T>>): (stamps: seq<int>)
    ensures |stamps| == |log|
    ensures forall i :: 0 <= i < |log| ==> stamps[i] == log[i].timestamp
  {
    seq(|log|, i requires 0 <= i < |log| => log[i].timestamp)
  }

  /** `now - seconds * 1000`, in milliseconds. */
  function Threshold(now: int, seconds: int): int {
    now - seconds * 1000
  }

  /** One plus the highest index whose timestamp is after `threshold`, or 0
      when no timestamp is. */
  function NewestAbove(stamps: seq<int>, threshold: int): (n: nat)
    ensures n <= |stamps|
    ensures n > 0 ==> stamps[n - 1] > threshold
    ensures forall j :: n <= j < |stamps| ==> stamps[j] <= threshold
  {
    if stamps == [] then 0
    else if stamps[|stamps| - 1] > threshold then |stamps|
    else NewestAbove(stamps[..|stamps| - 1], threshold)
  }

  /** The count both reporters return: the whole log without a window, else
      `NewestAbove` of the threshold. */
  function WindowCount(stamps: seq<int>, now: int, seconds: Option<int>): (n: nat)
    ensures n <= |stamps|
    ensures seconds.None? ==> n == |stamps|
  {
    match seconds
    case None => |stamps|
    case Some(s) => NewestAbove(stamps, Threshold(now, s))
  }

  /** The number of timestamps after `threshold`: what the documentation of
      both functions promises. */
  function CountAbove(stamps: seq<int>, threshold: int): (n: nat)
    ensures n <= |stamps|
  {
    if stamps == [] then 0
    else CountAbove(stamps[..|stamps| - 1], threshold) + (if stamps[|stamps| - 1] > threshold then 1 else 0)
  }

  predicate TimeOrdered(stamps: seq<int>) {
    forall i, j :: 0 <= i < j < |stamps| ==> stamps[i] <= stamps[j]
  }

  /** `NewestAbove` is the unique index with its two defining properties. */
  lemma NewestAboveUnique(stamps: seq<int>, threshold: int, n: nat)
    requires n <= |stamps|
    requires n > 0 ==> stamps[n - 1] > threshold
    requires forall j :: n <= j < |stamps| ==> stamps[j] <= threshold
    ensures n == NewestAbove(stamps, threshold)
  {
    var m := NewestAbove(stamps, threshold);
    assert m > 0 ==> stamps[m - 1] > threshold;
  }

  /** On a log kept in time order the scan stops at the newest entry, so the
      count is the whole log or nothing: it is not a windowed count. */
  lemma TimeOrderedAllOrNothing(stamps: seq<int>, threshold: int)
    requires TimeOrdered(stamps)
    ensures NewestAbove(stamps, threshold) == |stamps| || NewestAbove(stamps, threshold) == 0
  {
    var n := NewestAbove(stamps, threshold);
    assert n > 0 ==> stamps[n - 1] <= stamps[|stamps| - 1];
  }

  /** The returned count never falls below the number of newer entries. */
  lemma {:induction false} CountAboveAtMostNewest(stamps: seq<int>, threshold: int)
    ensures CountAbove(stamps, threshold) <= NewestAbove(stamps, threshold)
  {
    if stamps != [] && stamps[|stamps| - 1] <= threshold {
      CountAboveAtMostNewest(stamps[..|stamps| - 1], threshold);
    }
  }

  /** When every entry is newer than the threshold the two counts agree. */
  lemma {:induction false} AllAboveCountsAgree(stamps: seq<int>, threshold: int)
    requires forall i :: 0 <= i < |stamps| ==> stamps[i] > threshold
    ensures CountAbove(stamps, threshold) == NewestAbove(stamps, threshold) == |stamps|
  {
    if stamps != [] {
      AllAboveCountsAgree(stamps[..|stamps| - 1], threshold);
    }
  }

  /** Two reports, one old and one fresh, in a one-second window: the scan
      returns 2 where one report lies in the window. */
  lemma OldAndFreshReport()
    ensures WindowCount([0, 5000], 5000, Some(1)) == 2
    ensures CountAbove([0, 5000], Threshold(5000, 1)) == 1
  {
    assert [0, 5000][..1] == [0];
    assert [0] [..0] == [];
  }

  /** The backward scan itself. Without a window it returns the log's length. */
  method CountReported(stamps: seq<int>, now: int, seconds: Option<int>) returns (n: nat)
    ensures n == WindowCount(stamps, now, seconds)
  {
    if seconds.None? {
      return |stamps|;
    }
    var threshold := Threshold(now, seconds.value);
    var i := |stamps| - 1;
    while i >= 0
      invariant -1 <= i < |stamps|
      invariant forall j :: i < j < |stamps| ==> stamps[j] <= threshold
    {
      if stamps[i] > threshold {
        break;
      }
      i := i - 1;
    }
    n := i + 1;
    NewestAboveUnique(stamps, threshold, n);
  }
}

=== FILE: options.dfy ===
/**
 * `Options` (exceptions.js): six capability flags of one exception, with
 * chaining get/set accessors and `toggleAll`.
 */
module OptionsModel {
  import opened Js

  /** The six flags, in the order `toggleAll` sets them. */
  datatype Flag = Stacktrace | Screenshot | ReportPost | ReportCallback | Platform | DOMDump

  /** The stored value of every flag at one moment. */
  datatype Snapshot = Snapshot(
    stacktrace: Value,
    screenshot: Value,
    reportPost: Value,
    reportCallback: Value,
    platform: Value,
    domDump: Value)
  {
    function Get(f: Flag): Value {
      match f
      case Stacktrace => stacktrace
      case Screenshot => screenshot
      case ReportPost => reportPost
      case ReportCallback => reportCallback
      case Platform => platform
      case DOMDump => domDump
    }

    /** The snapshot after the setter of `f` stored `v`. */
    function With(f: Flag, v: Value): (r: Snapshot)
      ensures r.Get(f) == v
      ensures forall g :: g != f ==> r.Get(g) == Get(g)
    {
      match f
      case Stacktrace => this.(stacktrace := v)
      case Screenshot => this.(screenshot := v)
      case ReportPost => this.(reportPost := v)
      case ReportCallback => this.(reportCallback := v)
      case Platform => this.(platform := v)
      case DOMDump => this.(domDump := v)
    }

    /** Flag-wise: every flag enabled here is enabled in `other`. */
    predicate Within(other: Snapshot) {
      forall f :: Truthy(Get(f)) ==> Truthy(other.Get(f))
    }
  }

  /** Every flag holds `v`. */
  function Uniform(v: Value): (s: Snapshot)
    ensures forall f :: s.Get(f) == v
  {
    Snapshot(v, v, v, v, v, v)
  }

  /** The config object handed to `new Options(config)`; a key the object does
      not supply is `Undefined`. */
  datatype Config = Config(
    stacktrace: Value,
    screenshot: Value,
    reportPost: Value,
    reportCallback: Value,
    reportToExceptionsJsPlatform: Value,
    DOMDump: Value)
  {
    function Get(f: Flag): Value {
      match f
      case Stacktrace => stacktrace
      case Screenshot => screenshot
      case ReportPost => reportPost
      case ReportCallback => reportCallback
      case Platform => reportToExceptionsJsPlatform
      case DOMDump => DOMDump
    }
  }

  /** The config a snapshot is copied through (`new Options({stacktrace: o.stacktrace(), ...})`). */
  function ConfigOf(s: Snapshot): (c: Config)
    ensures forall f :: c.Get(f) == s.Get(f)
  {
    Config(s.stacktrace, s.screenshot, s.reportPost, s.reportCallback, s.platform, s.domDump)
  }

  /** What the constructor stores for one flag: the supplied value, else `true`.
      A supplied value is stored as given, without `Boolean(...)`. */
  function Initial(config: Option<Config>, f: Flag): (v: Value)
    ensures config.None? ==> v == Bool(true)
    ensures config.Some? && config.value.Get(f) != Undefined ==> v == config.value.Get(f)
    ensures config.Some? && config.value.Get(f) == Undefined ==> v == Bool(true)
  {
    if config.Some? && config.value.Get(f) != Undefined then config.value.Get(f) else Bool(true)
  }

  function InitialSnapshot(config: Option<Config>): (s: Snapshot)
    ensures forall f :: s.Get(f) == Initial(config, f)
  {
    Snapshot(Initial(config, Stacktrace), Initial(config, Screenshot), Initial(config, ReportPost),
             Initial(config, ReportCallback), Initial(config, Platform), Initial(config, DOMDump))
  }

  /** Copying a snapshot through a config keeps every defined value, and
      turns only an undefined one into `true`. */
  lemma CopyKeepsDefinedFlags(s: Snapshot)
    ensures forall f :: s.Get(f) != Undefined ==> InitialSnapshot(Some(ConfigOf(s))).Get(f) == s.Get(f)
    ensures (forall f :: s.Get(f) != Undefined) ==> InitialSnapshot(Some(ConfigOf(s))) == s
  {
    var c := InitialSnapshot(Some(ConfigOf(s)));
    if forall f :: s.Get(f) != Undefined {
      assert c.Get(Stacktrace) == s.Get(Stacktrace) && c.Get(Screenshot) == s.Get(Screenshot);
      assert c.Get(ReportPost) == s.Get(ReportPost) && c.Get(ReportCallback) == s.Get(ReportCallback);
      assert c.Get(Platform) == s.Get(Platform) && c.Get(DOMDump) == s.Get(DOMDump);
    }
  }

  /** What a chaining accessor returns: the object itself after a set, or the
      stored value after a get. */
  datatype Accessed = Chained(self: Options) | Got(value: Value)

  class Options {
    var stacktrace: Value
    var screenshot: Value
    var reportPost: Value
    var reportCallback: Value
    var platform: Value  // `_reportToExceptionsJsPlatform`
    var domDump: Value

    function Current(): (s: Snapshot)
      reads this
    {
      Snapshot(stacktrace, screenshot, reportPost, reportCallback, platform, domDump)
    }

    /** `new Options(config)`: each flag defaults to `true` unless the config supplies it. */
    constructor (config: Option<Config>)
      ensures Current() == InitialSnapshot(config)
    {
      stacktrace := Initial(config, Stacktrace);
      screenshot := Initial(config, Screenshot);
      reportPost := Initial(config, ReportPost);
      reportCallback := Initial(config, ReportCallback);
      platform := Initial(config, Platform);
      domDump := Initial(config, DOMDump);
    }

    /** Overwrite the stored flags: the in-place effect of code outside the
        model (a guard rule) on this object. */
    method Assign(s: Snapshot)
      modifies this
      ensures Current() == s
    {
      stacktrace, screenshot, reportPost := s.stacktrace, s.screenshot, s.reportPost;
      reportCallback, platform, domDump := s.reportCallback, s.platform, s.domDump;
    }

    /** The accessor of flag `f` (`stacktrace(enable)`, `screenshot(enable)`, ...):
        without an argument it returns the stored value; with one it stores
        `Boolean(enable)` and returns the object itself. */
    method Access(f: Flag, enable: Value) returns (r: Accessed)
      modifies this
      ensures enable == Undefined ==> r == Got(old(Current()).Get(f)) && Current() == old(Current())
      ensures enable != Undefined ==> r == Chained(this) && Current() == old(Current()).With(f, ToBool(enable))
    {
      if enable != Undefined {
        Assign(Current().With(f, ToBool(enable)));
        r := Chained(this);
      } else {
        r := Got(Current().Get(f));
      }
    }

    /** `toggleAll(enable)` chains the six setters. With `enable` undefined the
        first accessor is a getter that returns a boolean, and calling the next
        accessor on that boolean raises a TypeError: `ok` is false and nothing
        changed. Otherwise all six flags hold `Boolean(enable)` and the object
        itself is returned. */
    method ToggleAll(enable: Value) returns (ok: bool)
      modifies this
      ensures ok <==> enable != Undefined
      ensures ok ==> Current() == Uniform(ToBool(enable))
      ensures !ok ==> Current() == old(Current())
    {
      if enable == Undefined {
        var _ := Access(Stacktrace, enable);
        return false;
      }
      var r := Access(Stacktrace, enable);
      r := Access(Screenshot, enable);
      r := Access(ReportPost, enable);
      r := Access(ReportCallback, enable);
      r := Access(Platform, enable);
      r := Access(DOMDump, enable);
      ok := true;
    }

    /** The `defaultOptions()` getter's copy: a fresh object built through a
        config holding this object's values. */
    method Copy() returns (o: Options)
      ensures fresh(o)
      ensures o.Current() == InitialSnapshot(Some(ConfigOf(Current())))
    {
      o := new Options(Some(ConfigOf(Current())));
    }
  }
}

=== FILE: utilities.dfy ===
/**
 * `utilities.functionName`: the name of a function, read off its source text
 * as `Function.prototype.toString` prints it.
 */
module Utilities {

  const FunctionKeyword := "function "

  /** The first index of `c` in `s`, or -1, as `String.prototype.indexOf`. */
  function IndexOf(s: string, c: char): (i: int)
    ensures -1 <= i < |s|
    ensures i == -1 <==> c !in s
    ensures i >= 0 ==> s[i] == c && c !in s[..i]
  {
    if s == [] then -1
    else if s[0] == c then 0
    else var j := IndexOf(s[1..], c); if j == -1 then -1 else j + 1
  }

  /** `s.substr(start)` for a non-negative start. */
  function SubstrFrom(s: string, start: nat): string {
    if start >= |s| then "" else s[start..]
  }

  /** `s.substr(0, len)`: a negative length is treated as zero. */
  function SubstrPrefix(s: string, len: int): string {
    if len <= 0 then "" else if len >= |s| then s else s[..len]
  }

  /** The text between the first nine characters (`"function "`) and the
      first `(` after them; empty when there is no `(`. */
  function FunctionName(source: string): (name: string)
    ensures '(' !in name
    ensures |name| + |FunctionKeyword| <= |source| || name == ""
  {
    var rest := SubstrFrom(source, |FunctionKeyword|);
    SubstrPrefix(rest, IndexOf(rest, '('))
  }

  /** The source text of a function declared as `function <name>(<params>) {...}`. */
  function DeclaredSource(name: string, params: string, body: string): string {
    FunctionKeyword + name + ParamsAndBody(params, body)
  }

  function ParamsAndBody(params: string, body: string): (t: string)
    ensures |t| > 0 && t[0] == '('
  {
    "(" + params + ") {" + body + "}"
  }

  /** `functionName` recovers the declared name of any function whose name
      holds no `(`; an anonymous function yields the empty name. */
  lemma {:induction false} FunctionNameOfDeclared(name: string, params: string, body: string)
    requires '(' !in name
    ensures FunctionName(DeclaredSource(name, params, body)) == name
  {
    var tail := ParamsAndBody(params, body);
    var src := FunctionKeyword + (name + tail);
    assert DeclaredSource(name, params, body) == src;
    assert src[|FunctionKeyword|..] == name + tail;
    var rest := SubstrFrom(src, |FunctionKeyword|);
    assert rest == name + tail;
    IndexOfAfterPrefix(name, tail, '(');
    assert rest[..|name|] == name;
  }

  lemma {:induction false} IndexOfAfterPrefix(prefix: string, tail: string, c: char)
    requires c !in prefix
    requires |tail| > 0 && tail[0] == c
    ensures IndexOf(prefix + tail, c) == |prefix|
  {
    if prefix == [] {
      assert prefix + tail == tail;
    } else {
      assert (prefix + tail)[1..] == prefix[1..] + tail;
      IndexOfAfterPrefix(prefix[1..], tail, c);
    }
  }

  /** Source text that is too short or lacks a `(` has the empty name. */
  lemma NoParenMeansEmptyName(source: string)
    requires '(' !in source
    ensures FunctionName(source) == ""
  {
    var rest := SubstrFrom(source, |FunctionKeyword|);
    assert forall i :: 0 <= i < |rest| ==> rest[i] in source;
  }
}
